=== FILE: README.md ===
# NBA parlay bot: a Dafny model of the pick pipeline

This project models the decision core of an NBA betting assistant. The assistant is
reachable as a Discord bot and as a command-line tool. Given a player's recent box
scores, prop lines and odds, it does the following:

- classifies each candidate pick as `REJECT`, `SAFE`, `NORMAL` or `MOONSHOT`;
- computes trend signals for it: hit count, hit rate, risk colour and confidence;
- ranks the candidates and selects the legs of a parlay.

It also models how data from the outside providers is combined:

- the fallback chains across SofaScore, the NBA API, BallDontLie, the Odds API and StatMuse;
- how each provider's response is reduced to the fields the bot uses;
- how stored picks are normalised.

The modules follow the program's files:

| module | models |
|---|---|
| `PickClassifier` | `src/lib/pickClassifier.js`: the stateless classifier |
| `TrendAnalyzer`, `PlayerModel` | `src/core/signals/TrendAnalyzer.js`, `src/data/models/Player.js` |
| `Constants`, `ColorMapper` | `src/config/constants.js`, `src/core/confidence/ColorMapper.js` |
| `ParlaySelection` | the classify-and-select rule shared by the slash command and the integration builder |
| `ParlayCommand` | `src/commands/parlay.js`: `handleParlayCommand`, `formatPickDisplay` |
| `ParlayIntegration` | `src/commands/parlay-integration-example.js` |
| `CliParlay` | `cli/commands/parlay.js`: option parsing, pick generation, risk and odds tiers |
| `Normalize` | `lib/normalize.js` |
| `SofaScoreApi`, `OddsApi`, `StatMuseApi` | the response-shaping parts of the three ingestion clients |
| `DataManager` | `src/data/ingestion/DataManager.js`: fallback chains, aggregation, parlay ranking |

Four helper modules give JavaScript's built-in semantics, stated once:

- `Js`: numbers with `NaN`, `Math.round`, `slice`;
- `JsString`: whitespace, ASCII case, `trim`, `includes`, `indexOf`, `Number()`/`parseInt` on decimal text, integer printing;
- `SeqUtil`: `filter`, and collecting the optional or list results of a function over a sequence, in order;
- `StableSort`: the stable `Array.prototype.sort` the program relies on.

Modelling conventions:

- JavaScript numbers are exact reals. `NaN` is modelled explicitly wherever the code can produce it, through `Js.Number`.
- Integer fields (hits, games, window, legs) are unbounded integers.
- Every network call becomes an `Option` input: `None` is a failed or empty response. Each fallback chain also returns which sources it consulted.
- The `explain` services and `Math.sqrt` are function parameters. They are outside code whose results are not specified here.

Two behaviours of the code a reader may not expect:

- `analyzePlayerTrend` divides the hit count by the requested window size, not by the number of games available. So a short history caps the hit rate below 1 (`TrendAnalyzer.ShortHistoryCapsHitRate`).
- `calculateConfidence` yields `NaN` when the average and the deviation are both zero, rather than a value in [0, 100] (`TrendAnalyzer.EmptyHistoryGivesNaN`).

## Model

| member | source | states |
|---|---|---|
| PickClassifier.ToNumberOdds | src/lib/pickClassifier.js:36-45 | missing odds give no number; numeric odds pass through unchanged; text odds that parse give a finite number |
| PickClassifier.TextOddsRoundTrip | src/lib/pickClassifier.js:36-45 | the text of any integer, with or without a leading `+`, reads back as that integer |
| PickClassifier.MoonshotMinClearsGlobalBad | src/lib/pickClassifier.js:12-68 | for a table window, reaching the moonshot minimum already rules out the global-bad range, so eligibility holds exactly when hits reach the minimum and the odds are a number of at least +100 |
| PickClassifier.MoonshotEligibleMonotone | src/lib/pickClassifier.js:60-68 | an eligible pick stays eligible with more hits and longer odds |
| PickClassifier.ComputeConfidence | src/lib/pickClassifier.js:70-78 | confidence is an integer in [0, 100]; it is 0 without games and otherwise the rounded hit percentage |
| PickClassifier.ComputeConfidenceMonotone | src/lib/pickClassifier.js:70-78 | more hits over the same games never lower the confidence |
| PickClassifier.ClassifyPick | src/lib/pickClassifier.js:87-173 | a window other than 5, 10 or 15 is rejected; so is a global-bad pick; otherwise each label holds exactly when its mode rule holds; an unknown mode rejects; the confidence is always `computeConfidence(hits, games)` |
| PickClassifier.ConfidenceIgnoresModeWindowOdds | src/lib/pickClassifier.js:87-89 | two picks with the same hits and games get the same confidence, whatever their window, odds or mode |
| PickClassifier.GlobalBadRejectedInEveryMode | src/lib/pickClassifier.js:99-106 | with a valid window, a global-bad pick is rejected in every mode with a "Global bad" reason |
| PickClassifier.MoonshotFallsBackToNormal | src/lib/pickClassifier.js:108-119 | in moonshot mode, a pick that is not moonshot-eligible is classified exactly as in normal mode |
| PickClassifier.EligibleMoonshotIsMoonshot | src/lib/pickClassifier.js:109-116 | a valid, not globally bad, moonshot-eligible pick is labelled MOONSHOT in moonshot mode |
| PickClassifier.SafeAndNormalAgreeOnLabel | src/lib/pickClassifier.js:121-165 | safe and normal mode assign the same label to every pick, because both compare hits with the same table |
| PickClassifier.UnknownModeRejectsEverything | src/lib/pickClassifier.js:167-172 | a mode other than safe, normal or moonshot rejects every pick |
| PickClassifier.ThreeOfFiveInMoonshot | src/lib/pickClassifier.js:108-159 | 3 hits in 5 of 5 games is MOONSHOT in moonshot mode at odds of at least +100 and NORMAL below |
| PickClassifier.GlobalBadScenario | test/pickClassifier.test.js:6-10 | 2 of 5 at +120 is rejected as global bad in normal mode |
| PickClassifier.SafeScenario | test/pickClassifier.test.js:12-15 | 9 of 10 at -110 is SAFE in safe mode |
| PickClassifier.NormalScenario | test/pickClassifier.test.js:17-20 | 7 of 10 at -110 is NORMAL in normal mode |
| PickClassifier.MoonshotScenario | test/pickClassifier.test.js:22-25 | 3 of 5 at "+125" is MOONSHOT in moonshot mode |
| PickClassifier.MoonshotBelowMinimumScenario | test/pickClassifier.test.js:27-30 | 2 of 5 at "+180" is not MOONSHOT |
| PickClassifier.MoonshotFallbackScenario | src/lib/pickClassifier.js:109-119 | 3 of 5 at "+80" falls back to NORMAL in moonshot mode |
| TrendAnalyzer.WindowSize | src/core/signals/TrendAnalyzer.js:32-35 | `last_5` gives 5, `last_15` gives 15, every other name gives 10, and the size is positive |
| TrendAnalyzer.DetermineColor | src/core/signals/TrendAnalyzer.js:15-20 | green exactly when hits reach the window's green minimum; orange exactly between the orange and green minima; red otherwise |
| TrendAnalyzer.ThresholdsForIsATableEntry | src/core/signals/TrendAnalyzer.js:16 | the looked-up thresholds are always one of the three table rows, with orange below green |
| TrendAnalyzer.DetermineColorMonotone | src/core/signals/TrendAnalyzer.js:17-19 | more hits never give a worse colour |
| TrendAnalyzer.RecognisedWindowThresholds | src/core/signals/TrendAnalyzer.js:16 | every window name `getWindowSize` recognises selects its own row of the confidence table |
| TrendAnalyzer.UpperCaseWindowMismatch | src/core/signals/TrendAnalyzer.js:5-9 | for `"LAST_5"` the window size is 10 but the colour thresholds are those of the 5-game row |
| TrendAnalyzer.NormalizedVariance | src/core/signals/TrendAnalyzer.js:24 | NaN exactly when average and deviation are both 0; minus infinity exactly when the average is 0 and the deviation negative; otherwise at most 1, and in [0, 1] for a positive average |
| TrendAnalyzer.CushionAdjustment | src/core/signals/TrendAnalyzer.js:26-28 | +5 exactly when the average exceeds the threshold by more than 15%; -10 exactly when it falls more than 5% short; else 0 |
| TrendAnalyzer.CalculateConfidence | src/core/signals/TrendAnalyzer.js:22-30 | a finite result lies in [0, 100]; NaN exactly when average and deviation are both 0; with no deviation and a nonzero average it is the clamped hit percentage plus the cushion |
| TrendAnalyzer.CalculateConfidenceMonotone | src/core/signals/TrendAnalyzer.js:22-30 | more hits never lower a finite confidence, and NaN does not depend on hits |
| TrendAnalyzer.AnalyzePlayerTrend | src/core/signals/TrendAnalyzer.js:4-13 | the window size is `getWindowSize(window)`; hit count, average, deviation and confidence are the player's trend count, average, variance and `calculateConfidence` over that size; the hit rate is hit count over window size, in [0, 1]; the colour comes from the window name |
| TrendAnalyzer.ShortHistoryCapsHitRate | src/core/signals/TrendAnalyzer.js:12 | with fewer games than the window, the hit rate is below 1 even when every game hits |
| TrendAnalyzer.EmptyHistoryGivesNaN | src/core/signals/TrendAnalyzer.js:4-13 | an empty history gives a NaN confidence and a red colour |
| PlayerModel.NewPlayer | src/data/models/Player.js:2-8 | name and team are copied; missing recent games default to the empty list |
| PlayerModel.TrendCount | src/data/models/Player.js:17-20 | the count is the number of sampled games whose stat reaches the threshold, so at most the window, the sample and the history |
| PlayerModel.CountAtLeastIsHitIndices | src/data/models/Player.js:19 | the recursive count equals the number of positions whose value reaches the threshold |
| PlayerModel.AverageStat | src/data/models/Player.js:10-15 | an empty sample averages to 0; otherwise the average times the sample size is the sum of the sampled values |
| PlayerModel.GetVarianceIsDeviation | src/data/models/Player.js:22-29 | the result is non-negative; 0 for fewer than two games; otherwise the square root of the population variance of the sample |
| PlayerModel.CountAtLeastAntitone | src/data/models/Player.js:19 | raising the threshold never increases the count |
| PlayerModel.CountAtLeastExtremes | src/data/models/Player.js:19 | the count is the whole sample exactly when every value reaches the threshold, and 0 exactly when none does |
| PlayerModel.AverageWithinBounds | src/data/models/Player.js:10-15 | the average of a non-empty sample lies between any lower and upper bound of its values |
| PlayerModel.MissingStatCountsAsZero | src/data/models/Player.js:19 | a game without the stat counts as a hit exactly when the threshold is at most 0 |
| Constants.ColorThresholdsOrdered | src/config/constants.js:2-6 | in every window row the orange minimum is below the green minimum, which fits in the window |
| Constants.ModeCriteriaTable | src/config/constants.js:22-26 | safe needs 65 and green; normal needs 50 and green or orange; moonshot needs 35 and any colour |
| Constants.RiskConfigOrdered | src/config/constants.js:29-33 | the risk tiers need strictly decreasing confidence and allow increasing variance |
| ColorMapper.GetEmoji | src/core/confidence/ColorMapper.js:4-7 | each known colour gets its own glyph, and every other name gets the orange glyph |
| ColorMapper.GetDisplayString | src/core/confidence/ColorMapper.js:9-12 | the text reads back as hit count, `/`, window size, then exactly ` games ` and the colour's glyph, and nothing else |
| ColorMapper.TrendColorsHaveDistinctGlyphs | src/core/confidence/ColorMapper.js:4-7 | the three trend colours map to three different glyphs |
| SofaScoreApi.NbaEvents | src/data/ingestion/SofaScoreAPI.js:20-22 | the result holds exactly the NBA events of the schedule |
| SofaScoreApi.NbaEventsInOrder | src/data/ingestion/SofaScoreAPI.js:20-22 | the filter keeps schedule order and leaves an all-NBA schedule unchanged |
| SofaScoreApi.GetTodaysNbaGames | src/data/ingestion/SofaScoreAPI.js:11-30 | a failed request gives null; otherwise the NBA events |
| SofaScoreApi.GetTeamForm | src/data/ingestion/SofaScoreAPI.js:46-73 | null exactly when the request fails; otherwise the first five events are tallied: wins are the events won, wins plus losses equal games counted, at most 5, and the form text reads back as the wins, `W-`, the losses and a final `L` |
| SofaScoreApi.Tally | src/data/ingestion/SofaScoreAPI.js:53-68 | wins are the events won, losses the rest, and the form text reads back as the wins, `W-`, the losses and a final `L` |
| SofaScoreApi.FormReadsBack | src/data/ingestion/SofaScoreAPI.js:68 | the text `{wins}W-{losses}L` parses back to both counts |
| SofaScoreApi.AllWinsIffNoLosses | src/data/ingestion/SofaScoreAPI.js:54-60 | every game is counted as a win exactly when each was won |
| SofaScoreApi.OlderEventsIgnored | src/data/ingestion/SofaScoreAPI.js:53 | events after the fifth do not change the form |
| SofaScoreApi.GetPlayerByName | src/data/ingestion/SofaScoreAPI.js:101-121 | null exactly when no result is a basketball player; otherwise the first one |
| OddsApi.MarketProps | src/data/ingestion/OddsAPI.js:38-49 | one prop per outcome, carrying its name, line, price, game and bookmaker |
| OddsApi.GameProps | src/data/ingestion/OddsAPI.js:34-51 | a game without bookmakers contributes nothing; otherwise the first bookmaker's markets contribute in market order, each market's props sitting in its own slice |
| OddsApi.MarketsPropsInOrder | src/data/ingestion/OddsAPI.js:37-49 | the props of the j-th market are exactly the slice between the outcome counts before and up to it, so props follow market order, then outcome order |
| OddsApi.ParsePlayerProps | src/data/ingestion/OddsAPI.js:30-53 | no data gives no props; otherwise the props of the i-th game are exactly its slice of the result, in game order |
| OddsApi.AllGamePropsInOrder | src/data/ingestion/OddsAPI.js:34-51 | the props of the i-th game are exactly the slice between the prop counts before and up to it |
| OddsApi.ParsePlayerPropsAppend | src/data/ingestion/OddsAPI.js:34-51 | parsing one more game appends exactly that game's props |
| OddsApi.GameWithoutBookmakersAddsNothing | src/data/ingestion/OddsAPI.js:35 | a game with no bookmakers leaves the result unchanged |
| OddsApi.OnlyFirstBookmakerCounts | src/data/ingestion/OddsAPI.js:36 | bookmakers after the first never change a game's props |
| OddsApi.MarketsPropsIgnoresBookmakers | src/data/ingestion/OddsAPI.js:36-49 | market props depend on the game only through its title |
| OddsApi.PlayerPrefixRemoved | src/data/ingestion/OddsAPI.js:41 | the market key `player_points` is reported as `points` |
| OddsApi.GetPlayerProps | src/data/ingestion/OddsAPI.js:9-28 | no request without an API key; a failed request gives null; a received response gives its parsed props |
| StatMuseApi.Slug | src/data/ingestion/StatMuseAPI.js:12 | the slug has no whitespace and no capitals, and text without whitespace is just lower-cased |
| StatMuseApi.SlugIdempotent | src/data/ingestion/StatMuseAPI.js:12 | slugging a slug changes nothing |
| StatMuseApi.SlugOfSlugForm | src/data/ingestion/StatMuseAPI.js:12 | lower-case text without whitespace is its own slug |
| StatMuseApi.WhitespaceRunBecomesOne | src/data/ingestion/StatMuseAPI.js:12 | a whole run of whitespace after a word is replaced by the replacement text once, and the word is kept |
| StatMuseApi.SlugOfSpacedWords | src/data/ingestion/StatMuseAPI.js:12 | two words separated by any run of whitespace become the two lower-cased words joined by one `-` |
| StatMuseApi.WhitespaceRunsReplaced | src/data/ingestion/StatMuseAPI.js:12 | replacing whitespace runs by whitespace-free, lower-case text leaves no whitespace and no capitals |
| StatMuseApi.AskUrl | src/data/ingestion/StatMuseAPI.js:13 | the URL is the ask endpoint followed by a whitespace-free question |
| StatMuseApi.Query | src/data/ingestion/StatMuseAPI.js:9-29 | a result exactly when the request succeeds, and its URL is the question's ask URL |
| StatMuseApi.LeadersQuestion | src/data/ingestion/StatMuseAPI.js:34-41 | each of the four known stats asks its own leaders question; every other stat asks the points-leaders question |
| StatMuseApi.GetPlayerLeaders | src/data/ingestion/StatMuseAPI.js:31-50 | the URL is the ask URL of the stat's fixed leaders question, used without slugging; an unknown stat asks the points-leaders question |
| StatMuseApi.GetPlayerComparison | src/data/ingestion/StatMuseAPI.js:52-58 | asks "`player1`-vs-`player2`-stats" |
| StatMuseApi.GetPlayerCareerStats | src/data/ingestion/StatMuseAPI.js:60-66 | asks "`name`-career-stats" |
| StatMuseApi.SluggedNamesPassThrough | src/data/ingestion/StatMuseAPI.js:52-58 | names already in slug form appear in the comparison URL unchanged |
| DataManager.FirstNonEmpty | src/data/ingestion/DataManager.js:140-169 | the first non-empty source answers; the earlier ones are empty and no later one is asked; an empty answer means every source was empty |
| DataManager.GetTodaysGames | src/data/ingestion/DataManager.js:140-169 | SofaScore first, then the NBA API, then BallDontLie, else the empty list after three tries |
| DataManager.FromBallDontLie | src/data/ingestion/DataManager.js:97-108 | the BallDontLie branch carries the season averages and no recent games |
| DataManager.FromSofaScore | src/data/ingestion/DataManager.js:119-130 | the SofaScore branch carries no averages, no recent games and no SofaScore id |
| DataManager.EnrichPlayerData | src/data/ingestion/DataManager.js:86-138 | averages are asked for exactly when BallDontLie finds the player; SofaScore is asked exactly when no averages came back; no branch sets recent games |
| DataManager.TeamsPlaying | src/data/ingestion/DataManager.js:29-33 | the set holds exactly the lower-cased non-empty home and away team names of the games |
| DataManager.InferredLine | src/data/ingestion/DataManager.js:48-49 | with a truthy season points average, `Math.round` of one more than it, a whole number within 0.5; otherwise 20.5 with a SofaScore id and 19.5 without |
| DataManager.InferProp | src/data/ingestion/DataManager.js:37-62 | a prop exactly when the enriched player's team plays today; it has odds -110, the inferred line and the StatMuse career source |
| DataManager.InferProps | src/data/ingestion/DataManager.js:35-66 | at most one prop per name, all at -110; each prop is the prop of some name, every name's prop is present, and none exactly when no name plays today |
| DataManager.InferPropsAppend | src/data/ingestion/DataManager.js:35-66 | one more name appends its prop, if any, so props come in name order |
| DataManager.GetMockPlayerProps | src/data/ingestion/DataManager.js:390-417 | three mock props, for the three fallback names in order |
| DataManager.GetPlayerProps | src/data/ingestion/DataManager.js:17-84 | inferred props when any exist; otherwise the Odds API when it answers; otherwise mock data; never an empty result |
| DataManager.EnrichedLineNeverSofaDefault | src/data/ingestion/DataManager.js:49 | the line inferred for an enriched player is never the 20.5 default |
| DataManager.FindProp | src/data/ingestion/DataManager.js:250-257 | nothing exactly when no prop matches the player's first-name key; otherwise the first match |
| DataManager.Matched | src/data/ingestion/DataManager.js:250-253 | a prop exactly when the odds call answered and one matches the first-name key; that prop is one of the props and matches |
| DataManager.BaseAggregate | src/data/ingestion/DataManager.js:212-257 | the enrichment's team and season averages (none without enrichment), the SofaScore entity, the StatMuse career-stats URL and the matched prop as sources; playing today exactly when a prop matches; the SofaScore id only when nonzero, and stats only with an id; confidence 50 and no trend |
| DataManager.WithTrend | src/data/ingestion/DataManager.js:260-285 | only confidence and trend data change: the confidence is the points trend's confidence rounded, and the trend data are its hit count, window, average, deviation and colour; the hit count is the games over the line among the last 10; the confidence is NaN or in [0, 100] |
| DataManager.AggregatePlayerInfo | src/data/ingestion/DataManager.js:212-299 | team, averages and matched prop as above; without five recent games the confidence is 50 and there is no trend; with them the confidence and trend data are those of the points trend over the last 10 against the matched line |
| DataManager.AggregationAlwaysFallsBack | src/data/ingestion/DataManager.js:260-290 | for any enriched player the aggregate takes the fallback: confidence 50 and no trend |
| DataManager.AddName | src/data/ingestion/DataManager.js:308 | adding a name keeps the earlier names in front and keeps the names distinct |
| DataManager.AddNamesDistinct | src/data/ingestion/DataManager.js:303-312 | the candidate name list never repeats a name |
| DataManager.AddNamesMembers | src/data/ingestion/DataManager.js:303-312 | the list holds exactly the starting names and the added ones |
| DataManager.AddNamesKeepsPrefix | src/data/ingestion/DataManager.js:303-312 | the starting names stay in front, in their order |
| DataManager.Candidates | src/data/ingestion/DataManager.js:303-316 | distinct names; a name is a candidate exactly when it is a fallback name or a player name in the odds; the odds names come first; the whole list is the first occurrences of the odds names followed by the stars, so with no odds names it is Curry, James, Antetokounmpo, Durant, Doncic in that order |
| DataManager.AddNamesIsFirstOccurrences | src/data/ingestion/DataManager.js:303-312 | adding names one by one to an insertion-ordered set gives each distinct name once, at its first occurrence |
| DataManager.FirstOccurrencesMembers | src/data/ingestion/DataManager.js:303-312 | the first occurrences hold exactly the names of the input |
| DataManager.FirstOccurrencesOfDistinct | src/data/ingestion/DataManager.js:311-312 | a list without repeats is unchanged |
| DataManager.PropNamesAppend | src/data/ingestion/DataManager.js:308 | names are collected in prop order, skipping empty names |
| DataManager.AggregateAll | src/data/ingestion/DataManager.js:315-319 | each aggregate is the successful result for some candidate, and every successful result is kept |
| DataManager.AggregateAllAppend | src/data/ingestion/DataManager.js:315-319 | one more candidate appends its aggregate, if any, so aggregates come in candidate order |
| DataManager.RankAggregated | src/data/ingestion/DataManager.js:322-329 | the first `min(legs, n)` items of the stable sort by playing-today then confidence; a negative count drops that many from its end, as `slice` does; none left out ranks higher |
| DataManager.PlayingTodayRanksFirst | src/data/ingestion/DataManager.js:322-326 | a player playing today is never ranked below one who is not |
| DataManager.ToPick | src/data/ingestion/DataManager.js:330-341 | the pick keeps name, confidence, playing-today and sources; the line is a truthy odds line, else the whole number within 0.5 of one more than a truthy season average, else 20.5; the odds are the prop's nonzero price, else -110 |
| DataManager.Ranked | src/data/ingestion/DataManager.js:315-329 | the first `min(legs, n)` of the candidates' aggregates in their stable sort (a negative count drops that many from its end), with finite confidences |
| DataManager.GenerateParlay | src/data/ingestion/DataManager.js:302-353 | `min(legs, n)` picks (3 legs by default; a negative count drops that many from the end of the ranking, as `slice` does), the i-th being the pick of the i-th aggregate in the stable ranking; finite confidences in non-increasing order |
| DataManager.GenerateParlayKeepsTies | src/data/ingestion/DataManager.js:322-329 | the picks are those of the ranked aggregates, and aggregates of equal rank keep their candidate order |
| DataManager.GeneratedPicksComeFromCandidates | src/data/ingestion/DataManager.js:302-342 | every pick is the pick of some candidate name's aggregate |
| StableSort.Sort | cli/commands/parlay.js:128 | the result is sorted by key in descending order and is a permutation of the input |
| StableSort.SortIsStable | cli/commands/parlay.js:128 | items with equal keys keep their input order |
| StableSort.TopByKey | cli/commands/parlay.js:128-129 | the first `min(n, |s|)` items of the stable sort; a negative count drops that many from its end, as `slice` does; every item left out ranks no higher than every item kept |
| StableSort.TopByKeyIsStable | cli/commands/parlay.js:128-129 | items with equal keys that are kept appear in their input order |
| ParlaySelection.SelectByMode | src/commands/parlay.js:45-60 | exactly `min(legs, n)` items, the first ones of the order the mode considers; never REJECT; only SAFE in safe mode; MOONSHOT only in moonshot mode |
| ParlaySelection.ModeOrderLabels | src/commands/parlay.js:46-60 | the order a mode considers holds exactly the items with the labels that mode admits |
| ParlaySelection.MoonshotOrderAdmits | src/commands/parlay.js:52-55 | in moonshot mode the order holds exactly the input items not labelled REJECT |
| ParlaySelection.OtherOrderAdmits | src/commands/parlay.js:48-51 | in normal mode, and for any unrecognised mode, the order holds exactly the input items labelled SAFE or NORMAL |
| ParlaySelection.SelectionIsPrefixOfOrder | src/commands/parlay.js:45-60 | the selection is the first `min(legs, n)` items of the mode's order; a negative count drops that many from its end, as `slice` does |
| ParlaySelection.SafeModeKeepsInputOrder | src/commands/parlay.js:46-47 | in safe mode the selection is a subsequence of the input |
| ParlaySelection.SafeBeforeNormal | src/commands/parlay.js:48-51 | in normal mode no NORMAL pick comes before a SAFE one |
| ParlaySelection.MoonshotFirst | src/commands/parlay.js:52-55 | in moonshot mode no other pick comes before a MOONSHOT one |
| ParlaySelection.EnoughSafeFillsNormal | src/commands/parlay.js:48-51 | with at least `legs` SAFE picks, normal mode selects only SAFE picks |
| ParlaySelection.AllRejectedSelectsNothing | src/commands/parlay-integration-example.js:47-52 | if every item is rejected, nothing is selected |
| ParlaySelection.MoreLegsExtend | src/commands/parlay.js:47-59 | asking for more legs extends the selection and never reorders it |
| ParlaySelection.EffectiveWindow | src/commands/parlay.js:39 | a candidate's own nonzero window wins; otherwise the fallback |
| ParlaySelection.ClassifyAll | src/commands/parlay.js:37-43 | one classification per candidate, in order, using the candidate's effective window |
| ParlaySelection.Choose | src/commands/parlay.js:37-60 | exactly `min(legs, n)` candidates with their own classifications, the first ones of the mode's preference order; never REJECT; SAFE only in safe mode; an unknown mode chooses nothing |
| ParlaySelection.ChooseMoreLegs | src/commands/parlay.js:45-60 | more legs extend the choice |
| ParlaySelection.UnknownModeRejectsAll | src/lib/pickClassifier.js:167-172 | in an unknown mode every candidate is classified REJECT |
| ParlaySelection.OwnWindowsIgnoreFallback | src/commands/parlay-integration-example.js:26 | when every candidate has its own window, the fallback window does not matter |
| ParlayCommand.NormalizeLegs | src/commands/parlay.js:11 | 0 or missing legs become 4; other values are kept |
| ParlayCommand.NormalizeWindow | src/commands/parlay.js:12 | a window of 5, 10 or 15 is kept; anything else becomes 10 |
| ParlayCommand.NormalizeMode | src/commands/parlay.js:13-14 | the lower-cased mode when it is known, else `normal` |
| ParlayCommand.ModeIsCaseInsensitive | src/commands/parlay.js:13 | `SAFE` and `Moonshot` are read as `safe` and `moonshot` |
| ParlayCommand.KnownModeIsKept | src/commands/parlay.js:13-14 | a known lower-case mode is kept |
| ParlayCommand.UnknownModeIsNormal | src/commands/parlay.js:13-14 | an unknown or empty mode becomes `normal` |
| ParlayCommand.DefaultCandidates | src/commands/parlay.js:16-23 | four sample candidates, all with the requested window and no player or team |
| ParlayCommand.Fetched | src/commands/parlay.js:25-27 | without a fetcher the sample candidates; a fetcher that returns nothing gives no candidates |
| ParlayCommand.ToLeg | src/commands/parlay.js:63-76 | each leg carries the candidate's id, text, odds, hits and games, non-empty names, and the classification's reason and confidence |
| ParlayCommand.LegTextsReadBack | src/commands/parlay.js:71-73 | the hit-rate text reads back as hits, `/`, games |
| ParlayCommand.ChosenLegsFromCandidates | src/commands/parlay.js:37-77 | each leg comes from a candidate and its classification |
| ParlayCommand.HandleParlayCommand | src/commands/parlay.js:4-96 | exactly `min(legs, n)` legs under the normalised legs, window and mode; the i-th leg is built from the i-th candidate of the mode's preference order and its classification; no candidates gives no legs |
| ParlayCommand.MoreLegsAppend | src/commands/parlay.js:45-60 | asking for more legs extends the reply |
| ParlayCommand.TitleEntity | src/commands/parlay.js:104 | player name, else team name, else the pick text, else a fixed default; never empty |
| ParlayCommand.ConfidenceText | src/commands/parlay.js:108 | `N/A` exactly when confidence is missing; otherwise a text ending in `%` |
| ParlayCommand.ConfidenceTextReadsBack | src/commands/parlay.js:108 | the percentage text reads back as the rounded confidence |
| ParlayCommand.DisplayTitle | src/commands/parlay.js:104-107 | the title entity, then ` — ` and the upper-cased market when there is a market, then a space and the rendered line when there is a line, and nothing else (the length is the sum of the parts) |
| ParlayCommand.HitRateText | src/commands/parlay.js:109 | hits, ` / `, games when both are known, and both read back; otherwise the confidence text |
| ParlayCommand.DisplayBody | src/commands/parlay.js:113 | starts with the confidence line and the hit-rate line; ends with the explanation when there is one, and is just those two lines otherwise |
| ParlayCommand.FormatPickDisplay | src/commands/parlay.js:102-115 | the field name is the display title (entity, market, line) and the value the display body |
| ParlayIntegration.BuilderWindow | src/commands/parlay-integration-example.js:21 | the first candidate's window, else 10; never 0 |
| ParlayIntegration.ToIntegrationLeg | src/commands/parlay-integration-example.js:57-75 | the leg carries the candidate's fields, the classification's label, reason and confidence, and the explainer's text |
| ParlayIntegration.IntegrationHitRateReadsBack | src/commands/parlay-integration-example.js:69 | the leg's hit rate reads back as the hits, ` / `, then the games |
| ParlayIntegration.BuildParlayFromCandidates | src/commands/parlay-integration-example.js:20-79 | exactly `min(legs, n)` picks, 4 by default, the i-th built from the i-th candidate of the mode's preference order; never REJECT, SAFE only in safe mode; a mode the classifier does not know, upper case included, selects nothing |
| ParlayIntegration.CommandAgreesWithBuilder | src/commands/parlay-integration-example.js:20-79 | with candidate windows and a known mode, the slash command and the builder select the same picks in the same order |
| CliParlay.ParseOptions | cli/commands/parlay.js:91-104 | legs, mode and window are never empty; input without `--` gives the defaults |
| CliParlay.ParseOptionsAppend | cli/commands/parlay.js:91-104 | a further `--part` at the end of the input (no `--` inside it, no dash before it) applies over the options the rest of the input gave |
| CliParlay.ParseOptionsOneOption | cli/commands/parlay.js:91-104 | a command without `--` followed by one `--part` gives that part applied over the defaults |
| CliParlay.ParseOptionsLegsLast | cli/commands/parlay.js:91-104 | a command line ending in `--legs n` has `n` legs, or 3 when `n` is 0, whatever came before |
| CliParlay.SplitOnDashes | cli/commands/parlay.js:93 | splitting `s + "--" + part` on `--` gives the pieces of `s` followed by `part` |
| CliParlay.Apply | cli/commands/parlay.js:98-100 | applying an option never empties a set field |
| CliParlay.LegsFrom | cli/commands/parlay.js:98 | a parsed legs value is never 0, and it is 3 for any value without a digit |
| CliParlay.OptionPartReadsBack | cli/commands/parlay.js:97 | a `key value` part splits back into its key and value |
| CliParlay.LegsOptionRoundTrip | cli/commands/parlay.js:98 | `--legs n` sets legs to `n`, or 3 when `n` is 0 |
| CliParlay.ModeOptionRoundTrip | cli/commands/parlay.js:99 | `--mode m` sets the mode to `m` |
| CliParlay.WindowOptionRoundTrip | cli/commands/parlay.js:100 | `--window w` sets the window to `w` |
| CliParlay.HalfPointLine | cli/commands/parlay.js:177 | the line is a multiple of one half within a quarter of the average |
| CliParlay.AveragedLine | cli/commands/parlay.js:174-179 | no line exactly when no roster entry with that name has games; otherwise the half-point rounding of the points average of the first entry with that name and games |
| CliParlay.LinesFor | cli/commands/parlay.js:167-182 | fixed lines for the known players, else at most the one averaged line |
| CliParlay.AveragedLineNearAverage | cli/commands/parlay.js:176-177 | the averaged line lies within a quarter of the points average |
| CliParlay.CalculateRisk | cli/commands/parlay.js:211-216 | each risk tier holds exactly when its confidence and variance bounds hold and the better tiers' do not |
| CliParlay.CalculateRiskMonotone | cli/commands/parlay.js:211-216 | higher confidence and lower variance never give a worse tier |
| CliParlay.GenerateOdds | cli/commands/parlay.js:218-224 | each price holds exactly on its confidence band |
| CliParlay.GenerateOddsMonotone | cli/commands/parlay.js:218-224 | higher confidence never gives a longer price |
| CliParlay.ModeCriteriaMeaning | cli/commands/parlay.js:204-209 | safe needs green and 65; moonshot needs 35; a name inherited from `Object.prototype` admits nothing; every other mode uses the normal row |
| CliParlay.CriteriaNested | cli/commands/parlay.js:204-209 | a safe pick meets normal, and a normal pick meets moonshot |
| CliParlay.NaNNeverMeetsCriteria | cli/commands/parlay.js:204-209 | a NaN confidence never meets any mode's criteria |
| CliParlay.AnalyzePick | cli/commands/parlay.js:184-202 | no pick exactly when the trend's confidence is below 35; otherwise the pick carries the trend's confidence, colour and hit count, with odds and risk from that confidence and the deviation |
| CliParlay.PassingPick | cli/commands/parlay.js:121-123 | a pick exactly when the analysis gives one that meets the mode's criteria, and then it is that analysis |
| CliParlay.LinePicks | cli/commands/parlay.js:120-125 | at most one pick per line, for this player; each is the passing analysis of some line, and every line whose analysis passes contributes it |
| CliParlay.LinePicksAppend | cli/commands/parlay.js:120-125 | one more line appends its passing pick, if any, so picks come in line order |
| CliParlay.CandidatePicks | cli/commands/parlay.js:115-126 | every candidate pick meets the mode's criteria and comes from some roster player's picks, and every such pick is present |
| CliParlay.CandidatePicksAppend | cli/commands/parlay.js:115-126 | one more player appends that player's picks, so picks come in roster order |
| CliParlay.GeneratePicks | cli/commands/parlay.js:106-130 | the first `min(legs, n)` admitted picks of the stable sort by confidence; a negative count drops that many from its end, as `slice` does; none left out ranks higher |
| CliParlay.GeneratePicksKeepsTies | cli/commands/parlay.js:128-129 | picks of equal confidence keep their candidate order |
| CliParlay.RiskScore | cli/commands/parlay.js:324-325 | each risk name scores its tier, 1 to 4 |
| CliParlay.OverallRisk | cli/commands/parlay.js:323-330 | each label holds exactly on its band of average score; an empty parlay is Low |
| CliParlay.UniformRiskKeepsLabel | cli/commands/parlay.js:323-330 | a parlay whose legs all share one risk gets that risk's label |
| Normalize.LazyCut | lib/normalize.js:12 | finds the earliest cut position matching the pattern, or reports that none exists |
| Normalize.LazyCutFinds | lib/normalize.js:12 | a matching position with no earlier match from the start position is what the search returns |
| Normalize.ParseDescPlayer | lib/normalize.js:4-19 | null exactly for a missing or empty text; otherwise the trimmed text before the first cut, with no edge whitespace |
| Normalize.OneWordBeforeOverUnder | lib/normalize.js:12-13 | a one-word name before `Over` or `Under` is the player name |
| Normalize.OneWordDescIsItself | lib/normalize.js:17-18 | a single trimmed word is its own player name |
| Normalize.BlankDescGivesEmptyName | lib/normalize.js:17-18 | a single space gives the empty player name |
| Normalize.DescPlayer | lib/normalize.js:17-18 | the desc-derived name is never empty, and otherwise agrees with `parseDescPlayer` |
| Normalize.InferMarket | lib/normalize.js:21-30 | null for an empty text; otherwise each of points, rebounds, threes, spread and total holds exactly when its word occurs in the lower-cased text and no earlier one does, with over/under matched as whole words; null exactly when none occurs |
| Normalize.MarketIgnoresCase | lib/normalize.js:23 | upper-casing the text never changes the market |
| Normalize.ColorFromConfidence | lib/normalize.js:51-56 | grey without confidence; green from 80; orange from 60; red below |
| Normalize.RiskFromConfidence | lib/normalize.js:58-63 | unknown without confidence; low from 75; high from 50; very_high below; never moderate |
| Normalize.TiersMonotone | lib/normalize.js:51-63 | higher confidence never gives a worse colour or a higher risk |
| Normalize.PlayerNameOf | lib/normalize.js:68 | an explicit player name wins; otherwise the name from the text; never empty |
| Normalize.TeamNameOf | lib/normalize.js:70 | an explicit team wins; otherwise the player name when it starts with `team` and whitespace, else nothing |
| Normalize.OddsOf | lib/normalize.js:74 | explicit odds, or null, or the truthy alternative field |
| Normalize.NormalizePick | lib/normalize.js:65-91 | a given market is kept, else the inferred one; the odds follow `OddsOf`; an explicit line, hits or games is kept, and an absent one falls back to the truthy alternative field; a given colour or risk is kept, else derived from confidence; the explanation is trimmed, or from the sources when blank |
| Normalize.NormalizePicks | lib/normalize.js:98 | one normalised pick per raw pick, in order |
| Normalize.NormalizeParlay | lib/normalize.js:93-100 | the i-th pick is the normalised i-th raw pick; the id is the given id, else the generation time, else `parlay_` and the clock; the timestamp is the first given of timestamp, creation time, generation time and the current time; metadata is carried over or empty |

## Left out

- HTTP (axios), Discord replies and embeds, console logging and the CLI's `displayParlay` are left out. Each network answer is an `Option` input; a failed request is `None`.
- Saving parlays (`saveParlay` in `DataManager.js` and in `cli/commands/parlay.js`) is left out: it is file persistence.
- `calculateParlayOdds` (cli/commands/parlay.js:306-321) is left out: it is floating-point display arithmetic.
- The percentage string of `getTeamForm` is left out, because `toFixed` has no exact counterpart here. The form string is modelled.
- `generateMockRecentGames`, `convertPropsToPlayerData` and `src/data/models/Pick.js` are left out: they use randomness and the clock. The CLI roster is a parameter standing in for `MOCK_PLAYERS`.
- The explanation generators are function parameters whose text is not constrained. This covers `explainPick`, `explanationFromSources`, `ExplanationGenerator` and `getExplanation`.
- These operations only forward a provider's answer, so they are left out:
  - `getLiveScores`, `getInjuryReport` and `getPlayerStats` in `SofaScoreAPI.js`;
  - `getGameOdds` in `OddsAPI.js`;
  - `getTrendingQueries` in `StatMuseAPI.js`;
  - `getLiveScores`, `getInjuryReport` and `queryStatMuse` in `DataManager.js`;
  - `DataManager.getTeamForm`, which returns null.
- The error path of `aggregatePlayerInfo` (DataManager.js:292-296) is left out. Its result is the same default aggregate of confidence 50 that the fallback gives.
- Floating point is modelled as exact reals. `NaN` is modelled where it arises, and overflow and rounding of intermediate results are not.
- `Number()` and `parseInt` are modelled only on an optional sign followed by decimal digits. Other text is treated as `NaN`; hexadecimal, exponents and fractions are not modelled.
- Case mapping is ASCII only.
- Arguments of the wrong JavaScript type are not modelled, such as string or fractional `legs` and `window`. Such values fall outside the modelled integer domain.
- Names that are `Object.prototype` keys (`constructor`, `toString` and the like) are looked up on plain objects in several places. The model treats them as ordinary unknown names except in `CliParlay.MeetsModeCriteria`, which admits nothing for them as the code does. The other places follow.
- WindowSize: for a window name such as `constructor` the code's size is an inherited function, so the trend arithmetic gives `NaN`; the model uses 10. The colour lookup upper-cases the name first and is not affected.
- GetEmoji: for a colour such as `constructor` the code returns an inherited function, not a glyph; the model returns the orange glyph. GetDisplayString inherits this.
- LeadersQuestion: for a stat such as `constructor` the code puts an inherited function into the URL; the model asks the points-leaders question. GetPlayerLeaders inherits this.
- `PlayerModel.GetVariance` states nothing for an arbitrary `sqrt`, not even non-negativity. Only when `sqrt` returns a true square root (`PlayerModel.IsSquareRoot`) does `PlayerModel.GetVarianceIsDeviation` give a non-negative result equal to the population standard deviation.
- `TrendAnalyzer.CalculateConfidence` states only bounds when the deviation is positive. The exact value then depends on real division and clamping, and adds nothing beyond the body.
- `DataManager.GenerateParlay` assumes that every aggregate has a finite confidence. With a `NaN` confidence the source's comparator is inconsistent and the sort order is unspecified.

## Findings

| source | as written | input that shows it | evidently intended | confidence | as-written member | corrected member |
|---|---|---|---|---|---|---|
| lib/normalize.js:17-18 | the last fallback returns `desc.trim()`; the comment says this means the name is never empty | `desc = " "`: both patterns fail and the result is `""` | a desc-derived player name is never empty | not executed | Normalize.BlankDescGivesEmptyName | Normalize.DescPlayer |

=== FILE: cli_parlay.dfy ===
/** The command-line `parlay` command (`cli/commands/parlay.js`): option
    parsing, the fixed and averaged prop lines, per-pick analysis with its
    confidence floor, the mode criteria, risk tiers, synthetic odds, the
    sort-and-slice of `generatePicks`, and the overall risk label. */
module CliParlay {
  import opened Wrappers
  import opened Js
  import opened JsString
  import opened StableSort
  import opened Constants
  import opened PlayerModel
  import opened TrendAnalyzer
  import opened SeqUtil

  // ---------------------------------------------------------------------
  // Option parsing

  datatype Options = Options(legs: int, mode: string, window: string)

  const DEFAULT_OPTIONS: Options := Options(3, "normal", "last_10")

  /** The first two whitespace-separated tokens of a trimmed option part
      (`part.trim().split(/\s+/)`); an absent value is the empty string. */
  function PartKey(part: string): (key: string)
    ensures NoWhitespace(key)
  {
    FirstWord(Trim(part))
  }

  function PartValue(part: string): (value: string)
    ensures NoWhitespace(value)
  {
    var t := Trim(part);
    FirstWord(TrimStart(t[|FirstWord(t)|..]))
  }

  /** One option: `legs` takes `parseInt(value) || 3`, `mode` and `window`
      take the value or their default; any other key is ignored. */
  function Apply(o: Options, key: string, value: string): (r: Options)
    ensures o.legs != 0 ==> r.legs != 0
    ensures o.mode != "" ==> r.mode != ""
    ensures o.window != "" ==> r.window != ""
  {
    if key == "legs" then o.(legs := LegsFrom(value))
    else if key == "mode" then o.(mode := if value != "" then value else "normal")
    else if key == "window" then o.(window := if value != "" then value else "last_10")
    else o
  }

  /** One `--key value` part. */
  function ApplyOption(o: Options, part: string): Options {
    Apply(o, PartKey(part), PartValue(part))
  }

  /** `parseInt(value) || 3`: the parsed count, or 3 when `parseInt` gives
      `NaN` or 0, which it does for any text without a digit. */
  function LegsFrom(value: string): (legs: int)
    ensures legs != 0
    ensures (forall i :: 0 <= i < |value| ==> !IsDigit(value[i])) ==> legs == 3
  {
    NoDigitNoInt(value);
    match ParseIntPrefix(value)
    case Some(n) => if n != 0 then n else 3
    case None => 3
  }

  /** `parseInt` finds no number in text without a digit. */
  lemma NoDigitNoInt(value: string)
    ensures (forall i :: 0 <= i < |value| ==> !IsDigit(value[i])) ==> ParseIntPrefix(value).None?
  {
    if forall i :: 0 <= i < |value| ==> !IsDigit(value[i]) {
      var t := TrimStart(value);
      var k := |value| - |t|;
      var signed := |t| > 0 && (t[0] == '+' || t[0] == '-');
      var u := if signed then t[1..] else t;
      if |u| > 0 {
        var j := if signed then k + 1 else k;
        assert u[0] == value[j];
      }
      assert |LeadingDigits(u)| == 0;
    }
  }

  function ApplyOptions(o: Options, parts: seq<string>): (r: Options)
    ensures o.legs != 0 ==> r.legs != 0
    ensures o.mode != "" ==> r.mode != ""
    ensures o.window != "" ==> r.window != ""
    decreases |parts|
  {
    if |parts| == 0 then o else ApplyOptions(ApplyOption(o, parts[0]), parts[1..])
  }

  /** `parseOptions`: the parts after each `--` applied in order over the
      defaults. The leg count is never 0 and mode and window are never empty;
      an input without `--` gives the defaults. */
  function ParseOptions(input: string): (r: Options)
    ensures r.legs != 0 && r.mode != "" && r.window != ""
    ensures !Contains(input, "--") ==> r == DEFAULT_OPTIONS
  {
    IndexOfFinds(input, "--");
    ApplyOptions(DEFAULT_OPTIONS, Split(input, "--")[1..])
  }

  /** Splitting `s + "--" + part` on `--` gives the pieces of `s` and then
      `part`, when `s` does not end in a dash and `part` holds no `--`. */
  lemma {:induction false} SplitOnDashes(s: string, part: string)
    requires |s| == 0 || s[|s| - 1] != '-'
    requires !Contains(part, "--")
    ensures Split(s + "--" + part, "--") == Split(s, "--") + [part]
    decreases |s|
  {
    IndexOfFinds(s, "--");
    var i := IndexOf(s, "--");
    if i < 0 {
      SplitDashFree(s, part);
    } else {
      SplitAt(s, i);
      SplitKeepsFirst(s, part, i);
      var s' := s[i + 2..];
      assert |s'| > 0 ==> s'[|s'| - 1] == s[|s| - 1];
      SplitOnDashes(s', part);
      assert [s[..i]] + (Split(s', "--") + [part]) == ([s[..i]] + Split(s', "--")) + [part];
    }
  }

  lemma SplitDashFree(s: string, part: string)
    requires |s| == 0 || s[|s| - 1] != '-'
    requires !Contains(s, "--") && !Contains(part, "--")
    ensures Split(s + "--" + part, "--") == [s, part]
    ensures Split(s, "--") == [s]
  {
    var x := s + "--" + part;
    DashesAfterDashFree(s, part);
    IndexOfFinds(s, "--");
    IndexOfFinds(part, "--");
    assert x[..|s|] == s && x[|s| + 2..] == part;
  }

  lemma SplitKeepsFirst(s: string, part: string, i: nat)
    requires IndexOf(s, "--") == i
    ensures i + 2 <= |s|
    ensures Split(s + "--" + part, "--") == [s[..i]] + Split(s[i + 2..] + "--" + part, "--")
  {
    var x := s + "--" + part;
    DashesKeepFirst(s, part, i);
    SplitAt(x, i);
    AppendedSlices(s, "--" + part, i);
    assert x == s + ("--" + part);
    assert s[i + 2..] + ("--" + part) == s[i + 2..] + "--" + part;
  }

  /** One step of `split` on `--`. */
  lemma SplitAt(y: string, i: nat)
    requires IndexOf(y, "--") == i
    ensures i + 2 <= |y|
    ensures Split(y, "--") == [y[..i]] + Split(y[i + 2..], "--")
  {
    SplitStep(y, "--", i);
  }

  lemma AppendedSlices(s: string, t: string, i: nat)
    requires i + 2 <= |s|
    ensures (s + t)[..i] == s[..i] && (s + t)[i + 2..] == s[i + 2..] + t
  {
  }

  /** The first `--` of `s + "--" + part` is the appended one when `s` has none
      and does not end in a dash. */
  lemma DashesAfterDashFree(s: string, part: string)
    requires |s| == 0 || s[|s| - 1] != '-'
    requires !Contains(s, "--")
    ensures IndexOf(s + "--" + part, "--") == |s|
  {
    var x := s + "--" + part;
    forall j | 0 <= j < |s|
      ensures !StartsWith(x[j..], "--")
    {
      if j == |s| - 1 {
        assert x[j..][0] == s[j];
      } else if StartsWith(x[j..], "--") {
        assert s[j..][..2] == x[j..][..2];
        ContainsAt(s, "--", j);
      }
    }
    assert x[|s|..|s| + 2] == "--";
    IndexOfFirst(x, "--", |s|);
  }

  /** Appending text after `s` keeps the first `--` of `s`. */
  lemma DashesKeepFirst(s: string, part: string, i: nat)
    requires IndexOf(s, "--") == i
    ensures IndexOf(s + "--" + part, "--") == i
  {
    var x := s + "--" + part;
    IndexOfFinds(s, "--");
    forall j | 0 <= j < i
      ensures !StartsWith(x[j..], "--")
    {
      assert s[j..][..2] == x[j..][..2];
    }
    assert x[i..i + 2] == s[i..i + 2];
    IndexOfFirst(x, "--", i);
  }

  /** Applying the parts one more part at a time. */
  lemma {:induction false} ApplyOptionsSnoc(o: Options, parts: seq<string>, part: string)
    ensures ApplyOptions(o, parts + [part]) == ApplyOption(ApplyOptions(o, parts), part)
    decreases |parts|
  {
    if |parts| == 0 {
      assert [part][1..] == [];
    } else {
      assert (parts + [part])[1..] == parts[1..] + [part];
      ApplyOptionsSnoc(ApplyOption(o, parts[0]), parts[1..], part);
    }
  }

  /** A further `--part` at the end of the input applies over the options the
      rest of the input gave. */
  lemma ParseOptionsAppend(input: string, part: string)
    requires |input| == 0 || input[|input| - 1] != '-'
    requires !Contains(part, "--")
    ensures ParseOptions(input + "--" + part) == ApplyOption(ParseOptions(input), part)
  {
    var ps := Split(input, "--");
    SplitOnDashes(input, part);
    assert (ps + [part])[1..] == ps[1..] + [part];
    ApplyOptionsSnoc(DEFAULT_OPTIONS, ps[1..], part);
  }

  /** A command followed by one `--key value` part gives that option over the
      defaults. */
  lemma ParseOptionsOneOption(command: string, part: string)
    requires !Contains(command, "--") && (|command| == 0 || command[|command| - 1] != '-')
    requires !Contains(part, "--")
    ensures ParseOptions(command + "--" + part) == ApplyOption(DEFAULT_OPTIONS, part)
  {
    ParseOptionsAppend(command, part);
  }

  /** `... --legs n` at the end of a command line sets the leg count to `n`
      (3 for `n` = 0), whatever came before it. */
  lemma ParseOptionsLegsLast(input: string, n: int)
    requires |input| == 0 || input[|input| - 1] != '-'
    ensures var legs := ParseOptions(input + "--legs " + IntToString(n)).legs;
      (n != 0 ==> legs == n) && (n == 0 ==> legs == 3)
  {
    var part := "legs " + IntToString(n);
    NoDashesInLegsPart(n);
    assert input + "--legs " + IntToString(n) == input + "--" + part;
    ParseOptionsAppend(input, part);
    LegsOptionRoundTrip(ParseOptions(input), n);
  }

  /** No two dashes stand next to each other. */
  predicate NoDoubleDash(s: string) {
    forall j :: 0 <= j < |s| - 1 ==> s[j] != '-' || s[j + 1] != '-'
  }

  lemma {:induction false} NoDoubleDashNotContains(s: string)
    requires NoDoubleDash(s)
    ensures !Contains(s, "--")
    decreases |s|
  {
    if |s| >= 2 {
      assert s[..2] != "--" by {
        assert s[..2][0] == s[0] && s[..2][1] == s[1];
      }
    }
    if |s| > 0 {
      assert NoDoubleDash(s[1..]) by {
        forall j | 0 <= j < |s[1..]| - 1
          ensures s[1..][j] != '-' || s[1..][j + 1] != '-'
        {
          assert s[1..][j] == s[j + 1] && s[1..][j + 1] == s[j + 2];
        }
      }
      NoDoubleDashNotContains(s[1..]);
    }
  }

  lemma NoDashesInLegsPart(n: int)
    ensures !Contains("legs " + IntToString(n), "--")
  {
    var part := "legs " + IntToString(n);
    var v := IntToString(n);
    forall j | 0 <= j < |part| - 1
      ensures part[j] != '-' || part[j + 1] != '-'
    {
      if j < 5 {
        assert part[j] == "legs "[j];
      } else {
        assert part[j + 1] == v[j - 4];
        if n < 0 {
          assert v[j - 4] == NatToString(-n)[j - 5];
        }
      }
    }
    NoDoubleDashNotContains(part);
  }

  /** The first word of `w + rest` is `w` when `rest` starts with whitespace. */
  lemma {:induction false} FirstWordOfSpaced(w: string, rest: string)
    requires NoWhitespace(w)
    requires |rest| > 0 ==> IsWhitespace(rest[0])
    ensures FirstWord(w + rest) == w
    decreases |w|
  {
    if |w| > 0 {
      assert (w + rest)[1..] == w[1..] + rest;
      FirstWordOfSpaced(w[1..], rest);
    } else {
      assert w + rest == rest;
    }
  }

  /** `"{key} {value}"` splits back into its key and value. */
  lemma OptionPartReadsBack(key: string, value: string)
    requires NoWhitespace(key) && NoWhitespace(value) && |key| > 0 && |value| > 0
    ensures PartKey(key + " " + value) == key
    ensures PartValue(key + " " + value) == value
  {
    var part := key + " " + value;
    assert TrimStart(part) == part;
    assert TrimEnd(part) == part;
    assert part == key + (" " + value);
    FirstWordOfSpaced(key, " " + value);
    assert part[|key|..] == " " + value;
    assert TrimStart(" " + value) == TrimStart(value) == value;
    FirstWordOfSpaced(value, "");
    assert value + "" == value;
  }

  /** `--{key} {value}` applies `value` under `key`. */
  lemma OptionPartApplies(o: Options, part: string, key: string, value: string)
    requires NoWhitespace(key) && NoWhitespace(value) && |key| > 0 && |value| > 0
    requires part == key + " " + value
    ensures ApplyOption(o, part) == Apply(o, key, value)
  {
    OptionPartReadsBack(key, value);
  }

  /** `--legs n` sets the leg count to `n` for every non-zero `n`, and
      `--legs 0` leaves the default of 3. */
  lemma LegsOptionRoundTrip(o: Options, n: int)
    ensures var legs := ApplyOption(o, "legs " + IntToString(n)).legs;
      (n != 0 ==> legs == n) && (n == 0 ==> legs == 3)
  {
    LegsPartApplies(o, IntToString(n));
    LegsFromIntToString(n);
  }

  lemma LegsPartApplies(o: Options, value: string)
    requires NoWhitespace(value) && |value| > 0
    ensures ApplyOption(o, "legs " + value).legs == LegsFrom(value)
  {
    OptionPartApplies(o, "legs " + value, "legs", value);
    assert Apply(o, "legs", value).legs == LegsFrom(value);
  }

  lemma LegsFromIntToString(n: int)
    ensures n != 0 ==> LegsFrom(IntToString(n)) == n
    ensures n == 0 ==> LegsFrom(IntToString(n)) == 3
  {
    ParseIntPrefixOfIntToString(n, "");
    assert IntToString(n) + "" == IntToString(n);
  }

  /** `--mode m` sets the mode for every single-word value. */
  lemma ModeOptionRoundTrip(o: Options, value: string)
    requires NoWhitespace(value) && |value| > 0
    ensures ApplyOption(o, "mode " + value).mode == value
  {
    var r := Apply(o, "mode", value);
    assert r.mode == value;
    OptionPartApplies(o, "mode " + value, "mode", value);
  }

  /** `--window w` sets the window for every single-word value. */
  lemma WindowOptionRoundTrip(o: Options, value: string)
    requires NoWhitespace(value) && |value| > 0
    ensures ApplyOption(o, "window " + value).window == value
  {
    var r := Apply(o, "window", value);
    assert r.window == value;
    OptionPartApplies(o, "window " + value, "window", value);
  }

  // ---------------------------------------------------------------------
  // Prop lines

  datatype PropLine = PropLine(market: string, line: real)

  /** The fixed lines of `extractPropLines`, in their insertion order. */
  function FixedLines(name: string): Option<seq<PropLine>> {
    if name == "Stephen Curry" then Some([PropLine("points", 28.5), PropLine("threesMade", 5.5)])
    else if name == "LeBron James" then
      Some([PropLine("points", 25.5), PropLine("rebounds", 8.5), PropLine("assists", 9.5)])
    else if name == "Giannis Antetokounmpo" then Some([PropLine("points", 34.5), PropLine("rebounds", 12.5)])
    else None
  }

  /** The average of the points over all of a player's games. */
  function PointsAverage(games: seq<GameRecord>): real
    requires |games| > 0
  {
    Sum(Values(games, "points")) / |games| as real
  }

  /** `Math.round(avg * 2) / 2`: the nearest multiple of one half. */
  function HalfPointLine(avg: real): (r: real)
    ensures (r * 2.0).Floor as real == r * 2.0
    ensures r - 0.25 <= avg < r + 0.25
  {
    Round(avg * 2.0) as real / 2.0
  }

  /** The averaged points line of the first listed player called `name` with
      at least one game, if any. */
  function AveragedLine(name: string, players: seq<PlayerData>): (r: Option<real>)
    ensures r.None? <==> forall i :: 0 <= i < |players| && players[i].name == name ==>
      players[i].recentGames.None? || players[i].recentGames.value == []
    ensures r.Some? ==>
      exists i :: 0 <= i < |players| && IsFirstWithGames(name, players, i) &&
        r.value == HalfPointLine(PointsAverage(players[i].recentGames.value))
    decreases |players|
  {
    if |players| == 0 then None
    else if HasGames(players[0]) && players[0].name == name then
      assert IsFirstWithGames(name, players, 0);
      Some(HalfPointLine(PointsAverage(players[0].recentGames.value)))
    else
      var r := AveragedLine(name, players[1..]);
      if r.Some? then
        FirstWithGamesShifts(name, players);
        r
      else r
  }

  predicate HasGames(d: PlayerData) {
    d.recentGames.Some? && d.recentGames.value != []
  }

  /** Entry `i` is called `name` and has games, and no earlier entry called
      `name` has any: it is the one `!lines[player.name]` lets through. */
  predicate IsFirstWithGames(name: string, players: seq<PlayerData>, i: int)
    requires 0 <= i < |players|
  {
    && players[i].name == name && HasGames(players[i])
    && forall j :: 0 <= j < i && players[j].name == name ==> !HasGames(players[j])
  }

  /** When the head is not the one, the first entry with games in the tail
      is the first in the whole list, one place later. */
  lemma FirstWithGamesShifts(name: string, players: seq<PlayerData>)
    requires |players| > 0 && !(HasGames(players[0]) && players[0].name == name)
    ensures forall k :: 0 <= k < |players| - 1 && IsFirstWithGames(name, players[1..], k) ==>
      IsFirstWithGames(name, players, k + 1) && players[k + 1] == players[1..][k]
  {
  }

  /** `extractPropLines(players)[name]`: the fixed lines for the three known
      names, a single points line for another player with games, otherwise
      nothing. */
  function LinesFor(name: string, players: seq<PlayerData>): (r: seq<PropLine>)
    ensures FixedLines(name).Some? ==> r == FixedLines(name).value
    ensures FixedLines(name).None? ==> |r| <= 1
    ensures FixedLines(name).None? && AveragedLine(name, players).Some? ==>
      r == [PropLine("points", AveragedLine(name, players).value)]
  {
    match FixedLines(name)
    case Some(lines) => lines
    case None =>
      match AveragedLine(name, players)
      case Some(line) => [PropLine("points", line)]
      case None => []
  }

  /** An averaged line lies within a quarter point of the player's average. */
  lemma AveragedLineNearAverage(name: string, players: seq<PlayerData>)
    requires |players| > 0 && players[0].name == name
    requires players[0].recentGames.Some? && players[0].recentGames.value != []
    ensures var line := AveragedLine(name, players).value;
      var avg := PointsAverage(players[0].recentGames.value);
      line - 0.25 <= avg < line + 0.25
  {
  }

  // ---------------------------------------------------------------------
  // Risk, odds and mode criteria

  datatype Risk = Low | Moderate | High | VeryHigh {
    function Name(): string {
      match this
      case Low => "low"
      case Moderate => "moderate"
      case High => "high"
      case VeryHigh => "very_high"
    }
    function Score(): int {
      match this
      case Low => 1
      case Moderate => 2
      case High => 3
      case VeryHigh => 4
    }
  }

  /** `variance < maxVariance` for a tier; the `high` tier has no bound. */
  predicate WithinVariance(tier: RiskTier, variance: real) {
    tier.maxVariance.None? || variance < tier.maxVariance.value as real
  }

  /** `calculateRisk`: the first `RISK_CONFIG` tier whose confidence floor and
      variance bound the pick meets, else very high. A NaN confidence meets no
      floor. */
  function CalculateRisk(confidence: Number, variance: real): (r: Risk)
    ensures r == Low <==> confidence.AtLeast(75.0) && variance < 5.0
    ensures r == Moderate <==> !(confidence.AtLeast(75.0) && variance < 5.0) && confidence.AtLeast(60.0) && variance < 8.0
    ensures r == High <==> !(confidence.AtLeast(60.0) && variance < 8.0) && confidence.AtLeast(45.0)
    ensures r == VeryHigh <==> !confidence.AtLeast(45.0)
  {
    if confidence.AtLeast(RISK_LOW.minConfidence as real) && WithinVariance(RISK_LOW, variance) then Low
    else if confidence.AtLeast(RISK_MODERATE.minConfidence as real) && WithinVariance(RISK_MODERATE, variance) then Moderate
    else if confidence.AtLeast(RISK_HIGH.minConfidence as real) then High
    else VeryHigh
  }

  /** More confidence never raises the risk; more variance never lowers it. */
  lemma CalculateRiskMonotone(c1: real, c2: real, v1: real, v2: real)
    requires c1 <= c2 && v1 <= v2
    ensures CalculateRisk(Finite(c2), v1).Score() <= CalculateRisk(Finite(c1), v2).Score()
  {
  }

  /** `generateOdds`: synthetic American odds stepping down with confidence. */
  function GenerateOdds(confidence: Number): (r: int)
    ensures r == -200 <==> confidence.AtLeast(75.0)
    ensures r == -150 <==> confidence.AtLeast(65.0) && !confidence.AtLeast(75.0)
    ensures r == -120 <==> confidence.AtLeast(55.0) && !confidence.AtLeast(65.0)
    ensures r == -110 <==> confidence.AtLeast(45.0) && !confidence.AtLeast(55.0)
    ensures r == 100 <==> !confidence.AtLeast(45.0)
  {
    if confidence.AtLeast(75.0) then -200
    else if confidence.AtLeast(65.0) then -150
    else if confidence.AtLeast(55.0) then -120
    else if confidence.AtLeast(45.0) then -110
    else 100
  }

  /** The odds never rise as confidence grows. */
  lemma GenerateOddsMonotone(c1: real, c2: real)
    requires c1 <= c2
    ensures GenerateOdds(Finite(c2)) <= GenerateOdds(Finite(c1))
  {
  }

  /** `meetsModeCriteria`: the `MODE_CRITERIA` entry of the mode, the normal
      one for a mode the table lacks. A mode naming an inherited property
      (`--mode constructor`) finds a truthy non-entry whose `minConfidence`
      is undefined, and a comparison with undefined is false. */
  predicate MeetsModeCriteria(confidence: Number, color: TrendColor, mode: string) {
    && !InheritedKey(mode)
    && var cfg := ModeCriteriaEntry(mode).GetOr(NORMAL_CRITERIA);
       match cfg.colors
       case RequiredColor(c) => color.Name() == c && confidence.AtLeast(cfg.minConfidence as real)
       case RequiredColors(cs) => color.Name() in cs && confidence.AtLeast(cfg.minConfidence as real)
       case AnyColor => confidence.AtLeast(cfg.minConfidence as real)
  }

  /** What each mode demands: safe a green pick at 65, moonshot only 35, and
      normal (and every other mode the table lacks) a green or orange pick at
      50; a mode naming an inherited property admits nothing. */
  lemma ModeCriteriaMeaning(confidence: Number, color: TrendColor, mode: string)
    ensures MeetsModeCriteria(confidence, color, "safe") <==> color == Green && confidence.AtLeast(65.0)
    ensures MeetsModeCriteria(confidence, color, "moonshot") <==> confidence.AtLeast(35.0)
    ensures mode != "safe" && mode != "moonshot" && !InheritedKey(mode) ==>
      (MeetsModeCriteria(confidence, color, mode) <==> color != Red && confidence.AtLeast(50.0))
    ensures InheritedKey(mode) ==> !MeetsModeCriteria(confidence, color, mode)
  {
    assert Green.Name() == "green" && Orange.Name() == "orange" && Red.Name() == "red";
    assert "red" != "green" && "red" != "orange";
    assert NORMAL_CRITERIA.colors.colors == ["green", "orange"];
    assert !InheritedKey("safe") && !InheritedKey("moonshot");
  }

  /** A pick good enough for safe mode is good enough for normal mode, and one
      good enough for normal mode is good enough for moonshot mode. */
  lemma CriteriaNested(confidence: Number, color: TrendColor)
    ensures MeetsModeCriteria(confidence, color, "safe") ==> MeetsModeCriteria(confidence, color, "normal")
    ensures MeetsModeCriteria(confidence, color, "normal") ==> MeetsModeCriteria(confidence, color, "moonshot")
  {
    ModeCriteriaMeaning(confidence, color, "normal");
  }

  // ---------------------------------------------------------------------
  // Picks

  datatype CliPick = CliPick(
    playerName: string,
    market: string,
    line: real,
    confidence: Number,
    color: TrendColor,
    trendCount: nat,
    window: string,
    odds: int,
    risk: Risk,
    mode: string)

  /** `analyzePick`: no pick when the trend confidence is below 35. A NaN
      confidence is not below 35, so it yields a pick. */
  function AnalyzePick(player: Player, market: string, line: real, options: Options, sqrt: real -> real): (r: Option<CliPick>)
    ensures var t := AnalyzePlayerTrend(player, market, line, options.window, sqrt);
      && (r.None? <==> t.confidence.Below(35.0))
      && (r.Some? ==> r.value.confidence == t.confidence && r.value.color == t.color && r.value.trendCount == t.hitCount)
      && (r.Some? ==> r.value.odds == GenerateOdds(t.confidence) && r.value.risk == CalculateRisk(t.confidence, t.variance))
      && (r.Some? ==> r.value.confidence.NaN? || 35.0 <= r.value.confidence.value <= 100.0)
  {
    var t := AnalyzePlayerTrend(player, market, line, options.window, sqrt);
    if t.confidence.Below(35.0) then None
    else Some(CliPick(player.name, market, line, t.confidence, t.color, t.hitCount, options.window,
                      GenerateOdds(t.confidence), CalculateRisk(t.confidence, t.variance), options.mode))
  }

  /** A NaN confidence passes `analyzePick` but fails every mode's criteria. */
  lemma NaNNeverMeetsCriteria(color: TrendColor, mode: string)
    ensures !MeetsModeCriteria(NaN, color, mode)
  {
  }

  /** A pick that reached the parlay list: it meets the mode's criteria, so
      its confidence is a number. */
  predicate Admitted(p: CliPick, mode: string) {
    p.confidence.Finite? && MeetsModeCriteria(p.confidence, p.color, mode)
  }

  /** One line's contribution: the analysed pick, when there is one and it
      meets the mode's criteria. */
  function PassingPick(player: Player, line: PropLine, options: Options, sqrt: real -> real): (r: Option<CliPick>)
    ensures var a := AnalyzePick(player, line.market, line.line, options, sqrt);
      r.Some? <==> a.Some? && MeetsModeCriteria(a.value.confidence, a.value.color, options.mode)
    ensures r.Some? ==> r == AnalyzePick(player, line.market, line.line, options, sqrt)
    ensures r.Some? ==> Admitted(r.value, options.mode) && r.value.playerName == player.name
  {
    match AnalyzePick(player, line.market, line.line, options, sqrt)
    case Some(p) =>
      if MeetsModeCriteria(p.confidence, p.color, options.mode) then
        NaNNeverMeetsCriteria(p.color, options.mode);
        Some(p)
      else None
    case None => None
  }

  /** The analysed picks of one player over its lines that meet the mode:
      every passing line's pick is kept, in line order, and nothing else. */
  function LinePicks(player: Player, lines: seq<PropLine>, options: Options, sqrt: real -> real): (r: seq<CliPick>)
    ensures |r| <= |lines|
    ensures forall i :: 0 <= i < |r| ==> Admitted(r[i], options.mode) && r[i].playerName == player.name
    ensures forall i :: 0 <= i < |r| ==>
      exists j :: 0 <= j < |lines| && PassingPick(player, lines[j], options, sqrt) == Some(r[i])
    ensures forall j :: 0 <= j < |lines| && PassingPick(player, lines[j], options, sqrt).Some? ==>
      PassingPick(player, lines[j], options, sqrt).value in r
  {
    var f := (l: PropLine) => PassingPick(player, l, options, sqrt);
    var r := FilterMap(lines, f);
    assert forall i :: 0 <= i < |r| ==> exists j :: 0 <= j < |lines| && f(lines[j]) == Some(r[i]);
    r
  }

  /** Picks arrive in line order: one more line appends its passing pick. */
  lemma LinePicksAppend(player: Player, lines: seq<PropLine>, line: PropLine, options: Options, sqrt: real -> real)
    ensures var p := PassingPick(player, line, options, sqrt);
      LinePicks(player, lines + [line], options, sqrt)
        == LinePicks(player, lines, options, sqrt) + (if p.Some? then [p.value] else [])
  {
    FilterMapAppend(lines, line, (l: PropLine) => PassingPick(player, l, options, sqrt));
  }

  /** The passing picks of one roster entry over its prop lines. */
  function PlayerPicks(roster: seq<PlayerData>, data: PlayerData, options: Options, sqrt: real -> real): seq<CliPick> {
    var player := NewPlayer(data);
    LinePicks(player, LinesFor(player.name, roster), options, sqrt)
  }

  /** The `forEach` over players and their lines, in order: exactly the
      passing picks of every player, each player's after the previous one's. */
  function CandidatePicks(roster: seq<PlayerData>, players: seq<PlayerData>, options: Options, sqrt: real -> real): (r: seq<CliPick>)
    ensures forall i :: 0 <= i < |r| ==> Admitted(r[i], options.mode)
    ensures forall i :: 0 <= i < |r| ==>
      exists j :: 0 <= j < |players| && r[i] in PlayerPicks(roster, players[j], options, sqrt)
    ensures forall j, p :: 0 <= j < |players| && p in PlayerPicks(roster, players[j], options, sqrt) ==> p in r
  {
    var f := (d: PlayerData) => PlayerPicks(roster, d, options, sqrt);
    var r := FlatMap(players, f);
    assert forall i :: 0 <= i < |r| ==> exists j :: 0 <= j < |players| && r[i] in f(players[j]);
    r
  }

  /** Picks arrive in roster order: one more player appends that player's
      passing picks. */
  lemma CandidatePicksAppend(roster: seq<PlayerData>, players: seq<PlayerData>, data: PlayerData,
                             options: Options, sqrt: real -> real)
    ensures CandidatePicks(roster, players + [data], options, sqrt)
      == CandidatePicks(roster, players, options, sqrt) + PlayerPicks(roster, data, options, sqrt)
  {
    FlatMapAppend(players, data, (d: PlayerData) => PlayerPicks(roster, d, options, sqrt));
  }

  /** The sort key: the confidence, which is finite for every admitted pick. */
  function ConfidenceKey(p: CliPick): real {
    if p.confidence.Finite? then p.confidence.value else 0.0
  }

  /** `generatePicks` over the given roster: the candidate picks sorted stably
      by confidence, highest first, cut to `legs`. Every pick meets the mode's
      criteria, and no candidate left out outranks one kept. */
  function GeneratePicks(roster: seq<PlayerData>, options: Options, sqrt: real -> real): (r: seq<CliPick>)
    ensures IsTopCut(r, CandidatePicks(roster, roster, options, sqrt), options)
  {
    var all := CandidatePicks(roster, roster, options, sqrt);
    TopPicks(all, options);
    TopByKey(all, ConfidenceKey, options.legs)
  }

  /** `r` is `all` sorted by confidence, highest first, then cut with
      `slice(0, legs)`: `min(legs, n)` picks for a non-negative count, and
      a negative count drops that many from the end. Every pick meets the
      mode's criteria, each comes from `all`, and no pick left out outranks
      one kept. */
  predicate IsTopCut(r: seq<CliPick>, all: seq<CliPick>, options: Options) {
    && |r| <= |all|
    && (0 <= options.legs ==> |r| == Min(options.legs, |all|))
    && (options.legs < 0 ==> |r| == if |all| + options.legs < 0 then 0 else |all| + options.legs)
    && r == Sort(all, ConfidenceKey)[..|r|]
    && (0 <= options.legs ==> |r| <= options.legs)
    && (forall i :: 0 <= i < |r| ==> Admitted(r[i], options.mode))
    && SortedDesc(r, ConfidenceKey)
    && (forall i :: 0 <= i < |r| ==> r[i] in all)
    && (forall i, j :: 0 <= i < |r| && 0 <= j < |all| && all[j] !in multiset(r) ==>
          ConfidenceKey(all[j]) <= ConfidenceKey(r[i]))
  }

  /** The cut of the sorted candidates, over any admitted candidates. */
  lemma TopPicks(all: seq<CliPick>, options: Options)
    requires forall i :: 0 <= i < |all| ==> Admitted(all[i], options.mode)
    ensures IsTopCut(TopByKey(all, ConfidenceKey, options.legs), all, options)
  {
    var r := TopByKey(all, ConfidenceKey, options.legs);
    forall i | 0 <= i < |r| ensures Admitted(r[i], options.mode) {
      assert r[i] in all;
    }
  }

  /** The sort is stable: picks of equal confidence keep their roster and
      line order, and those kept are the first of them. */
  lemma GeneratePicksKeepsTies(roster: seq<PlayerData>, options: Options, sqrt: real -> real, k: real)
    ensures WithKey(GeneratePicks(roster, options, sqrt), ConfidenceKey, k)
      <= WithKey(CandidatePicks(roster, roster, options, sqrt), ConfidenceKey, k)
  {
    TopByKeyIsStable(CandidatePicks(roster, roster, options, sqrt), ConfidenceKey, options.legs, k);
  }

  // ---------------------------------------------------------------------
  // Overall risk

  /** `riskScores[name] || 2`. */
  function RiskScore(name: string): (s: int)
    ensures 1 <= s <= 4
    ensures forall r: Risk :: name == r.Name() ==> s == r.Score()
  {
    if name == "low" then 1
    else if name == "moderate" then 2
    else if name == "high" then 3
    else if name == "very_high" then 4
    else 2
  }

  function ScoreSum(names: seq<string>): (s: int)
    ensures |names| <= s <= 4 * |names|
    decreases |names|
  {
    if |names| == 0 then 0 else RiskScore(names[0]) + ScoreSum(names[1..])
  }

  /** `s / n >= k` exactly when `s >= k * n`, for a positive count. */
  lemma AverageAtLeast(s: int, n: int, k: real)
    requires n > 0
    ensures s as real / n as real >= k <==> s as real >= k * n as real
  {
    var q := s as real / n as real;
    assert q * n as real == s as real;
    if q >= k {
      assert q * n as real >= k * n as real;
    } else {
      assert q * n as real < k * n as real;
    }
  }

  /** `calculateOverallRisk`: the average score against the cut-offs 3.5, 2.5
      and 1.5. An empty list averages to NaN, which meets no cut-off. */
  function OverallRisk(names: seq<string>): (r: string)
    ensures r == "Very High" <==> |names| > 0 && 2 * ScoreSum(names) >= 7 * |names|
    ensures r == "High" <==> |names| > 0 && 5 * |names| <= 2 * ScoreSum(names) < 7 * |names|
    ensures r == "Moderate" <==> |names| > 0 && 3 * |names| <= 2 * ScoreSum(names) < 5 * |names|
    ensures r == "Low" <==> |names| == 0 || 2 * ScoreSum(names) < 3 * |names|
  {
    if |names| == 0 then "Low"
    else
      var n, s := |names|, ScoreSum(names);
      var avg := s as real / n as real;
      AverageAtLeast(s, n, 3.5);
      AverageAtLeast(s, n, 2.5);
      AverageAtLeast(s, n, 1.5);
      if avg >= 3.5 then "Very High"
      else if avg >= 2.5 then "High"
      else if avg >= 1.5 then "Moderate"
      else "Low"
  }

  /** The label a parlay gets when all of its picks share one risk tier. */
  function Uniform(r: Risk): string {
    match r
    case Low => "Low"
    case Moderate => "Moderate"
    case High => "High"
    case VeryHigh => "Very High"
  }

  lemma {:induction false} ScoreSumOfCopies(name: string, n: nat)
    ensures ScoreSum(seq(n, _ => name)) == n * RiskScore(name)
    decreases n
  {
    if n > 0 {
      var s := seq(n, _ => name);
      assert s[1..] == seq(n - 1, _ => name);
      ScoreSumOfCopies(name, n - 1);
    }
  }

  /** A parlay whose picks all carry the same risk gets that risk's label. */
  lemma UniformRiskKeepsLabel(r: Risk, n: nat)
    requires n > 0
    ensures OverallRisk(seq(n, _ => r.Name())) == Uniform(r)
  {
    ScoreSumOfCopies(r.Name(), n);
  }
}

=== FILE: color_mapper.dfy ===
/** `ColorMapper` of `src/core/confidence/ColorMapper.js`: colour names to
    the `COLORS` glyphs, and the "hits/window games" display line. */
module ColorMapper {
  import opened Wrappers
  import opened JsString
  import opened Constants
  import TrendAnalyzer

  /** `getEmoji`: the four known colour names map to their glyph, anything
      else to the orange glyph. */
  function GetEmoji(color: string): (e: string)
    ensures e in {GREEN_GLYPH, ORANGE_GLYPH, RED_GLYPH, MOONSHOT_GLYPH}
    ensures e == GREEN_GLYPH <==> color == "green"
    ensures e == RED_GLYPH <==> color == "red"
    ensures e == MOONSHOT_GLYPH <==> color == "moonshot"
    ensures e == ORANGE_GLYPH <==> color != "green" && color != "red" && color != "moonshot"
  {
    if color == "green" then GREEN_GLYPH
    else if color == "orange" then ORANGE_GLYPH
    else if color == "red" then RED_GLYPH
    else if color == "moonshot" then MOONSHOT_GLYPH
    else ORANGE_GLYPH
  }

  /** `getDisplayString`: `"{hitCount}/{windowSize} games {emoji}"`. Both
      counts read back with `parseInt`, the window's digits are followed by
      " games ", and the line ends with the glyph. */
  function GetDisplayString(color: string, hitCount: int, windowSize: int): (r: string)
    ensures ParseIntPrefix(r) == Some(hitCount)
    ensures |IntToString(hitCount)| < |r| && r[|IntToString(hitCount)|] == '/'
    ensures ParseIntPrefix(r[|IntToString(hitCount)| + 1..]) == Some(windowSize)
    ensures var k := |IntToString(hitCount)| + 1 + |IntToString(windowSize)|;
      && |r| == k + 7 + |GetEmoji(color)|
      && r[k..k + 7] == " games "
    ensures |GetEmoji(color)| <= |r| && r[|r| - |GetEmoji(color)|..] == GetEmoji(color)
  {
    var x, y, e := IntToString(hitCount), IntToString(windowSize), GetEmoji(color);
    var r := x + "/" + y + " games " + e;
    RatioReadsBack(hitCount, windowSize, " games ", e);
    var k := |x| + 1 + |y|;
    assert r[k..k + 7] == " games ";
    r
  }

  /** The analyzer's three colours get three different glyphs. */
  lemma TrendColorsHaveDistinctGlyphs()
    ensures GetEmoji(TrendAnalyzer.TrendColor.Green.Name()) == GREEN_GLYPH
    ensures GetEmoji(TrendAnalyzer.TrendColor.Orange.Name()) == ORANGE_GLYPH
    ensures GetEmoji(TrendAnalyzer.TrendColor.Red.Name()) == RED_GLYPH
    ensures GREEN_GLYPH != ORANGE_GLYPH && ORANGE_GLYPH != RED_GLYPH && GREEN_GLYPH != RED_GLYPH
  {
  }
}

=== FILE: constants.dfy ===
/** The configuration tables of `src/config/constants.js`. */
module Constants {
  import opened Wrappers

  /** One `CONFIDENCE` entry: the hit counts at which a window turns green or orange. */
  datatype ColorThresholds = ColorThresholds(greenMin: int, orangeMin: int)

  const LAST_5: ColorThresholds := ColorThresholds(4, 2)
  const LAST_10: ColorThresholds := ColorThresholds(7, 4)
  const LAST_15: ColorThresholds := ColorThresholds(11, 6)

  /** `CONFIDENCE[name]`; the table is keyed by upper-case window names. */
  function ConfidenceEntry(name: string): Option<ColorThresholds> {
    if name == "LAST_5" then Some(LAST_5)
    else if name == "LAST_10" then Some(LAST_10)
    else if name == "LAST_15" then Some(LAST_15)
    else None
  }

  /** The `COLORS` glyphs. */
  const GREEN_GLYPH: string := "\U{1F7E2}"
  const ORANGE_GLYPH: string := "\U{1F7E0}"
  const RED_GLYPH: string := "\U{1F534}"
  const MOONSHOT_GLYPH: string := "\U{1F680}"

  /** How a `MODE_CRITERIA` entry constrains the colour of a pick. */
  datatype ColorRequirement =
    | RequiredColor(color: string)
    | RequiredColors(colors: seq<string>)
    | AnyColor

  /** One `MODE_CRITERIA` entry. */
  datatype ModeCriteria = ModeCriteria(minConfidence: int, colors: ColorRequirement)

  const SAFE_CRITERIA: ModeCriteria := ModeCriteria(65, RequiredColor("green"))
  const NORMAL_CRITERIA: ModeCriteria := ModeCriteria(50, RequiredColors(["green", "orange"]))
  const MOONSHOT_CRITERIA: ModeCriteria := ModeCriteria(35, AnyColor)

  /** `MODE_CRITERIA[mode]`. */
  function ModeCriteriaEntry(mode: string): Option<ModeCriteria> {
    if mode == "safe" then Some(SAFE_CRITERIA)
    else if mode == "normal" then Some(NORMAL_CRITERIA)
    else if mode == "moonshot" then Some(MOONSHOT_CRITERIA)
    else None
  }

  /** One `RISK_CONFIG` entry; the `high` tier has no variance bound. */
  datatype RiskTier = RiskTier(minConfidence: int, maxVariance: Option<int>)

  const RISK_LOW: RiskTier := RiskTier(75, Some(5))
  const RISK_MODERATE: RiskTier := RiskTier(60, Some(8))
  const RISK_HIGH: RiskTier := RiskTier(45, None)

  /** Every window's orange threshold lies below its green threshold, and
      green is reachable within the window. */
  lemma ColorThresholdsOrdered()
    ensures LAST_5.orangeMin < LAST_5.greenMin <= 5
    ensures LAST_10.orangeMin < LAST_10.greenMin <= 10
    ensures LAST_15.orangeMin < LAST_15.greenMin <= 15
  {
  }

  /** The mode criteria: safe wants green at 65, normal green or orange at
      50, moonshot only 35; stricter modes need more confidence. */
  lemma ModeCriteriaTable()
    ensures ModeCriteriaEntry("safe") == Some(ModeCriteria(65, RequiredColor("green")))
    ensures ModeCriteriaEntry("normal") == Some(ModeCriteria(50, RequiredColors(["green", "orange"])))
    ensures ModeCriteriaEntry("moonshot") == Some(ModeCriteria(35, AnyColor))
    ensures ModeCriteriaEntry("safe").value.minConfidence > ModeCriteriaEntry("normal").value.minConfidence
            > ModeCriteriaEntry("moonshot").value.minConfidence
  {
  }

  /** The risk tiers: minimum confidence falls and the variance bound grows
      from low to moderate to high risk. */
  lemma RiskConfigOrdered()
    ensures RISK_LOW.minConfidence > RISK_MODERATE.minConfidence > RISK_HIGH.minConfidence
    ensures RISK_LOW.maxVariance.value < RISK_MODERATE.maxVariance.value
  {
  }
}

=== FILE: data_manager.dfy ===
/** `DataManager` of `src/data/ingestion/DataManager.js`: ordered fallback
    chains over the data sources, the per-player aggregation and the parlay
    ranking. Every source response is an input (`None` standing for `null`,
    an error, or a rejected promise); nothing is fetched. */
module DataManager {
  import opened Wrappers
  import opened Js
  import opened JsString
  import opened StableSort
  import opened SeqUtil
  import opened PlayerModel
  import TrendAnalyzer
  import OddsApi
  import SofaScoreApi
  import StatMuseApi

  /* ---------- Ordered fallback chains ---------- */

  /** The source gave a non-empty list (`list && list.length > 0`). */
  predicate NonEmpty<T>(o: Option<seq<T>>) {
    o.Some? && |o.value| > 0
  }

  /** The outcome of a fallback chain: the list returned and how many
      sources, in order, were asked. */
  datatype Chain<T> = Chain(value: seq<T>, consulted: nat)

  /** Ask the sources in order and return the first non-empty list, or `[]`
      when none has one. */
  function FirstNonEmpty<T>(sources: seq<Option<seq<T>>>): (r: Chain<T>)
    ensures 0 < r.consulted <= |sources| || (r.consulted == 0 && |sources| == 0)
    ensures |r.value| > 0 ==> 0 < r.consulted <= |sources| && NonEmpty(sources[r.consulted - 1]) && sources[r.consulted - 1].value == r.value
    ensures forall i :: 0 <= i < |sources| && i + 1 < r.consulted ==> !NonEmpty(sources[i])
    ensures |r.value| == 0 <==> forall i :: 0 <= i < |sources| ==> !NonEmpty(sources[i])
    ensures |r.value| == 0 ==> r.consulted == |sources|
    decreases |sources|
  {
    if |sources| == 0 then Chain([], 0)
    else if NonEmpty(sources[0]) then Chain(sources[0].value, 1)
    else
      var rest := FirstNonEmpty(sources[1..]);
      assert forall i :: 1 <= i < |sources| ==> sources[i] == sources[1..][i - 1];
      Chain(rest.value, rest.consulted + 1)
  }

  /** `getTodaysGames`: SofaScore, then the NBA API, then BallDontLie. */
  function GetTodaysGames<G>(sofaScore: Option<seq<G>>, nbaApi: Option<seq<G>>, ballDontLie: Option<seq<G>>): (r: Chain<G>)
    ensures NonEmpty(sofaScore) ==> r == Chain(sofaScore.value, 1)
    ensures !NonEmpty(sofaScore) && NonEmpty(nbaApi) ==> r == Chain(nbaApi.value, 2)
    ensures !NonEmpty(sofaScore) && !NonEmpty(nbaApi) && NonEmpty(ballDontLie) ==> r == Chain(ballDontLie.value, 3)
    ensures !NonEmpty(sofaScore) && !NonEmpty(nbaApi) && !NonEmpty(ballDontLie) ==> r == Chain([], 3)
  {
    var sources := [sofaScore, nbaApi, ballDontLie];
    var r := FirstNonEmpty(sources);
    assert sources[0] == sofaScore && sources[1] == nbaApi && sources[2] == ballDontLie;
    r
  }

  /* ---------- Player enrichment ---------- */

  datatype SeasonAverages = SeasonAverages(
    points: Option<real>, rebounds: Option<real>, assists: Option<real>, gamesPlayed: Option<int>)

  /** The `team` of an enriched record: `null`, a team name, or an object
      passed through from SofaScore. */
  datatype TeamField = NoTeam | TeamName(name: string) | TeamObject

  /** An enriched player record. `recentGames` and `sofaScoreId` are read by
      the aggregation but never written by the enrichment. */
  datatype Enriched = Enriched(
    id: Option<int>, name: string, team: TeamField, position: Option<string>,
    seasonAverages: Option<SeasonAverages>,
    recentGames: Option<seq<GameRecord>>, sofaScoreId: Option<int>)

  datatype BdlPlayer = BdlPlayer(
    id: int, firstName: string, lastName: string, teamFullName: string, position: string)

  /** Text or `null`: the empty string is falsy. */
  function TextOrNull(s: string): (r: Option<string>)
    ensures r.None? <==> s == ""
  {
    if s == "" then None else Some(s)
  }

  /** The record built from a BallDontLie player and their averages. */
  function FromBallDontLie(p: BdlPlayer, averages: SeasonAverages): (e: Enriched)
    ensures e.seasonAverages == Some(averages)
    ensures e.recentGames.None? && e.sofaScoreId.None?
  {
    Enriched(Some(p.id), p.firstName + " " + p.lastName,
             if p.teamFullName == "" then NoTeam else TeamName(p.teamFullName),
             TextOrNull(p.position), Some(averages), None, None)
  }

  /** `sofaPlayer.team?.name || sofaPlayer.team || null`. */
  function SofaTeam(t: SofaScoreApi.EntityTeam): TeamField {
    match t
    case NoEntityTeam => NoTeam
    case TeamObject(name) => if name.Some? && name.value != "" then TeamName(name.value) else TeamObject
    case TeamText(text) => if text == "" then NoTeam else TeamName(text)
  }

  /** `sofaPlayer.name || "{first} {last}".trim() || playerName`. */
  function SofaName(e: SofaScoreApi.Entity, playerName: string): (name: string)
    ensures e.name != "" ==> name == e.name
  {
    if e.name != "" then e.name
    else
      var joined := Trim(e.firstName + " " + e.lastName);
      if joined != "" then joined else playerName
  }

  /** The record built from a SofaScore entity: no season averages. */
  function FromSofaScore(e: SofaScoreApi.Entity, playerName: string): (r: Enriched)
    ensures r.seasonAverages.None? && r.recentGames.None? && r.sofaScoreId.None?
  {
    Enriched(if e.id != 0 then Some(e.id) else None, SofaName(e, playerName),
             SofaTeam(e.team), TextOrNull(e.position), None, None, None)
  }

  /** The enrichment and which of the later lookups were made. */
  datatype EnrichResult = EnrichResult(player: Option<Enriched>, askedAverages: bool, askedSofaScore: bool)

  /** `enrichPlayerData`: the first BallDontLie match with its season
      averages; failing that the SofaScore entity; failing that `null`.
      `averagesFor` answers the averages request for a player id. */
  function EnrichPlayerData(playerName: string, bdlSearch: Option<seq<BdlPlayer>>,
                            averagesFor: int -> Option<SeasonAverages>,
                            sofaScore: Option<SofaScoreApi.Entity>): (r: EnrichResult)
    ensures r.askedAverages <==> NonEmpty(bdlSearch)
    ensures NonEmpty(bdlSearch) && averagesFor(bdlSearch.value[0].id).Some? ==>
      r.player == Some(FromBallDontLie(bdlSearch.value[0], averagesFor(bdlSearch.value[0].id).value))
      && !r.askedSofaScore
    ensures r.askedSofaScore <==> !(NonEmpty(bdlSearch) && averagesFor(bdlSearch.value[0].id).Some?)
    ensures r.askedSofaScore ==> r.player == (if sofaScore.Some? then Some(FromSofaScore(sofaScore.value, playerName)) else None)
    ensures r.player.Some? ==> r.player.value.recentGames.None? && r.player.value.sofaScoreId.None?
  {
    if NonEmpty(bdlSearch) && averagesFor(bdlSearch.value[0].id).Some? then
      EnrichResult(Some(FromBallDontLie(bdlSearch.value[0], averagesFor(bdlSearch.value[0].id).value)), true, false)
    else
      var player := if sofaScore.Some? then Some(FromSofaScore(sofaScore.value, playerName)) else None;
      EnrichResult(player, NonEmpty(bdlSearch), true)
  }

  /* ---------- Player props ---------- */

  const FALLBACK_NAMES: seq<string> := ["Stephen Curry", "LeBron James", "Giannis Antetokounmpo"]

  /** JavaScript truthiness of an optional number. */
  predicate Truthy(x: Option<real>) {
    x.Some? && x.value != 0.0
  }

  /** The lower-cased names of the teams playing (empty names are skipped):
      every team of every game, and nothing else. */
  function TeamsPlaying(games: seq<SofaScoreApi.Event>): (teams: set<string>)
    ensures forall t :: t in teams ==> t != ""
    ensures forall t :: t in teams ==>
      exists i :: 0 <= i < |games| && (
        || (games[i].homeTeam != "" && t == ToLower(games[i].homeTeam))
        || (games[i].awayTeam != "" && t == ToLower(games[i].awayTeam)))
    ensures forall i :: 0 <= i < |games| && games[i].homeTeam != "" ==> ToLower(games[i].homeTeam) in teams
    ensures forall i :: 0 <= i < |games| && games[i].awayTeam != "" ==> ToLower(games[i].awayTeam) in teams
  {
    (set i | 0 <= i < |games| && games[i].homeTeam != "" :: ToLower(games[i].homeTeam))
    + (set i | 0 <= i < |games| && games[i].awayTeam != "" :: ToLower(games[i].awayTeam))
  }

  /** The player's team matches a team playing today when either name
      contains the other. */
  predicate IsPlaying(playerTeam: string, teams: set<string>) {
    exists t :: t in teams && (Contains(t, playerTeam) || Contains(playerTeam, t))
  }

  /** `(enriched.team || '').toLowerCase()`; a team object has no
      `toLowerCase`, so the lookup throws and the name is skipped (`None`). */
  function PlayerTeamKey(team: TeamField): Option<string> {
    match team
    case NoTeam => Some("")
    case TeamName(name) => Some(ToLower(name))
    case TeamObject => None
  }

  /** The inferred line: `Math.round` of one more than the season scoring
      average, a whole number; without a truthy average, 20.5 with a
      SofaScore id, else 19.5. */
  function InferredLine(e: Enriched): (line: real)
    ensures e.seasonAverages.Some? && Truthy(e.seasonAverages.value.points) ==>
      line == Round(e.seasonAverages.value.points.value + 1.0) as real
    ensures e.seasonAverages.Some? && Truthy(e.seasonAverages.value.points) ==>
      line.Floor as real == line && line - 0.5 <= e.seasonAverages.value.points.value + 1.0 < line + 0.5
    ensures !(e.seasonAverages.Some? && Truthy(e.seasonAverages.value.points)) ==>
      line == (if e.sofaScoreId.Some? && e.sofaScoreId.value != 0 then 20.5 else 19.5)
  {
    if e.seasonAverages.Some? && Truthy(e.seasonAverages.value.points) then
      Round(e.seasonAverages.value.points.value + 1.0) as real
    else if e.sofaScoreId.Some? && e.sofaScoreId.value != 0 then 20.5
    else 19.5
  }

  /** An inferred points prop: market "points", game "TBD (inferred)",
      bookmaker "SofaScore+StatMuse (inferred)", odds fixed at -110. */
  datatype InferredProp = InferredProp(playerName: string, line: real, odds: int, source: string)

  /** The prop inferred for one fallback name, if any. */
  function InferProp(name: string, enriched: Option<Enriched>, teams: set<string>): (r: Option<InferredProp>)
    ensures r.Some? <==>
      enriched.Some? && PlayerTeamKey(enriched.value.team).Some?
      && PlayerTeamKey(enriched.value.team).value != ""
      && IsPlaying(PlayerTeamKey(enriched.value.team).value, teams)
    ensures r.Some? ==> r.value.odds == -110 && r.value.line == InferredLine(enriched.value)
    ensures r.Some? ==> r.value.playerName == (if enriched.value.name != "" then enriched.value.name else name)
    ensures r.Some? ==> r.value.source == StatMuseApi.GetPlayerCareerStats(name)
  {
    match enriched
    case None => None
    case Some(e) =>
      match PlayerTeamKey(e.team)
      case None => None
      case Some(key) =>
        if key == "" || !IsPlaying(key, teams) then None
        else Some(InferredProp(if e.name != "" then e.name else name, InferredLine(e), -110,
                               StatMuseApi.GetPlayerCareerStats(name)))
  }

  /** The inferred props over a list of names: the prop of every name that
      has one, in name order, and nothing else. */
  function InferProps(names: seq<string>, enrich: string -> Option<Enriched>, teams: set<string>): (r: seq<InferredProp>)
    ensures |r| <= |names|
    ensures forall i :: 0 <= i < |r| ==> r[i].odds == -110
    ensures forall i :: 0 <= i < |r| ==>
      exists j :: 0 <= j < |names| && InferProp(names[j], enrich(names[j]), teams) == Some(r[i])
    ensures forall j :: 0 <= j < |names| && InferProp(names[j], enrich(names[j]), teams).Some? ==>
      InferProp(names[j], enrich(names[j]), teams).value in r
    ensures |r| == 0 <==> forall i :: 0 <= i < |names| ==> InferProp(names[i], enrich(names[i]), teams).None?
  {
    var r := FilterMap(names, (n: string) => InferProp(n, enrich(n), teams));
    InferredSound(names, enrich, teams);
    InferredComplete(names, enrich, teams);
    InferredEmpty(names, enrich, teams);
    InferredOdds(names, enrich, teams, r);
    r
  }

  /** Every inferred prop is the prop of some name. */
  lemma InferredSound(names: seq<string>, enrich: string -> Option<Enriched>, teams: set<string>)
    ensures var r := FilterMap(names, (n: string) => InferProp(n, enrich(n), teams));
      forall i :: 0 <= i < |r| ==>
      exists j :: 0 <= j < |names| && InferProp(names[j], enrich(names[j]), teams) == Some(r[i])
  {
    var f := (n: string) => InferProp(n, enrich(n), teams);
    var r := FilterMap(names, f);
    assert forall i :: 0 <= i < |r| ==> exists j :: 0 <= j < |names| && f(names[j]) == Some(r[i]);
  }

  /** Every name that has a prop contributes it. */
  lemma InferredComplete(names: seq<string>, enrich: string -> Option<Enriched>, teams: set<string>)
    ensures var r := FilterMap(names, (n: string) => InferProp(n, enrich(n), teams));
      forall j :: 0 <= j < |names| && InferProp(names[j], enrich(names[j]), teams).Some? ==>
      InferProp(names[j], enrich(names[j]), teams).value in r
  {
    var f := (n: string) => InferProp(n, enrich(n), teams);
    var r := FilterMap(names, f);
    assert forall j :: 0 <= j < |names| && f(names[j]).Some? ==> f(names[j]).value in r;
  }

  /** No props exactly when no name has one. */
  lemma InferredEmpty(names: seq<string>, enrich: string -> Option<Enriched>, teams: set<string>)
    ensures var r := FilterMap(names, (n: string) => InferProp(n, enrich(n), teams));
      |r| == 0 <==> forall i :: 0 <= i < |names| ==> InferProp(names[i], enrich(names[i]), teams).None?
  {
    var f := (n: string) => InferProp(n, enrich(n), teams);
    var r := FilterMap(names, f);
    assert |r| == 0 <==> forall j :: 0 <= j < |names| ==> f(names[j]).None?;
  }

  /** Every prop drawn from `InferProp` carries the fixed odds. */
  lemma InferredOdds(names: seq<string>, enrich: string -> Option<Enriched>, teams: set<string>, r: seq<InferredProp>)
    requires forall i :: 0 <= i < |r| ==>
      exists j :: 0 <= j < |names| && InferProp(names[j], enrich(names[j]), teams) == Some(r[i])
    ensures forall i :: 0 <= i < |r| ==> r[i].odds == -110
  {
    forall i | 0 <= i < |r|
      ensures r[i].odds == -110
    {
      var j :| 0 <= j < |names| && InferProp(names[j], enrich(names[j]), teams) == Some(r[i]);
    }
  }

  /** The props come in name order: one more name appends its prop, if any. */
  lemma InferPropsAppend(names: seq<string>, name: string, enrich: string -> Option<Enriched>, teams: set<string>)
    ensures var p := InferProp(name, enrich(name), teams);
      InferProps(names + [name], enrich, teams) == InferProps(names, enrich, teams) + (if p.Some? then [p.value] else [])
  {
    FilterMapAppend(names, name, (n: string) => InferProp(n, enrich(n), teams));
  }

  datatype MockProp = MockProp(playerName: string, line: real, odds: int, game: string)

  /** `getMockPlayerProps`: three fixed points props ("Mock Data"). */
  function GetMockPlayerProps(): (r: seq<MockProp>)
    ensures |r| == 3
    ensures forall i :: 0 <= i < |r| ==> r[i].playerName == FALLBACK_NAMES[i]
  {
    [ MockProp("Stephen Curry", 28.5, -110, "Golden State Warriors vs Los Angeles Lakers"),
      MockProp("LeBron James", 25.5, -115, "Los Angeles Lakers vs Golden State Warriors"),
      MockProp("Giannis Antetokounmpo", 34.5, -120, "Milwaukee Bucks vs Brooklyn Nets") ]
  }

  /** Where the props came from. */
  datatype PropsResult =
    | Inferred(inferred: seq<InferredProp>)
    | FromOddsApi(odds: seq<OddsApi.Prop>)
    | MockData(mock: seq<MockProp>)
  {
    function Count(): nat {
      match this
      case Inferred(ps) => |ps|
      case FromOddsApi(ps) => |ps|
      case MockData(ps) => |ps|
    }
  }

  /** The props and which sources were asked. */
  datatype PropsOutcome = PropsOutcome(result: PropsResult, enriched: seq<string>, askedOddsApi: bool)

  /** `getPlayerProps`: props inferred for the fallback names whose team plays
      today; failing that the Odds API props; failing that the mock props. */
  function GetPlayerProps(todaysGames: Option<seq<SofaScoreApi.Event>>,
                          enrich: string -> Option<Enriched>,
                          oddsProps: Option<seq<OddsApi.Prop>>): (r: PropsOutcome)
    ensures r.result.Count() > 0
    ensures r.enriched == (if NonEmpty(todaysGames) then FALLBACK_NAMES else [])
    ensures r.result.Inferred? <==>
      NonEmpty(todaysGames) && |InferProps(FALLBACK_NAMES, enrich, TeamsPlaying(todaysGames.value))| > 0
    ensures r.result.Inferred? ==> r.result == Inferred(InferProps(FALLBACK_NAMES, enrich, TeamsPlaying(todaysGames.value)))
    ensures r.askedOddsApi <==> !r.result.Inferred?
    ensures r.result.FromOddsApi? <==> r.askedOddsApi && NonEmpty(oddsProps)
    ensures r.result.FromOddsApi? ==> r.result.odds == oddsProps.value
    ensures r.result.MockData? ==> r.result.mock == GetMockPlayerProps()
  {
    var inferred := if NonEmpty(todaysGames) then InferProps(FALLBACK_NAMES, enrich, TeamsPlaying(todaysGames.value)) else [];
    var asked := if NonEmpty(todaysGames) then FALLBACK_NAMES else [];
    if |inferred| > 0 then PropsOutcome(Inferred(inferred), asked, false)
    else if NonEmpty(oddsProps) then PropsOutcome(FromOddsApi(oddsProps.value), asked, true)
    else PropsOutcome(MockData(GetMockPlayerProps()), asked, true)
  }

  /** With the records `enrichPlayerData` builds, the 20.5 line is never
      used: those records never carry a SofaScore id. */
  lemma EnrichedLineNeverSofaDefault(playerName: string, bdlSearch: Option<seq<BdlPlayer>>,
                                     averagesFor: int -> Option<SeasonAverages>,
                                     sofaScore: Option<SofaScoreApi.Entity>)
    requires EnrichPlayerData(playerName, bdlSearch, averagesFor, sofaScore).player.Some?
    ensures InferredLine(EnrichPlayerData(playerName, bdlSearch, averagesFor, sofaScore).player.value) != 20.5
  {
    var e := EnrichPlayerData(playerName, bdlSearch, averagesFor, sofaScore).player.value;
    if e.seasonAverages.Some? && Truthy(e.seasonAverages.value.points) {
      var k := Round(e.seasonAverages.value.points.value + 1.0);
      assert k as real != 20.5;
    }
  }

  /* ---------- Aggregation ---------- */

  /** The sources recorded for a player. */
  datatype Sources = Sources(
    ballDontLie: Option<Enriched>, sofaScore: Option<SofaScoreApi.Entity>, sofaStats: bool,
    statMuse: string, odds: Option<OddsApi.Prop>)

  datatype TrendData = TrendData(
    hitCount: nat, windowSize: int, average: real, variance: real, color: TrendAnalyzer.TrendColor)

  datatype Aggregated = Aggregated(
    playerName: string, sources: Sources, team: TeamField, seasonAverages: Option<SeasonAverages>,
    sofaScoreId: Option<int>, playingToday: bool, confidence: Number, trendData: Option<TrendData>)

  /** `playerName.split(' ')[0].toLowerCase()`: split on the space character
      only. */
  function FirstNameKey(playerName: string): string {
    ToLower(Split(playerName, " ")[0])
  }

  predicate PropMatches(p: OddsApi.Prop, key: string) {
    Contains(ToLower(p.playerName), key)
  }

  /** `odds.find(...)`: the first prop whose lower-cased name contains the key. */
  function FindProp(props: seq<OddsApi.Prop>, key: string): (r: Option<OddsApi.Prop>)
    ensures r.None? <==> forall i :: 0 <= i < |props| ==> !PropMatches(props[i], key)
    ensures r.Some? ==>
      exists i :: 0 <= i < |props| && props[i] == r.value && PropMatches(props[i], key)
        && (forall j :: 0 <= j < i ==> !PropMatches(props[j], key))
    decreases |props|
  {
    if |props| == 0 then None
    else if PropMatches(props[0], key) then Some(props[0])
    else
      assert forall i :: 1 <= i < |props| ==> props[i] == props[1..][i - 1];
      FindProp(props[1..], key)
  }

  /** The line the trend is measured against: the matched prop's line if
      truthy, else the season scoring average plus one, else 20.5. */
  function TrendLine(odds: Option<OddsApi.Prop>, bd: Enriched): real {
    if odds.Some? && Truthy(odds.value.line) then odds.value.line.value
    else if bd.seasonAverages.Some? && Truthy(bd.seasonAverages.value.points) then bd.seasonAverages.value.points.value + 1.0
    else 20.5
  }

  /** The trend branch applies only to a record with at least five recent games. */
  predicate HasGameData(bd: Option<Enriched>) {
    bd.Some? && bd.value.recentGames.Some? && |bd.value.recentGames.value| >= 5
  }

  /** `odds.find(...)`: the first prop whose player name holds the player's
      lower-cased first name, when the odds call answered. */
  function Matched(playerName: string, odds: Option<seq<OddsApi.Prop>>): (r: Option<OddsApi.Prop>)
    ensures r.Some? <==> odds.Some? && FindProp(odds.value, FirstNameKey(playerName)).Some?
    ensures r.Some? ==> r.value in odds.value && PropMatches(r.value, FirstNameKey(playerName))
  {
    if odds.Some? then FindProp(odds.value, FirstNameKey(playerName)) else None
  }

  /** The aggregation before the confidence step: sources, team, averages,
      SofaScore id and the odds match, with the fallback confidence 50. */
  function BaseAggregate(playerName: string, bd: Option<Enriched>,
                         sofa: Option<SofaScoreApi.Entity>, sofaStatsFound: bool,
                         odds: Option<seq<OddsApi.Prop>>): (r: Aggregated)
    ensures r.playerName == playerName && r.sources.ballDontLie == bd && r.sources.sofaScore == sofa
    ensures r.team == (if bd.Some? then bd.value.team else NoTeam)
    ensures r.seasonAverages == (if bd.Some? then bd.value.seasonAverages else None)
    ensures r.sources.statMuse == StatMuseApi.GetPlayerCareerStats(playerName)
    ensures r.sources.odds == Matched(playerName, odds)
    ensures r.playingToday <==> odds.Some? && FindProp(odds.value, FirstNameKey(playerName)).Some?
    ensures r.playingToday <==> r.sources.odds.Some?
    ensures r.sofaScoreId.Some? <==> sofa.Some? && sofa.value.id != 0
    ensures r.sofaScoreId.Some? ==> r.sofaScoreId.value == sofa.value.id
    ensures r.sources.sofaStats <==> r.sofaScoreId.Some? && sofaStatsFound
    ensures r.confidence == Finite(50.0) && r.trendData.None?
  {
    var sofaId := if sofa.Some? && sofa.value.id != 0 then Some(sofa.value.id) else None;
    var matched := Matched(playerName, odds);
    var sources := Sources(bd, sofa, sofaId.Some? && sofaStatsFound,
                           StatMuseApi.GetPlayerCareerStats(playerName), matched);
    var team := if bd.Some? then bd.value.team else NoTeam;
    var averages := if bd.Some? then bd.value.seasonAverages else None;
    Aggregated(playerName, sources, team, averages, sofaId, matched.Some?, Finite(50.0), None)
  }

  /** The `Player` built for the trend step: the lower-cased name with
      whitespace runs as `_` for the id, the team's name, the recent games. */
  function TrendPlayer(playerName: string, e: Enriched): Player
    requires e.recentGames.Some?
  {
    Player(ReplaceWhitespaceRuns(ToLower(playerName), "_"), playerName,
           if e.team.TeamName? then Some(e.team.name) else None, None, e.recentGames.value)
  }

  /** The points trend over the last ten games against `TrendLine`. */
  function TrendOf(playerName: string, matched: Option<OddsApi.Prop>, e: Enriched, sqrt: real -> real): TrendAnalyzer.TrendResult
    requires e.recentGames.Some?
  {
    TrendAnalyzer.AnalyzePlayerTrend(TrendPlayer(playerName, e), "points", TrendLine(matched, e), "last_10", sqrt)
  }

  /** The aggregation's view of a trend: its confidence rounded, and its hit
      count, window, average, deviation and colour as the trend data. */
  predicate RecordsTrend(r: Aggregated, t: TrendAnalyzer.TrendResult) {
    r.confidence == RoundNumber(t.confidence) &&
    r.trendData == Some(TrendData(t.hitCount, t.windowSize, t.average, t.variance, t.color))
  }

  /** The trend step over the record's recent games, measured on the last
      ten against `TrendLine`; the confidence is the trend's, rounded. */
  function WithTrend(a: Aggregated, e: Enriched, sqrt: real -> real): (r: Aggregated)
    requires e.recentGames.Some?
    ensures r == a.(confidence := r.confidence, trendData := r.trendData)
    ensures RecordsTrend(r, TrendOf(a.playerName, a.sources.odds, e, sqrt))
    ensures r.trendData.Some? && r.trendData.value.windowSize == 10
    ensures r.trendData.value.hitCount ==
      TrendCount(TrendPlayer(a.playerName, e), "points", TrendLine(a.sources.odds, e), 10)
    ensures r.confidence.NaN? || (0.0 <= r.confidence.value <= 100.0)
  {
    var trend := TrendOf(a.playerName, a.sources.odds, e, sqrt);
    RoundWithinPercent(trend.confidence);
    a.(confidence := RoundNumber(trend.confidence),
       trendData := Some(TrendData(trend.hitCount, trend.windowSize, trend.average, trend.variance, trend.color)))
  }

  /** `aggregatePlayerInfo`, given the responses it would receive: the
      enrichment `bd`, the SofaScore search, whether SofaScore has stats for
      the id, and the Odds API props. `sqrt` stands for `Math.sqrt`. */
  function AggregatePlayerInfo(playerName: string, bd: Option<Enriched>,
                               sofa: Option<SofaScoreApi.Entity>, sofaStatsFound: bool,
                               odds: Option<seq<OddsApi.Prop>>, sqrt: real -> real): (r: Aggregated)
    ensures r.playerName == playerName
    ensures r.team == (if bd.Some? then bd.value.team else NoTeam)
    ensures r.seasonAverages == (if bd.Some? then bd.value.seasonAverages else None)
    ensures r.sources.odds == Matched(playerName, odds)
    ensures r.playingToday <==> odds.Some? && FindProp(odds.value, FirstNameKey(playerName)).Some?
    ensures r.sofaScoreId.Some? <==> sofa.Some? && sofa.value.id != 0
    ensures r.sources.sofaStats ==> r.sofaScoreId.Some?
    ensures !HasGameData(bd) ==> r.confidence == Finite(50.0) && r.trendData.None?
    ensures HasGameData(bd) ==> RecordsTrend(r, TrendOf(playerName, Matched(playerName, odds), bd.value, sqrt))
    ensures HasGameData(bd) ==> r.trendData.Some? && r.trendData.value.windowSize == 10
    ensures HasGameData(bd) ==> r.confidence.NaN? || (0.0 <= r.confidence.value <= 100.0)
  {
    var base := BaseAggregate(playerName, bd, sofa, sofaStatsFound, odds);
    if HasGameData(bd) then WithTrend(base, bd.value, sqrt) else base
  }

  /** Rounding keeps a percentage a percentage. */
  lemma RoundWithinPercent(n: Number)
    ensures n.Finite? && 0.0 <= n.value <= 100.0 ==>
      RoundNumber(n).Finite? && 0.0 <= RoundNumber(n).value <= 100.0
  {
  }

  /** As written, the enrichment never supplies recent games, so every
      aggregation built on it falls back to confidence 50 with no trend data. */
  lemma AggregationAlwaysFallsBack(playerName: string, bdlSearch: Option<seq<BdlPlayer>>,
                                   averagesFor: int -> Option<SeasonAverages>,
                                   sofa: Option<SofaScoreApi.Entity>, sofaStatsFound: bool,
                                   odds: Option<seq<OddsApi.Prop>>, sqrt: real -> real)
    ensures var bd := EnrichPlayerData(playerName, bdlSearch, averagesFor, sofa).player;
      var r := AggregatePlayerInfo(playerName, bd, sofa, sofaStatsFound, odds, sqrt);
      r.confidence == Finite(50.0) && r.trendData.None?
  {
  }

  /* ---------- Parlay generation ---------- */

  const PARLAY_FALLBACKS: seq<string> :=
    ["Stephen Curry", "LeBron James", "Giannis Antetokounmpo", "Kevin Durant", "Luka Doncic"]

  /** `Set.add` on an insertion-ordered set. */
  function AddName(names: seq<string>, name: string): (r: seq<string>)
    ensures name in r && forall n :: n in names ==> n in r
    ensures forall n :: n in r ==> n in names || n == name
    ensures |names| <= |r| && r[..|names|] == names
    ensures Distinct(names) ==> Distinct(r)
  {
    if name in names then names else names + [name]
  }

  predicate Distinct(names: seq<string>) {
    forall i, j :: 0 <= i < j < |names| ==> names[i] != names[j]
  }

  lemma PrefixOfPrefix(r: seq<string>, next: seq<string>, names: seq<string>)
    requires |next| <= |r| && r[..|next|] == next
    requires |names| <= |next| && next[..|names|] == names
    ensures r[..|names|] == names
  {
    assert r[..|names|] == r[..|next|][..|names|];
  }

  /** Adds each of `more` in turn, skipping names already present. */
  function AddNames(names: seq<string>, more: seq<string>): seq<string>
    decreases |more|
  {
    if |more| == 0 then names else AddNames(AddName(names, more[0]), more[1..])
  }

  /** Adding names keeps them distinct. */
  lemma {:induction false} AddNamesDistinct(names: seq<string>, more: seq<string>)
    requires Distinct(names)
    ensures Distinct(AddNames(names, more))
    decreases |more|
  {
    if |more| > 0 {
      AddNamesDistinct(AddName(names, more[0]), more[1..]);
    }
  }

  /** The result holds exactly the names given and the names added. */
  lemma {:induction false} AddNamesMembers(names: seq<string>, more: seq<string>)
    ensures forall n :: n in names || n in more ==> n in AddNames(names, more)
    ensures forall n :: n in AddNames(names, more) ==> n in names || n in more
    decreases |more|
  {
    if |more| > 0 {
      AddNamesMembers(AddName(names, more[0]), more[1..]);
      assert forall n :: n in more ==> n == more[0] || n in more[1..];
    }
  }

  /** The names already present keep their places at the front. */
  lemma {:induction false} AddNamesKeepsPrefix(names: seq<string>, more: seq<string>)
    ensures |names| <= |AddNames(names, more)| && AddNames(names, more)[..|names|] == names
    decreases |more|
  {
    if |more| > 0 {
      var next := AddName(names, more[0]);
      AddNamesKeepsPrefix(next, more[1..]);
      var r := AddNames(next, more[1..]);
      PrefixOfPrefix(r, next, names);
    }
  }

  /** The names of the props, skipping empty ones: every non-empty name,
      and nothing else. */
  function PropNames(props: seq<OddsApi.Prop>): (r: seq<string>)
    ensures forall n :: n in r ==> n != "" && exists i :: 0 <= i < |props| && props[i].playerName == n
    ensures forall i :: 0 <= i < |props| && props[i].playerName != "" ==> props[i].playerName in r
    decreases |props|
  {
    if |props| == 0 then []
    else
      var rest := PropNames(props[1..]);
      assert forall i :: 1 <= i < |props| ==> props[i] == props[1..][i - 1];
      if props[0].playerName != "" then [props[0].playerName] + rest else rest
  }

  /** Names are taken in prop order: one more prop appends its name, when it
      has one. */
  lemma {:induction false} PropNamesAppend(props: seq<OddsApi.Prop>, p: OddsApi.Prop)
    ensures PropNames(props + [p]) == PropNames(props) + (if p.playerName != "" then [p.playerName] else [])
    decreases |props|
  {
    if |props| == 0 {
      assert [p][1..] == [];
    } else {
      PropNamesAppend(props[1..], p);
      assert (props + [p])[1..] == props[1..] + [p];
    }
  }

  /** The player names of the Odds API answer, if there is one. */
  function OddsNames(odds: Option<seq<OddsApi.Prop>>): seq<string> {
    if odds.Some? then PropNames(odds.value) else []
  }

  /** The candidate names: each Odds API player once, in first-seen order,
      then the fixed stars not already present. Exactly those names, each
      once, with every Odds API name before every star that is not one. */
  function Candidates(odds: Option<seq<OddsApi.Prop>>): (r: seq<string>)
    ensures Distinct(r)
    ensures forall n :: n in r <==> n in PARLAY_FALLBACKS || n in OddsNames(odds)
    ensures forall i, j :: 0 <= i < j < |r| && r[j] in OddsNames(odds) ==> r[i] in OddsNames(odds)
    ensures r == FirstOccurrences(OddsNames(odds) + PARLAY_FALLBACKS)
    ensures OddsNames(odds) == [] ==> r == PARLAY_FALLBACKS
  {
    var names := OddsNames(odds);
    AddNamesDistinct([], names);
    AddNamesMembers([], names);
    var fromOdds := AddNames([], names);
    AddNamesDistinct(fromOdds, PARLAY_FALLBACKS);
    AddNamesMembers(fromOdds, PARLAY_FALLBACKS);
    AddNamesKeepsPrefix(fromOdds, PARLAY_FALLBACKS);
    var r := AddNames(fromOdds, PARLAY_FALLBACKS);
    OddsNamesFirst(fromOdds, r, names);
    CandidatesAreFirstOccurrences(names);
    r
  }

  /** The candidate set, read back in insertion order, is the first
      occurrences of the Odds API names followed by the stars; with no Odds
      API names it is the stars in their listed order. */
  lemma CandidatesAreFirstOccurrences(names: seq<string>)
    ensures AddNames(AddNames([], names), PARLAY_FALLBACKS) == FirstOccurrences(names + PARLAY_FALLBACKS)
    ensures names == [] ==> AddNames(AddNames([], names), PARLAY_FALLBACKS) == PARLAY_FALLBACKS
  {
    var stars := PARLAY_FALLBACKS;
    assert FirstOccurrences([]) == [];
    AddNamesIsFirstOccurrences([], names);
    assert [] + names == names;
    AddNamesIsFirstOccurrences(names, stars);
    if names == [] {
      StarsListedOnce();
      FirstOccurrencesOfDistinct(stars);
      assert names + stars == stars;
    }
  }

  /** No star is listed twice. */
  lemma StarsListedOnce()
    ensures Distinct(PARLAY_FALLBACKS)
  {
    var s := PARLAY_FALLBACKS;
    assert |s[0]| == 13 && |s[1]| == 12 && |s[2]| == 21 && |s[3]| == 12 && |s[4]| == 11;
    assert s[1][0] == 'L' && s[3][0] == 'K';
  }

  /** The distinct elements of `s`, each where it first occurs: an element is
      kept exactly when it does not occur earlier in `s`. */
  function FirstOccurrences(s: seq<string>): seq<string>
    decreases |s|
  {
    if |s| == 0 then []
    else
      var init := s[..|s| - 1];
      FirstOccurrences(init) + (if s[|s| - 1] in init then [] else [s[|s| - 1]])
  }

  /** The first occurrences hold exactly the elements of `s`. */
  lemma {:induction false} FirstOccurrencesMembers(s: seq<string>)
    ensures forall n :: n in FirstOccurrences(s) <==> n in s
    decreases |s|
  {
    if |s| > 0 {
      var init := s[..|s| - 1];
      FirstOccurrencesMembers(init);
      assert s == init + [s[|s| - 1]];
    }
  }

  /** A list without repeats is its own first occurrences. */
  lemma {:induction false} FirstOccurrencesOfDistinct(s: seq<string>)
    requires Distinct(s)
    ensures FirstOccurrences(s) == s
    decreases |s|
  {
    if |s| > 0 {
      var init := s[..|s| - 1];
      assert Distinct(init) by {
        forall i, j | 0 <= i < j < |init| ensures init[i] != init[j] {
          assert init[i] == s[i] && init[j] == s[j];
        }
      }
      FirstOccurrencesOfDistinct(init);
      assert s[|s| - 1] !in init by {
        forall k | 0 <= k < |init| ensures init[k] != s[|s| - 1] {
          assert init[k] == s[k];
        }
      }
      assert s == init + [s[|s| - 1]];
    }
  }

  /** Inserting `more` one by one into the set built from `pre` gives the
      first occurrences of `pre + more`: a `Set` keeps insertion order and
      ignores repeats. */
  lemma {:induction false} AddNamesIsFirstOccurrences(pre: seq<string>, more: seq<string>)
    ensures AddNames(FirstOccurrences(pre), more) == FirstOccurrences(pre + more)
    decreases |more|
  {
    if |more| == 0 {
      assert pre + more == pre;
    } else {
      var next := pre + [more[0]];
      AddNameIsFirstOccurrences(pre, more[0]);
      AddNamesIsFirstOccurrences(next, more[1..]);
      ShiftFirst(pre, more);
    }
  }

  lemma ShiftFirst(pre: seq<string>, more: seq<string>)
    requires |more| > 0
    ensures pre + more == (pre + [more[0]]) + more[1..]
  {
    assert more == [more[0]] + more[1..];
  }

  /** One insertion of the above. */
  lemma AddNameIsFirstOccurrences(pre: seq<string>, n: string)
    ensures AddName(FirstOccurrences(pre), n) == FirstOccurrences(pre + [n])
  {
    FirstOccurrencesMembers(pre);
    var next := pre + [n];
    assert next[..|next| - 1] == pre;
    assert FirstOccurrences(next) == FirstOccurrences(pre) + (if n in pre then [] else [n]);
  }

  /** In a distinct list that starts with `front`, an element of `front` sits
      inside that prefix, so everything before it is in `front` too. */
  lemma OddsNamesFirst(front: seq<string>, r: seq<string>, names: seq<string>)
    requires Distinct(r) && |front| <= |r| && r[..|front|] == front
    requires forall n :: n in front <==> n in names
    ensures forall i, j :: 0 <= i < j < |r| && r[j] in names ==> r[i] in names
  {
    forall i, j | 0 <= i < j < |r| && r[j] in names
      ensures r[i] in names
    {
      var k :| 0 <= k < |front| && front[k] == r[j];
      assert r[k] == front[k];
      assert k == j;
      assert r[i] == front[i];
    }
  }

  /** The names whose aggregation succeeded: every successful aggregation, in
      candidate order, and nothing else. */
  function AggregateAll(names: seq<string>, aggregate: string -> Option<Aggregated>): (r: seq<Aggregated>)
    ensures |r| <= |names|
    ensures forall i :: 0 <= i < |r| ==> exists j :: 0 <= j < |names| && aggregate(names[j]) == Some(r[i])
    ensures forall j :: 0 <= j < |names| && aggregate(names[j]).Some? ==> aggregate(names[j]).value in r
  {
    FilterMap(names, aggregate)
  }

  /** The aggregations come in candidate order: one more name appends its
      aggregation, if any. */
  lemma AggregateAllAppend(names: seq<string>, name: string, aggregate: string -> Option<Aggregated>)
    ensures AggregateAll(names + [name], aggregate)
      == AggregateAll(names, aggregate) + (if aggregate(name).Some? then [aggregate(name).value] else [])
  {
    FilterMapAppend(names, name, aggregate);
  }

  /** `(playingToday ? 1 : 0) * 1000 + confidence`. */
  function RankKey(a: Aggregated): real {
    (if a.playingToday then 1000.0 else 0.0) + (if a.confidence.Finite? then a.confidence.value else 0.0)
  }

  predicate FiniteConfidences(items: seq<Aggregated>) {
    forall i :: 0 <= i < |items| ==> items[i].confidence.Finite?
  }

  predicate PercentConfidences(items: seq<Aggregated>) {
    forall i :: 0 <= i < |items| ==> items[i].confidence.Finite? && 0.0 <= items[i].confidence.value <= 100.0
  }

  /** The stable descending sort by rank key, then `slice(0, legs)`: the
      first `legs` of the sorted list, or all of them when there are fewer. */
  function RankAggregated(items: seq<Aggregated>, legs: int): (r: seq<Aggregated>)
    requires FiniteConfidences(items)
    ensures |r| <= |items| && forall i :: 0 <= i < |r| ==> r[i] in items
    ensures 0 <= legs ==> |r| == Min(legs, |items|)
    ensures legs < 0 ==> |r| == if |items| + legs < 0 then 0 else |items| + legs
    ensures r == Sort(items, RankKey)[..|r|]
    ensures 0 <= legs ==> |r| <= legs
    ensures SortedDesc(r, RankKey)
    ensures forall i, j :: 0 <= i < |r| && 0 <= j < |items| && items[j] !in multiset(r) ==> RankKey(r[i]) >= RankKey(items[j])
  {
    TopByKey(items, RankKey, legs)
  }

  /** With confidences in [0, 100], players in today's odds come first: no
      player missing from them precedes one present, and none is kept while
      one present is dropped. */
  lemma PlayingTodayRanksFirst(items: seq<Aggregated>, legs: int)
    requires PercentConfidences(items)
    ensures var r := RankAggregated(items, legs);
      forall i, j :: 0 <= i < j < |r| && r[j].playingToday ==> r[i].playingToday
    ensures var r := RankAggregated(items, legs);
      forall i, j :: 0 <= i < |r| && 0 <= j < |items| && items[j] !in multiset(r) && items[j].playingToday ==> r[i].playingToday
  {
    var r := RankAggregated(items, legs);
    assert forall i :: 0 <= i < |r| ==> 0.0 <= r[i].confidence.value <= 100.0;
  }

  /** A generated pick. */
  datatype Pick = Pick(playerName: string, line: real, odds: int, confidence: Number, playingToday: bool, sources: Sources)

  /** The pick for a ranked player: the matched prop's line and odds when
      truthy; otherwise `Math.round` of the scoring average plus one, a whole
      number, or 20.5 without a truthy average, and -110. */
  function ToPick(a: Aggregated): (p: Pick)
    ensures p.playerName == a.playerName && p.confidence == a.confidence && p.playingToday == a.playingToday
    ensures p.sources == a.sources
    ensures a.sources.odds.Some? && Truthy(a.sources.odds.value.line) ==> p.line == a.sources.odds.value.line.value
    ensures (!(a.sources.odds.Some? && Truthy(a.sources.odds.value.line)) &&
             a.seasonAverages.Some? && Truthy(a.seasonAverages.value.points)) ==>
      p.line.Floor as real == p.line && p.line - 0.5 <= a.seasonAverages.value.points.value + 1.0 < p.line + 0.5
    ensures (!(a.sources.odds.Some? && Truthy(a.sources.odds.value.line)) &&
             !(a.seasonAverages.Some? && Truthy(a.seasonAverages.value.points))) ==> p.line == 20.5
    ensures p.odds == (if a.sources.odds.Some? && a.sources.odds.value.odds.Some? && a.sources.odds.value.odds.value != 0
                       then a.sources.odds.value.odds.value else -110)
  {
    var o := a.sources.odds;
    var line :=
      if o.Some? && Truthy(o.value.line) then o.value.line.value
      else if a.seasonAverages.Some? && Truthy(a.seasonAverages.value.points) then Round(a.seasonAverages.value.points.value + 1.0) as real
      else 20.5;
    var odds := if o.Some? && o.value.odds.Some? && o.value.odds.value != 0 then o.value.odds.value else -110;
    Pick(a.playerName, line, odds, a.confidence, a.playingToday, a.sources)
  }

  /** The rank key carried over to a pick. */
  function PickKey(p: Pick): real {
    (if p.playingToday then 1000.0 else 0.0) + (if p.confidence.Finite? then p.confidence.value else 0.0)
  }

  /** One pick per ranked player, in rank order. */
  function PicksOf(ranked: seq<Aggregated>): (picks: seq<Pick>)
    ensures |picks| == |ranked|
    ensures forall i :: 0 <= i < |picks| ==> picks[i] == ToPick(ranked[i]) && PickKey(picks[i]) == RankKey(ranked[i])
  {
    seq(|ranked|, i requires 0 <= i < |ranked| => ToPick(ranked[i]))
  }

  /** Aggregations of confidence-finite answers are confidence-finite. */
  lemma AggregatedFinite(names: seq<string>, aggregate: string -> Option<Aggregated>)
    requires forall n :: aggregate(n).Some? ==> aggregate(n).value.confidence.Finite?
    ensures FiniteConfidences(AggregateAll(names, aggregate))
  {
    var items := AggregateAll(names, aggregate);
    forall i | 0 <= i < |items|
      ensures items[i].confidence.Finite?
    {
      var j :| 0 <= j < |names| && aggregate(names[j]) == Some(items[i]);
    }
  }

  /** The ranked aggregations of the candidates: the first `legs` of their
      stable sort by rank key. */
  function Ranked(legs: int, odds: Option<seq<OddsApi.Prop>>, aggregate: string -> Option<Aggregated>): (r: seq<Aggregated>)
    requires forall n :: aggregate(n).Some? ==> aggregate(n).value.confidence.Finite?
    ensures var items := AggregateAll(Candidates(odds), aggregate);
      && |r| <= |items|
      && (0 <= legs ==> |r| == Min(legs, |items|))
      && (legs < 0 ==> |r| == if |items| + legs < 0 then 0 else |items| + legs)
      && r == Sort(items, RankKey)[..|r|]
    ensures 0 <= legs ==> |r| <= legs
    ensures SortedDesc(r, RankKey)
    ensures FiniteConfidences(r)
    ensures forall i :: 0 <= i < |r| ==> r[i] in AggregateAll(Candidates(odds), aggregate)
  {
    var items := AggregateAll(Candidates(odds), aggregate);
    AggregatedFinite(Candidates(odds), aggregate);
    var r := RankAggregated(items, legs);
    FiniteMembers(items, r);
    r
  }

  /** Members of a confidence-finite list are confidence-finite. */
  lemma FiniteMembers(items: seq<Aggregated>, r: seq<Aggregated>)
    requires FiniteConfidences(items)
    requires forall i :: 0 <= i < |r| ==> r[i] in items
    ensures FiniteConfidences(r)
  {
    forall i | 0 <= i < |r|
      ensures r[i].confidence.Finite?
    {
      var k :| 0 <= k < |items| && items[k] == r[i];
    }
  }

  /** `generateParlay` without the save: candidates, their aggregations
      (`aggregate` answers for one name, `None` when it rejects), ranking,
      and one pick per ranked player. `legs` defaults to 3. */
  function GenerateParlay(legs: Option<int>, odds: Option<seq<OddsApi.Prop>>, aggregate: string -> Option<Aggregated>): (picks: seq<Pick>)
    requires forall n :: aggregate(n).Some? ==> aggregate(n).value.confidence.Finite?
    ensures var items := AggregateAll(Candidates(odds), aggregate);
      && |picks| <= |items|
      && (0 <= legs.GetOr(3) ==> |picks| == Min(legs.GetOr(3), |items|))
      && (legs.GetOr(3) < 0 ==> |picks| == if |items| + legs.GetOr(3) < 0 then 0 else |items| + legs.GetOr(3))
      && forall i :: 0 <= i < |picks| ==> picks[i] == ToPick(Sort(items, RankKey)[i])
    ensures 0 <= legs.GetOr(3) ==> |picks| <= legs.GetOr(3)
    ensures forall i :: 0 <= i < |picks| ==> picks[i].confidence.Finite?
    ensures forall i, j :: 0 <= i < j < |picks| ==> PickKey(picks[i]) >= PickKey(picks[j])
  {
    var items := AggregateAll(Candidates(odds), aggregate);
    var ranked := Ranked(legs.GetOr(3), odds, aggregate);
    PicksFollowRanking(items, ranked);
    PicksOf(ranked)
  }

  /** The picks of a ranked prefix follow the ranking: one per ranked
      aggregation, finite confidences, rank keys non-increasing. */
  lemma PicksFollowRanking(items: seq<Aggregated>, ranked: seq<Aggregated>)
    requires |ranked| <= |items| && ranked == Sort(items, RankKey)[..|ranked|]
    requires FiniteConfidences(ranked) && SortedDesc(ranked, RankKey)
    ensures var picks := PicksOf(ranked);
      && (forall i :: 0 <= i < |picks| ==> picks[i] == ToPick(Sort(items, RankKey)[i]))
      && (forall i :: 0 <= i < |picks| ==> picks[i].confidence.Finite?)
      && (forall i, j :: 0 <= i < j < |picks| ==> PickKey(picks[i]) >= PickKey(picks[j]))
  {
    var picks := PicksOf(ranked);
    forall i | 0 <= i < |picks|
      ensures picks[i] == ToPick(Sort(items, RankKey)[i])
    {
      assert ranked[i] == Sort(items, RankKey)[..|ranked|][i];
    }
  }

  /** The sort is stable: aggregations of equal rank key are picked in
      candidate order, and those picked are the first of them. */
  lemma GenerateParlayKeepsTies(legs: Option<int>, odds: Option<seq<OddsApi.Prop>>,
                                aggregate: string -> Option<Aggregated>, k: real)
    requires forall n :: aggregate(n).Some? ==> aggregate(n).value.confidence.Finite?
    ensures var ranked := Ranked(legs.GetOr(3), odds, aggregate);
      && GenerateParlay(legs, odds, aggregate) == PicksOf(ranked)
      && WithKey(ranked, RankKey, k) <= WithKey(AggregateAll(Candidates(odds), aggregate), RankKey, k)
  {
    var items := AggregateAll(Candidates(odds), aggregate);
    AggregatedFinite(Candidates(odds), aggregate);
    TopByKeyIsStable(items, RankKey, legs.GetOr(3), k);
  }

  /** `p` is the pick of the aggregation of one of `names`. */
  predicate PickOfSomeName(p: Pick, names: seq<string>, aggregate: string -> Option<Aggregated>) {
    exists j :: 0 <= j < |names| && aggregate(names[j]).Some? && p == ToPick(aggregate(names[j]).value)
  }

  /** Every pick is the pick of some candidate's aggregation. */
  lemma GeneratedPicksComeFromCandidates(legs: Option<int>, odds: Option<seq<OddsApi.Prop>>, aggregate: string -> Option<Aggregated>)
    requires forall n :: aggregate(n).Some? ==> aggregate(n).value.confidence.Finite?
    ensures var picks := GenerateParlay(legs, odds, aggregate);
      forall i :: 0 <= i < |picks| ==> PickOfSomeName(picks[i], Candidates(odds), aggregate)
  {
    var names := Candidates(odds);
    var ranked := Ranked(legs.GetOr(3), odds, aggregate);
    PicksComeFromNames(names, aggregate, ranked, PicksOf(ranked));
  }

  lemma PicksComeFromNames(names: seq<string>, aggregate: string -> Option<Aggregated>, ranked: seq<Aggregated>, picks: seq<Pick>)
    requires forall i :: 0 <= i < |ranked| ==> ranked[i] in AggregateAll(names, aggregate)
    requires |picks| == |ranked| && forall i :: 0 <= i < |picks| ==> picks[i] == ToPick(ranked[i])
    ensures forall i :: 0 <= i < |picks| ==> PickOfSomeName(picks[i], names, aggregate)
  {
    var items := AggregateAll(names, aggregate);
    forall i | 0 <= i < |picks|
      ensures PickOfSomeName(picks[i], names, aggregate)
    {
      var k :| 0 <= k < |items| && items[k] == ranked[i];
      var j :| 0 <= j < |names| && aggregate(names[j]) == Some(items[k]);
    }
  }
}

=== FILE: js.dfy ===
/** The few JavaScript number semantics the model relies on: NaN, `Math.round`,
    `Math.min`/`Math.max` clamping and `Array.prototype.slice(0, end)`. */
module Js {

  /** A JavaScript number as far as the model needs it: a finite value or NaN.
      Every comparison involving NaN is false. */
  datatype Number = Finite(value: real) | NaN {

    predicate AtLeast(k: real) {
      Finite? && value >= k
    }

    predicate Below(k: real) {
      Finite? && value < k
    }
  }

  /** `Math.round`: the nearest integer, halves rounded towards +infinity. */
  function Round(x: real): (r: int)
    ensures r as real - 0.5 <= x < r as real + 0.5
  {
    (x + 0.5).Floor
  }

  /** `Math.round` lifted to NaN (`Math.round(NaN)` is NaN). */
  function RoundNumber(n: Number): (r: Number)
    ensures r.NaN? <==> n.NaN?
    ensures r.Finite? ==> r.value == Round(n.value) as real
  {
    match n
    case Finite(v) => Finite(Round(v) as real)
    case NaN => NaN
  }

  /** `Math.max(lo, Math.min(hi, x))`. */
  function Clamp(x: real, lo: real, hi: real): (r: real)
    requires lo <= hi
    ensures lo <= r <= hi
    ensures lo <= x <= hi ==> r == x
    ensures x < lo ==> r == lo
    ensures hi < x ==> r == hi
  {
    if hi < x then hi else if x < lo then lo else x
  }

  /** The property names every plain object inherits from `Object.prototype`.
      Looking one of them up in an object literal finds a function (or, for
      `__proto__`, the prototype itself) instead of a table entry. */
  predicate InheritedKey(name: string) {
    name in {"constructor", "hasOwnProperty", "isPrototypeOf", "propertyIsEnumerable",
             "toLocaleString", "toString", "valueOf", "__proto__",
             "__defineGetter__", "__defineSetter__", "__lookupGetter__", "__lookupSetter__"}
  }

  function Min(a: int, b: int): int {
    if a <= b then a else b
  }

  /** `s.slice(0, end)` for an integer `end`: a negative `end` counts from the
      back of the array. */
  function SlicePrefix<T>(s: seq<T>, end: int): (r: seq<T>)
    ensures |r| <= |s|
    ensures r == s[..|r|]
    ensures 0 <= end ==> |r| == Min(end, |s|)
    ensures end < 0 ==> |r| == if |s| + end < 0 then 0 else |s| + end
  {
    if 0 <= end then
      (if end < |s| then s[..end] else s)
    else if |s| + end < 0 then []
    else s[..|s| + end]
  }
}

=== FILE: jsstring.dfy ===
/** String helpers with JavaScript meaning: `trim`, `\s`, ASCII case mapping,
    `includes`, `startsWith`, `replace` with a string pattern, number-to-string
    and the decimal part of `Number(string)`. */
module JsString {
  import opened Wrappers

  /** JavaScript's WhiteSpace and LineTerminator characters (`\s`, `trim`). */
  predicate IsWhitespace(c: char) {
    || c == '\t' || c == '\n' || c == '\U{000B}' || c == '\U{000C}' || c == '\r'
    || c == ' ' || c == '\U{00A0}' || c == '\U{1680}'
    || ('\U{2000}' <= c <= '\U{200A}')
    || c == '\U{2028}' || c == '\U{2029}' || c == '\U{202F}' || c == '\U{205F}'
    || c == '\U{3000}' || c == '\U{FEFF}'
  }

  /** Characters that the regular-expression `.` does not match. */
  predicate IsLineTerminator(c: char) {
    c == '\n' || c == '\r' || c == '\U{2028}' || c == '\U{2029}'
  }

  predicate IsDigit(c: char) {
    '0' <= c <= '9'
  }

  /** `\w` of a non-Unicode regular expression. */
  predicate IsWordChar(c: char) {
    ('a' <= c <= 'z') || ('A' <= c <= 'Z') || IsDigit(c) || c == '_'
  }

  predicate NoWhitespace(s: string) {
    forall i :: 0 <= i < |s| ==> !IsWhitespace(s[i])
  }

  function LowerChar(c: char): char {
    if 'A' <= c <= 'Z' then (c as int + 32) as char else c
  }

  function UpperChar(c: char): char {
    if 'a' <= c <= 'z' then (c as int - 32) as char else c
  }

  /** `toLowerCase` on the ASCII letters. */
  function ToLower(s: string): (r: string)
    ensures |r| == |s|
    ensures forall i :: 0 <= i < |s| ==> r[i] == LowerChar(s[i])
  {
    if |s| == 0 then [] else [LowerChar(s[0])] + ToLower(s[1..])
  }

  /** `t` is the lower case of `s` when they agree character by character. */
  lemma ToLowerCharwise(s: string, t: string)
    requires |s| == |t| && forall i :: 0 <= i < |s| ==> LowerChar(s[i]) == t[i]
    ensures ToLower(s) == t
  {
  }

  /** Text without upper-case ASCII letters is its own lower case. */
  lemma ToLowerWithoutCapitals(s: string)
    requires forall i :: 0 <= i < |s| ==> !('A' <= s[i] <= 'Z')
    ensures ToLower(s) == s
  {
  }

  /** `toUpperCase` on the ASCII letters. */
  function ToUpper(s: string): (r: string)
    ensures |r| == |s|
    ensures forall i :: 0 <= i < |s| ==> r[i] == UpperChar(s[i])
  {
    if |s| == 0 then [] else [UpperChar(s[0])] + ToUpper(s[1..])
  }

  /** Lower-casing forgets an earlier upper-casing. */
  lemma LowerOfUpper(s: string)
    ensures ToLower(ToUpper(s)) == ToLower(s)
  {
    assert forall i :: 0 <= i < |s| ==> LowerChar(UpperChar(s[i])) == LowerChar(s[i]);
  }

  /** `t` is the upper case of `s` when they agree character by character. */
  lemma ToUpperCharwise(s: string, t: string)
    requires |s| == |t| && forall i :: 0 <= i < |s| ==> UpperChar(s[i]) == t[i]
    ensures ToUpper(s) == t
  {
  }

  predicate StartsWith(s: string, prefix: string) {
    |prefix| <= |s| && s[..|prefix|] == prefix
  }

  /** Starting with `a + b` means starting with `a`. */
  lemma StartsWithShorter(s: string, a: string, b: string)
    requires StartsWith(s, a + b)
    ensures StartsWith(s, a)
  {
    assert s[..|a|] == (a + b)[..|a|] == a;
  }

  /** `s.includes(sub)`: `sub` occurs somewhere in `s`. */
  predicate Contains(s: string, sub: string)
    decreases |s|
  {
    StartsWith(s, sub) || (|s| > 0 && Contains(s[1..], sub))
  }

  /** `sub` is a prefix of `s`, checked one character at a time. */
  predicate HasPrefix(s: string, sub: string)
    ensures HasPrefix(s, sub) ==> |sub| <= |s|
    decreases |sub|
  {
    |sub| == 0 || (|s| > 0 && s[0] == sub[0] && HasPrefix(s[1..], sub[1..]))
  }

  lemma {:induction false} HasPrefixIsStartsWith(s: string, sub: string)
    ensures HasPrefix(s, sub) <==> StartsWith(s, sub)
    decreases |sub|
  {
    if |sub| > 0 && |s| > 0 {
      HasPrefixIsStartsWith(s[1..], sub[1..]);
      if |sub| <= |s| {
        assert s[..|sub|] == [s[0]] + s[1..][..|sub| - 1];
        assert sub == [sub[0]] + sub[1..];
      }
    }
  }

  /** `s.indexOf(sub)`: the position of the first occurrence, or -1. */
  function IndexOf(s: string, sub: string): (r: int)
    ensures -1 <= r && (0 <= r ==> r + |sub| <= |s|)
    decreases |s|
  {
    if HasPrefix(s, sub) then 0
    else if |s| == 0 then -1
    else
      var i := IndexOf(s[1..], sub);
      if i < 0 then -1 else i + 1
  }

  /** `indexOf` finds a match, no match starts earlier, and it gives -1
      exactly when `s` does not contain `sub`. */
  lemma {:induction false} IndexOfFinds(s: string, sub: string)
    ensures var r := IndexOf(s, sub);
      && (0 <= r ==> s[r..r + |sub|] == sub)
      && (0 <= r ==> forall j :: 0 <= j < r ==> !StartsWith(s[j..], sub))
      && (r < 0 <==> !Contains(s, sub))
    decreases |s|
  {
    HasPrefixIsStartsWith(s, sub);
    if StartsWith(s, sub) {
      assert s[0..|sub|] == s[..|sub|];
    } else if |s| > 0 {
      IndexOfFinds(s[1..], sub);
      var i := IndexOf(s[1..], sub);
      if 0 <= i {
        IndexOfStep(s, sub, i);
      }
    }
  }

  /** A match found in the tail is a match one place further in `s`, and no
      earlier position of `s` starts a match. */
  lemma IndexOfStep(s: string, sub: string, i: nat)
    requires |s| > 0 && !StartsWith(s, sub)
    requires i + |sub| <= |s[1..]| && s[1..][i..i + |sub|] == sub
    requires forall j :: 0 <= j < i ==> !StartsWith(s[1..][j..], sub)
    ensures i + 1 + |sub| <= |s| && s[i + 1..i + 1 + |sub|] == sub
    ensures forall j :: 0 <= j < i + 1 ==> !StartsWith(s[j..], sub)
  {
    assert s[1..][i..i + |sub|] == s[i + 1..i + 1 + |sub|];
    forall j | 1 <= j < i + 1
      ensures !StartsWith(s[j..], sub)
    {
      assert s[j..] == s[1..][j - 1..];
    }
  }

  /** A match at any position means `s` contains `sub`. */
  lemma {:induction false} ContainsAt(s: string, sub: string, j: nat)
    requires j <= |s| && StartsWith(s[j..], sub)
    ensures Contains(s, sub)
    decreases j
  {
    if j > 0 {
      assert s[1..][j - 1..] == s[j..];
      ContainsAt(s[1..], sub, j - 1);
    }
  }

  /** `indexOf` reports the earliest match: a match at `i` with none before
      it is the one found. */
  lemma IndexOfFirst(s: string, sub: string, i: nat)
    requires i + |sub| <= |s| && s[i..i + |sub|] == sub
    requires forall j :: 0 <= j < i ==> !StartsWith(s[j..], sub)
    ensures IndexOf(s, sub) == i
  {
    assert s[i..][..|sub|] == s[i..i + |sub|];
    ContainsAt(s, sub, i);
    IndexOfFinds(s, sub);
    var k := IndexOf(s, sub);
    assert s[k..][..|sub|] == s[k..k + |sub|];
  }

  /** `s.replace(pattern, replacement)` with a string pattern: the first
      occurrence only. */
  function ReplaceFirst(s: string, pattern: string, replacement: string): (r: string)
    ensures !Contains(s, pattern) ==> r == s
  {
    IndexOfFinds(s, pattern);
    var i := IndexOf(s, pattern);
    if i < 0 then s else s[..i] + replacement + s[i + |pattern|..]
  }

  /** The input without its leading whitespace (`trimStart`). */
  function TrimStart(s: string): (r: string)
    ensures |r| <= |s| && r == s[|s| - |r|..]
    ensures |r| > 0 ==> !IsWhitespace(r[0])
    ensures forall i :: 0 <= i < |s| - |r| ==> IsWhitespace(s[i])
  {
    if |s| > 0 && IsWhitespace(s[0]) then TrimStart(s[1..]) else s
  }

  /** The input without its trailing whitespace (`trimEnd`). */
  function TrimEnd(s: string): (r: string)
    ensures |r| <= |s| && r == s[..|r|]
    ensures |r| > 0 ==> !IsWhitespace(r[|r| - 1])
    ensures forall i :: |r| <= i < |s| ==> IsWhitespace(s[i])
  {
    if |s| > 0 && IsWhitespace(s[|s| - 1]) then TrimEnd(s[..|s| - 1]) else s
  }

  /** `trim`: the middle of the input, without whitespace at either end. */
  function Trim(s: string): (r: string)
    ensures |r| <= |s|
    ensures |r| > 0 ==> !IsWhitespace(r[0]) && !IsWhitespace(r[|r| - 1])
  {
    TrimEnd(TrimStart(s))
  }

  /** `s.replace(/\s+/g, rep)`: every maximal whitespace run becomes `rep`. */
  function ReplaceWhitespaceRuns(s: string, rep: string): (r: string)
    decreases |s|
  {
    if |s| == 0 then []
    else if IsWhitespace(s[0]) then rep + ReplaceWhitespaceRuns(TrimStart(s), rep)
    else [s[0]] + ReplaceWhitespaceRuns(s[1..], rep)
  }

  /** The leading run of non-whitespace characters. */
  function FirstWord(s: string): (r: string)
    ensures |r| <= |s| && r == s[..|r|]
    ensures NoWhitespace(r)
    ensures |r| < |s| ==> IsWhitespace(s[|r|])
  {
    if |s| == 0 || IsWhitespace(s[0]) then [] else [s[0]] + FirstWord(s[1..])
  }

  /** `s.split(sep)` for a non-empty separator. */
  function Split(s: string, sep: string): (r: seq<string>)
    requires |sep| > 0
    ensures |r| > 0
    decreases |s|
  {
    var i := IndexOf(s, sep);
    if i < 0 then [s] else [s[..i]] + Split(s[i + |sep|..], sep)
  }

  /** One step of `split`: the text before the first separator, then the
      split of the rest. */
  lemma SplitStep(s: string, sep: string, i: nat)
    requires |sep| > 0 && IndexOf(s, sep) == i
    ensures i + |sep| <= |s|
    ensures Split(s, sep) == [s[..i]] + Split(s[i + |sep|..], sep)
  {
  }

  function DigitChar(d: nat): char
    requires d < 10
  {
    "0123456789"[d]
  }

  /** Decimal rendering of a natural number, as in a template literal. */
  function NatToString(n: nat): (r: string)
    ensures |r| > 0
    ensures forall i :: 0 <= i < |r| ==> IsDigit(r[i])
    decreases n
  {
    if n < 10 then [DigitChar(n)] else NatToString(n / 10) + [DigitChar(n % 10)]
  }

  /** Decimal rendering of an integer, with a leading `-` when negative. */
  function IntToString(i: int): (r: string)
    ensures |r| > 0
    ensures NoWhitespace(r)
  {
    if i < 0 then "-" + NatToString(-i) else NatToString(i)
  }

  function DigitValue(c: char): nat
    requires IsDigit(c)
  {
    c as int - '0' as int
  }

  predicate AllDigits(s: string) {
    forall i :: 0 <= i < |s| ==> IsDigit(s[i])
  }

  /** The value of a string of decimal digits. */
  function DigitsValue(s: string): nat
    requires AllDigits(s)
    decreases |s|
  {
    if |s| == 0 then 0 else DigitsValue(s[..|s| - 1]) * 10 + DigitValue(s[|s| - 1])
  }

  /** `Number(s)` restricted to an optional sign followed by decimal digits
      (the empty or all-whitespace string is 0); `None` for every other
      string, which the model treats as not a finite number. */
  function ParseDecimal(s: string): (r: Option<int>)
    ensures Trim(s) == [] ==> r == Some(0)
  {
    ParseTrimmed(Trim(s))
  }

  function ParseTrimmed(t: string): Option<int> {
    if |t| == 0 then Some(0)
    else if (t[0] == '+' || t[0] == '-') && |t| > 1 && AllDigits(t[1..]) then
      Some(if t[0] == '-' then -(DigitsValue(t[1..]) as int) else DigitsValue(t[1..]))
    else if AllDigits(t) then Some(DigitsValue(t))
    else None
  }

  lemma {:induction false} DigitsValueOfNatToString(n: nat)
    ensures DigitsValue(NatToString(n)) == n
    decreases n
  {
    if n >= 10 {
      var s := NatToString(n);
      var prefix := NatToString(n / 10);
      assert s == prefix + [DigitChar(n % 10)];
      assert s[..|s| - 1] == prefix;
      DigitsValueOfNatToString(n / 10);
    }
  }

  lemma TrimOfNoWhitespace(s: string)
    requires NoWhitespace(s)
    ensures Trim(s) == s
  {
  }

  lemma ParseTrimmedOfIntToString(i: int)
    ensures ParseTrimmed(IntToString(i)) == Some(i)
  {
    if i < 0 {
      ParseTrimmedOfNegative(i);
    } else {
      ParseTrimmedOfNatural(i);
    }
  }

  lemma ParseTrimmedOfNatural(n: nat)
    ensures ParseTrimmed(NatToString(n)) == Some(n)
  {
    var s := NatToString(n);
    DigitsValueOfNatToString(n);
    assert IsDigit(s[0]) && s[0] != '+' && s[0] != '-';
  }

  lemma ParseTrimmedOfNegative(i: int)
    requires i < 0
    ensures ParseTrimmed(IntToString(i)) == Some(i)
  {
    var m: nat := -i;
    NegativeIntText(i, m);
    ParseTrimmedOfMinusNat(m);
  }

  lemma ParseTrimmedOfMinusNat(m: nat)
    ensures ParseTrimmed("-" + NatToString(m)) == Some(-(m as int))
  {
    var digits := NatToString(m);
    DigitsValueOfNatToString(m);
    ParseTrimmedOfMinusDigits(digits, m);
  }

  /** A negative integer is written as `-` followed by the digits of its
      magnitude. */
  lemma NegativeIntText(i: int, m: nat)
    requires i < 0 && m == -i
    ensures IntToString(i) == "-" + NatToString(m)
  {
  }

  lemma ParseTrimmedOfMinusDigits(digits: string, v: nat)
    requires |digits| > 0 && AllDigits(digits) && DigitsValue(digits) == v
    ensures ParseTrimmed("-" + digits) == Some(-(v as int))
  {
    var t := "-" + digits;
    assert t[0] == '-' && t[1..] == digits;
  }

  /** Rendering an integer and parsing it back gives the integer again. */
  lemma {:induction false} ParseDecimalOfIntToString(i: int)
    ensures ParseDecimal(IntToString(i)) == Some(i)
  {
    TrimOfNoWhitespace(IntToString(i));
    ParseTrimmedOfIntToString(i);
  }

  /** The longest prefix of decimal digits. */
  function LeadingDigits(s: string): (r: string)
    ensures |r| <= |s| && r == s[..|r|]
    ensures AllDigits(r)
    ensures |r| < |s| ==> !IsDigit(s[|r|])
    decreases |s|
  {
    if |s| > 0 && IsDigit(s[0]) then [s[0]] + LeadingDigits(s[1..]) else []
  }

  /** `parseInt(s)` in base 10: leading whitespace, an optional sign, then
      as many decimal digits as follow; `None` (NaN) when there are none. */
  function ParseIntPrefix(s: string): Option<int> {
    var t := TrimStart(s);
    var signed := |t| > 0 && (t[0] == '+' || t[0] == '-');
    var digits := LeadingDigits(if signed then t[1..] else t);
    if |digits| == 0 then None
    else if signed && t[0] == '-' then Some(-(DigitsValue(digits) as int))
    else Some(DigitsValue(digits))
  }

  lemma {:induction false} LeadingDigitsOfDigits(d: string, rest: string)
    requires AllDigits(d)
    requires |rest| > 0 ==> !IsDigit(rest[0])
    ensures LeadingDigits(d + rest) == d
    decreases |d|
  {
    if |d| > 0 {
      assert (d + rest)[1..] == d[1..] + rest;
      LeadingDigitsOfDigits(d[1..], rest);
    } else {
      assert d + rest == rest;
    }
  }

  /** `parseInt` reads back a rendered integer from the front of any text
      that does not continue it with a digit. */
  lemma ParseIntPrefixOfIntToString(i: int, rest: string)
    requires |rest| > 0 ==> !IsDigit(rest[0])
    ensures ParseIntPrefix(IntToString(i) + rest) == Some(i)
  {
    if i < 0 {
      ParseIntPrefixOfNegative(i, rest);
    } else {
      ParseIntPrefixOfNatural(i, rest);
    }
  }

  lemma ParseIntPrefixOfNatural(n: nat, rest: string)
    requires |rest| > 0 ==> !IsDigit(rest[0])
    ensures ParseIntPrefix(NatToString(n) + rest) == Some(n)
  {
    var digits := NatToString(n);
    DigitsValueOfNatToString(n);
    LeadingDigitsOfDigits(digits, rest);
    ParseIntPrefixUnsigned(digits + rest, digits);
  }

  lemma ParseIntPrefixOfNegative(i: int, rest: string)
    requires i < 0
    requires |rest| > 0 ==> !IsDigit(rest[0])
    ensures ParseIntPrefix(IntToString(i) + rest) == Some(i)
  {
    var m: nat := -i;
    NegativeIntText(i, m);
    ParseIntPrefixOfMinusNat(m, rest);
  }

  lemma ParseIntPrefixOfMinusNat(m: nat, rest: string)
    requires |rest| > 0 ==> !IsDigit(rest[0])
    ensures ParseIntPrefix("-" + NatToString(m) + rest) == Some(-(m as int))
  {
    var digits := NatToString(m);
    DigitsValueOfNatToString(m);
    ParseIntPrefixOfMinus(digits, rest);
  }

  lemma ParseIntPrefixUnsigned(s: string, digits: string)
    requires |digits| > 0 && LeadingDigits(s) == digits
    ensures ParseIntPrefix(s) == Some(DigitsValue(digits) as int)
  {
    assert s[0] == digits[0] && IsDigit(s[0]);
    assert s[0] != '+' && s[0] != '-';
    TrimStartOfNonWhitespace(s);
  }

  /** `parseInt` of a minus sign, digits and a tail that does not go on with
      a digit. */
  lemma ParseIntPrefixOfMinus(digits: string, rest: string)
    requires |digits| > 0 && AllDigits(digits)
    requires |rest| > 0 ==> !IsDigit(rest[0])
    ensures ParseIntPrefix("-" + digits + rest) == Some(-(DigitsValue(digits) as int))
  {
    DropSign(digits, rest);
    LeadingDigitsOfDigits(digits, rest);
    ParseIntPrefixSigned("-" + digits + rest, digits);
  }

  lemma DropSign(digits: string, rest: string)
    ensures ("-" + digits + rest)[0] == '-'
    ensures ("-" + digits + rest)[1..] == digits + rest
  {
  }

  lemma ParseIntPrefixSigned(t: string, digits: string)
    requires |t| > 0 && t[0] == '-'
    requires |digits| > 0 && LeadingDigits(t[1..]) == digits
    ensures ParseIntPrefix(t) == Some(-(DigitsValue(digits) as int))
  {
    TrimStartOfNonWhitespace(t);
  }

  lemma TrimStartOfNonWhitespace(t: string)
    requires |t| > 0 && !IsWhitespace(t[0])
    ensures TrimStart(t) == t
  {
  }

  /** `"{a}/{b}{sep}{tail}"` gives back `a` and `b` to `parseInt` when `sep`
      does not begin with a digit, and ends with `tail`. */
  lemma RatioReadsBack(a: int, b: int, sep: string, tail: string)
    requires |sep| > 0 && !IsDigit(sep[0])
    ensures var r := IntToString(a) + "/" + IntToString(b) + sep + tail;
      && ParseIntPrefix(r) == Some(a)
      && |IntToString(a)| < |r| && r[|IntToString(a)|] == '/'
      && ParseIntPrefix(r[|IntToString(a)| + 1..]) == Some(b)
      && |tail| <= |r| && r[|r| - |tail|..] == tail
  {
    var x, y := IntToString(a), IntToString(b);
    var r := x + "/" + y + sep + tail;
    var rest := "/" + y + sep + tail;
    Regroup(x, y, sep, tail);
    assert r == x + rest;
    ParseIntPrefixOfIntToString(a, rest);
    assert r[|x| + 1..] == y + (sep + tail);
    ParseIntPrefixOfIntToString(b, sep + tail);
  }

  lemma Regroup(x: string, y: string, sep: string, tail: string)
    ensures x + "/" + y + sep + tail == x + ("/" + y + sep + tail)
    ensures (x + "/" + y + sep + tail)[|x| + 1..] == y + (sep + tail)
    ensures (x + "/" + y + sep + tail)[|x|] == '/'
  {
  }


  /** `"{a} / {b}"` gives back `a` to `parseInt`, and `b` after the separator. */
  lemma SpacedRatioReadsBack(a: int, b: int)
    ensures var r := IntToString(a) + " / " + IntToString(b);
      && ParseIntPrefix(r) == Some(a)
      && |IntToString(a)| + 3 <= |r| && r[|IntToString(a)|..|IntToString(a)| + 3] == " / "
      && ParseIntPrefix(r[|IntToString(a)| + 3..]) == Some(b)
  {
    var x, y := IntToString(a), IntToString(b);
    var r := x + " / " + y;
    assert r == x + (" / " + y);
    ParseIntPrefixOfIntToString(a, " / " + y);
    assert r[|x| + 3..] == y + "";
    ParseIntPrefixOfIntToString(b, "");
  }
}

=== FILE: normalize.dfy ===
/** Pick and parlay normalisation (`lib/normalize.js`): the player name and
    market read out of a free-text description, the confidence colour and
    risk tiers, and the canonical pick and parlay records. */
module Normalize {
  import opened Wrappers
  import opened Js
  import opened JsString
  import opened PickClassifier

  // ---------------------------------------------------------------------
  // parseDescPlayer

  /** No line terminator among the first `k` characters: a group `(.+?)` of
      length `k` can match there. */
  predicate GroupOk(s: string, k: int) {
    forall j :: 0 <= j < k && j < |s| ==> !IsLineTerminator(s[j])
  }

  /** `w` starts `s`, ignoring ASCII case, and ends on a word boundary. */
  predicate WordPrefixCI(s: string, w: string) {
    |w| <= |s| && ToLower(s[..|w|]) == w && (|w| == |s| || !IsWordChar(s[|w|]))
  }

  /** `\s+(?:Over|Under)\b` (case-insensitive) matches at `i`. */
  predicate OverUnderAt(s: string, i: int) {
    0 <= i < |s| && IsWhitespace(s[i]) &&
    (var rest := TrimStart(s[i..]); WordPrefixCI(rest, "over") || WordPrefixCI(rest, "under"))
  }

  /** `\s+\d` matches at `i`. */
  predicate DigitAt(s: string, i: int) {
    0 <= i < |s| && IsWhitespace(s[i]) &&
    (var rest := TrimStart(s[i..]); |rest| > 0 && IsDigit(rest[0]))
  }

  /** The lazy group of `/^(.+?)X/`: the least cut `k >= i` at which `X`
      matches (`at(s, k)`) and before which the group holds no line
      terminator; none when there is no such cut. */
  function LazyCut(s: string, at: (string, int) -> bool, i: nat): (r: Option<nat>)
    requires 1 <= i && GroupOk(s, i - 1)
    ensures r.Some? ==> i <= r.value < |s| && at(s, r.value) && GroupOk(s, r.value)
    ensures r.Some? ==> forall k :: i <= k < r.value ==> !at(s, k)
    ensures r.None? ==> forall k :: i <= k < |s| && GroupOk(s, k) ==> !at(s, k)
    decreases |s| - i
  {
    if i >= |s| then None
    else if IsLineTerminator(s[i - 1]) then
      assert forall k :: i <= k ==> !GroupOk(s, k);
      None
    else if at(s, i) then Some(i)
    else LazyCut(s, at, i + 1)
  }

  /** Where the player part of a description ends: before the first
      Over/Under word, else before the first number, else at the end. */
  function DescCut(d: string): (c: nat)
    requires |d| > 0
    ensures 0 < c <= |d|
  {
    match LazyCut(d, OverUnderAt, 1)
    case Some(i) => i
    case None =>
      match LazyCut(d, DigitAt, 1)
      case Some(i) => i
      case None => |d|
  }

  /** `parseDescPlayer` as written: `null` for a missing or empty
      description, otherwise the trimmed text before the cut. */
  function ParseDescPlayer(desc: Option<string>): (r: Option<string>)
    ensures r.None? <==> desc.None? || desc.value == ""
    ensures r.Some? ==> r.value == Trim(desc.value[..DescCut(desc.value)])
    ensures r.Some? ==> |r.value| == 0 || (!IsWhitespace(r.value[0]) && !IsWhitespace(r.value[|r.value| - 1]))
  {
    match desc
    case Some(d) => if d == "" then None else Some(Trim(d[..DescCut(d)]))
    case None => None
  }

  /** The lazy cut is the first matching position. */
  lemma {:induction false} LazyCutFinds(s: string, at: (string, int) -> bool, i: nat, c: nat)
    requires 1 <= i <= c < |s| && GroupOk(s, c)
    requires at(s, c)
    requires forall k :: i <= k < c ==> !at(s, k)
    ensures LazyCut(s, at, i) == Some(c)
    decreases c - i
  {
    assert !IsLineTerminator(s[i - 1]);
    if i < c {
      LazyCutFinds(s, at, i + 1, c);
    }
  }

  /** `TrimStart` of a string that begins with a space skips it. */
  lemma TrimStartSpace(x: string)
    requires |x| == 0 || !IsWhitespace(x[0])
    ensures TrimStart(" " + x) == x
  {
    assert (" " + x)[1..] == x;
  }

  /** After a one-word name, the cut of the Over/Under pattern falls on the
      space that follows the name. */
  lemma OverUnderAfterName(name: string, word: string, rest: string)
    requires |name| > 0 && NoWhitespace(name)
    requires word == "Over" || word == "Under"
    requires |rest| == 0 || !IsWordChar(rest[0])
    ensures OverUnderAt(name + " " + word + rest, |name|)
  {
    var s := name + " " + word + rest;
    var tail := word + rest;
    assert s[|name|..] == " " + tail;
    TrimStartSpace(tail);
    OverUnderWord(word, rest);
  }

  /** `Over` or `Under` at a word boundary matches the case-insensitive word. */
  lemma OverUnderWord(word: string, rest: string)
    requires word == "Over" || word == "Under"
    requires |rest| == 0 || !IsWordChar(rest[0])
    ensures WordPrefixCI(word + rest, "over") || WordPrefixCI(word + rest, "under")
  {
    var tail := word + rest;
    assert tail[..|word|] == word;
    if word == "Over" {
      ToLowerCharwise("Over", "over");
    } else {
      ToLowerCharwise("Under", "under");
    }
  }

  /** A one-word name followed by ` Over` or ` Under` (and a word boundary)
      comes back as that name. */
  lemma OneWordBeforeOverUnder(name: string, word: string, rest: string)
    requires |name| > 0 && NoWhitespace(name)
    requires word == "Over" || word == "Under"
    requires |rest| == 0 || !IsWordChar(rest[0])
    ensures ParseDescPlayer(Some(name + " " + word + rest)) == Some(name)
  {
    DescCutAfterName(name, word, rest);
    TrimOfNoWhitespace(name);
  }

  /** After a one-word name and ` Over` or ` Under`, the description is cut
      right after the name. */
  lemma DescCutAfterName(name: string, word: string, rest: string)
    requires |name| > 0 && NoWhitespace(name)
    requires word == "Over" || word == "Under"
    requires |rest| == 0 || !IsWordChar(rest[0])
    ensures var s := name + " " + word + rest;
      |name| < |s| && DescCut(s) == |name| && s[..|name|] == name
  {
    var s := name + " " + word + rest;
    OverUnderAfterName(name, word, rest);
    NamePrefix(name, word, rest);
    NoCutInsideName(s, name);
    DescCutAt(s, |name|);
  }

  lemma NamePrefix(name: string, word: string, rest: string)
    ensures |name| < |name + " " + word + rest|
    ensures (name + " " + word + rest)[..|name|] == name
  {
    var s := name + " " + word + rest;
    assert forall k :: 0 <= k < |name| ==> s[k] == name[k];
  }

  /** Inside a whitespace-free prefix neither a line terminator nor the
      Over/Under pattern can occur. */
  lemma NoCutInsideName(s: string, name: string)
    requires |name| < |s| && NoWhitespace(name)
    requires s[..|name|] == name
    ensures GroupOk(s, |name|)
    ensures forall k :: 1 <= k < |name| ==> !OverUnderAt(s, k)
  {
    assert forall k :: 0 <= k < |name| ==> s[k] == name[k];
  }

  /** The first Over/Under position, with no line terminator before it, is
      where the description is cut. */
  lemma DescCutAt(s: string, c: nat)
    requires 1 <= c < |s| && GroupOk(s, c) && OverUnderAt(s, c)
    requires forall k :: 1 <= k < c ==> !OverUnderAt(s, k)
    ensures DescCut(s) == c
  {
    LazyCutFinds(s, OverUnderAt, 1, c);
  }

  /** A description without whitespace comes back whole. */
  lemma OneWordDescIsItself(d: string)
    requires |d| > 0 && NoWhitespace(d)
    ensures ParseDescPlayer(Some(d)) == Some(d)
  {
    assert d[..|d|] == d;
    TrimOfNoWhitespace(d);
  }

  /** A whitespace-only description gives the empty name, although the
      source comments that the final fallback is never empty. */
  lemma BlankDescGivesEmptyName()
    ensures ParseDescPlayer(Some(" ")) == Some("")
  {
    assert " "[..DescCut(" ")] == " ";
  }

  /** `parseDescPlayer` as its comment intends: never an empty name, `null`
      where the code would return `""`. */
  function DescPlayer(desc: Option<string>): (r: Option<string>)
    ensures r.Some? ==> r.value != "" && r == ParseDescPlayer(desc)
    ensures r.None? ==> ParseDescPlayer(desc).None? || ParseDescPlayer(desc) == Some("")
  {
    match ParseDescPlayer(desc)
    case Some(n) => if n != "" then Some(n) else None
    case None => None
  }

  // ---------------------------------------------------------------------
  // inferMarketFromDesc

  /** `w` occurs at `i` between word boundaries. */
  predicate WordAt(s: string, i: int, w: string) {
    0 <= i && i + |w| <= |s| && s[i..i + |w|] == w &&
    (i == 0 || !IsWordChar(s[i - 1])) && (i + |w| == |s| || !IsWordChar(s[i + |w|]))
  }

  /** `/\bw\b/.test(s)`. */
  predicate ContainsWord(s: string, w: string) {
    exists i :: 0 <= i <= |s| && WordAt(s, i, w)
  }

  /** `inferMarketFromDesc`: the first market whose key word occurs in the
      lower-cased description, in the order points, rebounds, threes,
      spread, then a whole-word over/under for totals. */
  function InferMarket(desc: Option<string>): (r: Option<string>)
    ensures desc.None? || desc.value == "" ==> r.None?
    ensures desc.Some? && desc.value != "" ==> (
      var d := ToLower(desc.value);
      && (r == Some("points") <==> Contains(d, "points"))
      && (r == Some("rebounds") <==> !Contains(d, "points") && Contains(d, "rebounds"))
      && (r == Some("threesMade") <==> (
            && !Contains(d, "points") && !Contains(d, "rebounds")
            && (Contains(d, "threes") || Contains(d, "3pt") || Contains(d, "three"))))
      && (r == Some("spread") <==> (
            && !Contains(d, "points") && !Contains(d, "rebounds") && !Contains(d, "threes")
            && !Contains(d, "3pt") && !Contains(d, "three") && Contains(d, "spread")))
      && (r == Some("total") <==> (
            && !Contains(d, "points") && !Contains(d, "rebounds") && !Contains(d, "threes")
            && !Contains(d, "3pt") && !Contains(d, "three") && !Contains(d, "spread")
            && (ContainsWord(d, "over") || ContainsWord(d, "under"))))
      && (r.None? <==> (
            && !Contains(d, "points") && !Contains(d, "rebounds") && !Contains(d, "threes")
            && !Contains(d, "three") && !Contains(d, "3pt") && !Contains(d, "spread")
            && !ContainsWord(d, "over") && !ContainsWord(d, "under"))))
  {
    match desc
    case None => None
    case Some(raw) =>
      if raw == "" then None
      else
        var d := ToLower(raw);
        if Contains(d, "points") then Some("points")
        else if Contains(d, "rebounds") then Some("rebounds")
        else if Contains(d, "threes") || Contains(d, "3pt") || Contains(d, "three") then Some("threesMade")
        else if Contains(d, "spread") then Some("spread")
        else if ContainsWord(d, "over") || ContainsWord(d, "under") then Some("total")
        else None
  }

  /** Upper-casing a description does not change its market. */
  lemma MarketIgnoresCase(d: string)
    ensures InferMarket(Some(ToUpper(d))) == InferMarket(Some(d))
  {
    LowerOfUpper(d);
    assert ToUpper(d) == "" <==> d == "";
  }

  // ---------------------------------------------------------------------
  // Colour and risk tiers

  /** `colorFromConfidence`: grey without a confidence, then green from 80,
      orange from 60, red below (and for NaN). */
  function ColorFromConfidence(c: Option<Number>): (r: string)
    ensures r == "grey" <==> c.None?
    ensures r == "green" <==> c.Some? && c.value.AtLeast(80.0)
    ensures r == "orange" <==> c.Some? && c.value.AtLeast(60.0) && !c.value.AtLeast(80.0)
    ensures r == "red" <==> c.Some? && !c.value.AtLeast(60.0)
  {
    match c
    case None => "grey"
    case Some(n) => if n.AtLeast(80.0) then "green" else if n.AtLeast(60.0) then "orange" else "red"
  }

  /** `riskFromConfidence`: unknown without a confidence, then low from 75,
      high from 50, very high below (and for NaN); never moderate. */
  function RiskFromConfidence(c: Option<Number>): (r: string)
    ensures r == "unknown" <==> c.None?
    ensures r == "low" <==> c.Some? && c.value.AtLeast(75.0)
    ensures r == "high" <==> c.Some? && c.value.AtLeast(50.0) && !c.value.AtLeast(75.0)
    ensures r == "very_high" <==> c.Some? && !c.value.AtLeast(50.0)
    ensures r != "moderate"
  {
    match c
    case None => "unknown"
    case Some(n) => if n.AtLeast(75.0) then "low" else if n.AtLeast(50.0) then "high" else "very_high"
  }

  function ColorRank(color: string): int {
    if color == "green" then 2 else if color == "orange" then 1 else 0
  }

  function RiskRank(risk: string): int {
    if risk == "low" then 0 else if risk == "high" then 1 else 2
  }

  /** More confidence never gives a worse colour or a higher risk. */
  lemma TiersMonotone(c1: real, c2: real)
    requires c1 <= c2
    ensures ColorRank(ColorFromConfidence(Some(Finite(c1)))) <= ColorRank(ColorFromConfidence(Some(Finite(c2))))
    ensures RiskRank(RiskFromConfidence(Some(Finite(c2)))) <= RiskRank(RiskFromConfidence(Some(Finite(c1))))
  {
  }

  // ---------------------------------------------------------------------
  // normalizePick and normalizeParlay

  /** A key that may be absent, present as `null`, or present with a value
      (the `'key' in raw` tests). */
  datatype Field<T> = Absent | Null | Value(v: T)

  /** The raw pick fields `normalizePick` reads. */
  datatype RawPick = RawPick(
    playerName: Option<string>,
    player: Option<string>,
    desc: Option<string>,
    teamName: Option<string>,
    team: Option<string>,
    market: Option<string>,
    line: Field<real>,
    lineValue: Option<real>,
    odds: Field<Odds>,
    oddsValue: Odds,
    confidence: Option<Number>,
    playingToday: Field<bool>,
    hits: Field<int>,
    hitsCount: Option<int>,
    games: Field<int>,
    gameCount: Option<int>,
    explanation: Option<string>,
    confidenceColor: Option<string>,
    risk: Option<string>)

  datatype NormalPick = NormalPick(
    playerName: Option<string>,
    teamName: Option<string>,
    market: Option<string>,
    line: Option<real>,
    odds: Odds,
    confidence: Option<Number>,
    playingToday: bool,
    hits: Option<int>,
    games: Option<int>,
    explanation: string,
    confidenceColor: string,
    risk: string,
    raw: RawPick)

  /** A string that is present and not empty, so truthy. */
  predicate Given(s: Option<string>) {
    s.Some? && s.value != ""
  }

  /** `a || b` on optional strings. */
  function OrText(a: Option<string>, b: Option<string>): (r: Option<string>)
    ensures a.Some? && a.value != "" ==> r == a
    ensures (a.None? || a.value == "") ==> r == b
  {
    if a.Some? && a.value != "" then a else b
  }

  /** `x || null` on an optional number: 0 counts as missing. */
  function NonZero<T(==)>(x: Option<T>, zero: T): (r: Option<T>)
    ensures r.Some? <==> x.Some? && x.value != zero
    ensures r.Some? ==> r == x
  {
    if x.Some? && x.value != zero then x else None
  }

  /** `'key' in raw ? raw.key : fallback`. */
  function Explicit<T>(f: Field<T>, fallback: Option<T>): (r: Option<T>)
    ensures f.Value? ==> r == Some(f.v)
    ensures f.Null? ==> r.None?
    ensures f.Absent? ==> r == fallback
  {
    match f
    case Value(v) => Some(v)
    case Null => None
    case Absent => fallback
  }

  /** JavaScript truthiness of an odds value. */
  predicate OddsTruthy(o: Odds) {
    match o
    case NoOdds => false
    case NumberOdds(n) => n.Finite? && n.value != 0.0
    case TextOdds(t) => t != ""
  }

  /** `/^team\s+/i`. */
  predicate TeamPrefixed(name: string) {
    |name| > 4 && ToLower(name[..4]) == "team" && IsWhitespace(name[4])
  }

  /** `raw.playerName || raw.player || parseDescPlayer(raw.desc) || null`:
      never the empty string. */
  function PlayerNameOf(raw: RawPick): (r: Option<string>)
    ensures r.Some? ==> r.value != ""
    ensures raw.playerName.Some? && raw.playerName.value != "" ==> r == raw.playerName
    ensures OrText(raw.playerName, raw.player).None? ==> r == DescPlayer(raw.desc)
  {
    OrText(OrText(raw.playerName, raw.player), DescPlayer(raw.desc))
  }

  /** `raw.teamName || raw.team`, else the player name when it starts with
      `team `. */
  function TeamNameOf(raw: RawPick, playerName: Option<string>): (r: Option<string>)
    ensures raw.teamName.Some? && raw.teamName.value != "" ==> r == raw.teamName
    ensures OrText(raw.teamName, raw.team).None? ==>
      (r.Some? <==> playerName.Some? && TeamPrefixed(playerName.value))
    ensures OrText(raw.teamName, raw.team).None? && r.Some? ==> r == playerName
  {
    var fromPlayer := if playerName.Some? && TeamPrefixed(playerName.value) then playerName else None;
    OrText(OrText(raw.teamName, raw.team), fromPlayer)
  }

  /** `'odds' in raw ? raw.odds : (raw.oddsValue || null)`. */
  function OddsOf(raw: RawPick): (r: Odds)
    ensures raw.odds.Value? ==> r == raw.odds.v
    ensures raw.odds.Null? ==> r == NoOdds
    ensures raw.odds.Absent? ==> r == (if OddsTruthy(raw.oddsValue) then raw.oddsValue else NoOdds)
  {
    match raw.odds
    case Value(o) => o
    case Null => NoOdds
    case Absent => if OddsTruthy(raw.oddsValue) then raw.oddsValue else NoOdds
  }

  /** `normalizePick`. Explicit fields are kept; `playingToday` defaults to
      false; colour and risk come from the confidence unless given; a
      non-blank explanation is trimmed, otherwise `explainSources`
      (`explanationFromSources`) supplies one. */
  function NormalizePick(raw: RawPick, explainSources: RawPick -> string): (p: NormalPick)
    ensures p.raw == raw
    ensures p.playerName == PlayerNameOf(raw) && p.teamName == TeamNameOf(raw, p.playerName)
    ensures raw.line.Value? ==> p.line == Some(raw.line.v)
    ensures raw.line.Null? ==> p.line.None?
    ensures raw.hits.Value? ==> p.hits == Some(raw.hits.v)
    ensures raw.games.Value? ==> p.games == Some(raw.games.v)
    ensures p.playingToday <==> raw.playingToday == Value(true)
    ensures p.confidence == raw.confidence
    ensures raw.confidenceColor.None? || raw.confidenceColor.value == "" ==>
      p.confidenceColor == ColorFromConfidence(raw.confidence)
    ensures raw.risk.None? || raw.risk.value == "" ==> p.risk == RiskFromConfidence(raw.confidence)
    ensures raw.explanation.Some? && Trim(raw.explanation.value) != "" ==> p.explanation == Trim(raw.explanation.value)
    ensures !(raw.explanation.Some? && Trim(raw.explanation.value) != "") ==> p.explanation == explainSources(raw)
    ensures Given(raw.market) ==> p.market == raw.market
    ensures !Given(raw.market) ==> p.market == InferMarket(raw.desc)
    ensures p.odds == OddsOf(raw)
    ensures raw.line.Absent? ==> (p.line.Some? <==> raw.lineValue.Some? && raw.lineValue.value != 0.0)
    ensures raw.line.Absent? && p.line.Some? ==> p.line == raw.lineValue
    ensures raw.hits.Null? ==> p.hits.None?
    ensures raw.hits.Absent? ==> (p.hits.Some? <==> raw.hitsCount.Some? && raw.hitsCount.value != 0)
    ensures raw.hits.Absent? && p.hits.Some? ==> p.hits == raw.hitsCount
    ensures raw.games.Null? ==> p.games.None?
    ensures raw.games.Absent? ==> (p.games.Some? <==> raw.gameCount.Some? && raw.gameCount.value != 0)
    ensures raw.games.Absent? && p.games.Some? ==> p.games == raw.gameCount
    ensures Given(raw.confidenceColor) ==> p.confidenceColor == raw.confidenceColor.value
    ensures Given(raw.risk) ==> p.risk == raw.risk.value
  {
    var playerName := PlayerNameOf(raw);
    var explanation :=
      if raw.explanation.Some? && Trim(raw.explanation.value) != "" then Trim(raw.explanation.value)
      else explainSources(raw);
    NormalPick(
      playerName, TeamNameOf(raw, playerName), OrText(raw.market, InferMarket(raw.desc)),
      Explicit(raw.line, NonZero(raw.lineValue, 0.0)),
      OddsOf(raw),
      raw.confidence,
      raw.playingToday == Value(true),
      Explicit(raw.hits, NonZero(raw.hitsCount, 0)),
      Explicit(raw.games, NonZero(raw.gameCount, 0)),
      explanation,
      OrText(raw.confidenceColor, Some(ColorFromConfidence(raw.confidence))).value,
      OrText(raw.risk, Some(RiskFromConfidence(raw.confidence))).value,
      raw)
  }

  datatype Meta = Meta(generatedAt: Option<string>)

  datatype RawParlay = RawParlay(
    id: Option<string>,
    timestamp: Option<string>,
    createdAt: Option<string>,
    meta: Option<Meta>,
    picks: Option<seq<RawPick>>)

  datatype NormalParlay = NormalParlay(id: string, timestamp: string, meta: Meta, picks: seq<NormalPick>)

  function NormalizePicks(raws: seq<RawPick>, explainSources: RawPick -> string): (r: seq<NormalPick>)
    ensures |r| == |raws|
    ensures forall i :: 0 <= i < |r| ==> r[i] == NormalizePick(raws[i], explainSources)
    decreases |raws|
  {
    if |raws| == 0 then [] else [NormalizePick(raws[0], explainSources)] + NormalizePicks(raws[1..], explainSources)
  }

  /** `normalizeParlay`, with the clock given as `nowMillis` (for the
      generated id) and `nowIso` (for the timestamp). Picks map one to one,
      in order, and each keeps its raw input. */
  function NormalizeParlay(raw: RawParlay, nowMillis: int, nowIso: string, explainSources: RawPick -> string): (p: NormalParlay)
    ensures |p.picks| == |raw.picks.GetOr([])|
    ensures forall i :: 0 <= i < |p.picks| ==> p.picks[i].raw == raw.picks.value[i]
    ensures forall i :: 0 <= i < |p.picks| ==> p.picks[i] == NormalizePick(raw.picks.value[i], explainSources)
    ensures raw.id.Some? && raw.id.value != "" ==> p.id == raw.id.value
    ensures var generatedAt := if raw.meta.Some? then raw.meta.value.generatedAt else None;
      && (!Given(raw.id) && Given(generatedAt) ==> p.id == generatedAt.value)
      && (!Given(raw.id) && !Given(generatedAt) ==> p.id == "parlay_" + IntToString(nowMillis))
    ensures var generatedAt := if raw.meta.Some? then raw.meta.value.generatedAt else None;
      && (Given(raw.timestamp) ==> p.timestamp == raw.timestamp.value)
      && (!Given(raw.timestamp) && Given(raw.createdAt) ==> p.timestamp == raw.createdAt.value)
      && (!Given(raw.timestamp) && !Given(raw.createdAt) && Given(generatedAt) ==> p.timestamp == generatedAt.value)
      && (!Given(raw.timestamp) && !Given(raw.createdAt) && !Given(generatedAt) ==> p.timestamp == nowIso)
    ensures p.id != ""
    ensures raw.meta.Some? ==> p.meta == raw.meta.value
    ensures raw.meta.None? ==> p.meta == Meta(None)
  {
    var meta := raw.meta.GetOr(Meta(None));
    var generatedAt := if raw.meta.Some? then raw.meta.value.generatedAt else None;
    var id := OrText(OrText(raw.id, generatedAt), Some("parlay_" + IntToString(nowMillis))).value;
    var timestamp := OrText(OrText(OrText(raw.timestamp, raw.createdAt), generatedAt), Some(nowIso)).value;
    NormalParlay(id, timestamp, meta, NormalizePicks(raw.picks.GetOr([]), explainSources))
  }
}

=== FILE: odds_api.dfy ===
/** `OddsAPI` of `src/data/ingestion/OddsAPI.js`: flattening the events
    response into player props, and the missing-key guard. */
module OddsApi {
  import opened Wrappers
  import opened JsString

  datatype Outcome = Outcome(description: string, point: Option<real>, price: Option<int>)

  /** A market; `key` and `outcomes` may be missing. */
  datatype Market = Market(key: Option<string>, outcomes: Option<seq<Outcome>>)

  datatype Bookmaker = Bookmaker(title: string, markets: Option<seq<Market>>)

  datatype Game = Game(
    homeTeam: string, awayTeam: string, commenceTime: string,
    bookmakers: Option<seq<Bookmaker>>)

  datatype Prop = Prop(
    playerName: string, market: string, line: Option<real>, odds: Option<int>,
    game: string, gameTime: string, bookmaker: string)

  /** `"{home} vs {away}"`. */
  function GameTitle(g: Game): string {
    g.homeTeam + " vs " + g.awayTeam
  }

  /** `(market.key || '').replace('player_', '')`. */
  function MarketName(m: Market): string {
    ReplaceFirst(m.key.GetOr(""), "player_", "")
  }

  function Outcomes(m: Market): seq<Outcome> {
    m.outcomes.GetOr([])
  }

  /** The props of one market: one per outcome, in order. */
  function MarketProps(g: Game, b: Bookmaker, m: Market): (r: seq<Prop>)
    ensures |r| == |Outcomes(m)|
    ensures forall i :: 0 <= i < |r| ==>
      && r[i].playerName == Outcomes(m)[i].description
      && r[i].line == Outcomes(m)[i].point
      && r[i].odds == Outcomes(m)[i].price
      && r[i].market == MarketName(m)
      && r[i].game == GameTitle(g)
      && r[i].bookmaker == b.title
  {
    var outs := Outcomes(m);
    seq(|outs|, i requires 0 <= i < |outs| =>
      Prop(outs[i].description, MarketName(m), outs[i].point, outs[i].price,
           GameTitle(g), g.commenceTime, b.title))
  }

  /** The number of outcomes over a list of markets. */
  function OutcomeCount(ms: seq<Market>): nat
    decreases |ms|
  {
    if |ms| == 0 then 0 else OutcomeCount(ms[..|ms| - 1]) + |Outcomes(ms[|ms| - 1])|
  }

  /** The props of a bookmaker's markets, market by market. */
  function MarketsProps(g: Game, b: Bookmaker, ms: seq<Market>): (r: seq<Prop>)
    ensures |r| == OutcomeCount(ms)
    ensures forall i :: 0 <= i < |r| ==> r[i].game == GameTitle(g) && r[i].bookmaker == b.title
    decreases |ms|
  {
    if |ms| == 0 then []
    else MarketsProps(g, b, ms[..|ms| - 1]) + MarketProps(g, b, ms[|ms| - 1])
  }

  /** Market by market, in order: the props of market `j` sit between the
      outcome counts of the markets before it and of those up to it. */
  lemma MarketsPropsInOrder(g: Game, b: Bookmaker, ms: seq<Market>)
    ensures var r := MarketsProps(g, b, ms);
      forall j :: 0 <= j < |ms| ==>
        var lo, hi := OutcomeCount(ms[..j]), OutcomeCount(ms[..j + 1]);
        lo <= hi <= |r| && r[lo..hi] == MarketProps(g, b, ms[j])
  {
    forall j | 0 <= j < |ms|
      ensures var r, lo, hi := MarketsProps(g, b, ms), OutcomeCount(ms[..j]), OutcomeCount(ms[..j + 1]);
        lo <= hi <= |r| && r[lo..hi] == MarketProps(g, b, ms[j])
    {
      MarketPropsAt(g, b, ms, j);
    }
  }

  /** One market of the above. */
  lemma {:induction false} MarketPropsAt(g: Game, b: Bookmaker, ms: seq<Market>, j: int)
    requires 0 <= j < |ms|
    ensures var r, lo, hi := MarketsProps(g, b, ms), OutcomeCount(ms[..j]), OutcomeCount(ms[..j + 1]);
      lo <= hi <= |r| && r[lo..hi] == MarketProps(g, b, ms[j])
    decreases |ms|
  {
    var init := ms[..|ms| - 1];
    var front, back := MarketsProps(g, b, init), MarketProps(g, b, ms[|ms| - 1]);
    assert MarketsProps(g, b, ms) == front + back;
    if j < |ms| - 1 {
      MarketPropsAt(g, b, init, j);
      PrefixesOfInit(ms, j);
      SliceOfFront(front, back, OutcomeCount(init[..j]), OutcomeCount(init[..j + 1]));
    } else {
      PrefixesAtLast(ms);
      SliceOfBack(front, back);
    }
  }

  lemma PrefixesOfInit<T>(s: seq<T>, i: int)
    requires 0 <= i < |s| - 1
    ensures s[..i] == s[..|s| - 1][..i] && s[..i + 1] == s[..|s| - 1][..i + 1]
  {
  }

  lemma PrefixesAtLast<T>(s: seq<T>)
    ensures s[..|s|] == s
  {
  }

  lemma SliceOfFront<T>(a: seq<T>, b: seq<T>, lo: int, hi: int)
    requires 0 <= lo <= hi <= |a|
    ensures (a + b)[lo..hi] == a[lo..hi]
  {
  }

  lemma SliceOfBack<T>(a: seq<T>, b: seq<T>)
    ensures (a + b)[|a|..|a| + |b|] == b
  {
  }

  /** The bookmaker whose markets are read: the first, if there is one. */
  function FirstBookmaker(g: Game): Option<Bookmaker> {
    match g.bookmakers
    case Some(bs) => if |bs| > 0 then Some(bs[0]) else None
    case None => None
  }

  /** How many props a game contributes: the outcomes of its first
      bookmaker's markets, or none. */
  function GamePropCount(g: Game): nat {
    match FirstBookmaker(g)
    case None => 0
    case Some(b) => OutcomeCount(b.markets.GetOr([]))
  }

  /** One game's props: nothing without bookmakers, else the first
      bookmaker's. */
  function GameProps(g: Game): (r: seq<Prop>)
    ensures |r| == GamePropCount(g)
    ensures FirstBookmaker(g).None? ==> r == []
    ensures forall i :: 0 <= i < |r| ==>
      r[i].game == GameTitle(g) && r[i].bookmaker == FirstBookmaker(g).value.title
    ensures FirstBookmaker(g).Some? ==>
      var b := FirstBookmaker(g).value;
      r == MarketsProps(g, b, b.markets.GetOr([]))
  {
    match FirstBookmaker(g)
    case None => []
    case Some(b) => MarketsProps(g, b, b.markets.GetOr([]))
  }

  function TotalPropCount(games: seq<Game>): nat
    decreases |games|
  {
    if |games| == 0 then 0 else TotalPropCount(games[..|games| - 1]) + GamePropCount(games[|games| - 1])
  }

  function AllGameProps(games: seq<Game>): (r: seq<Prop>)
    ensures |r| == TotalPropCount(games)
    decreases |games|
  {
    if |games| == 0 then [] else AllGameProps(games[..|games| - 1]) + GameProps(games[|games| - 1])
  }

  /** Game by game, in order: the props of game `i` sit between the prop
      counts of the games before it and of those up to it. */
  lemma AllGamePropsInOrder(games: seq<Game>)
    ensures var r := AllGameProps(games);
      forall i :: 0 <= i < |games| ==>
        var lo, hi := TotalPropCount(games[..i]), TotalPropCount(games[..i + 1]);
        lo <= hi <= |r| && r[lo..hi] == GameProps(games[i])
  {
    forall i | 0 <= i < |games|
      ensures var r, lo, hi := AllGameProps(games), TotalPropCount(games[..i]), TotalPropCount(games[..i + 1]);
        lo <= hi <= |r| && r[lo..hi] == GameProps(games[i])
    {
      GamePropsAt(games, i);
    }
  }

  /** One game of the above. */
  lemma {:induction false} GamePropsAt(games: seq<Game>, i: int)
    requires 0 <= i < |games|
    ensures var r, lo, hi := AllGameProps(games), TotalPropCount(games[..i]), TotalPropCount(games[..i + 1]);
      lo <= hi <= |r| && r[lo..hi] == GameProps(games[i])
    decreases |games|
  {
    var init := games[..|games| - 1];
    var front, back := AllGameProps(init), GameProps(games[|games| - 1]);
    assert AllGameProps(games) == front + back;
    if i < |games| - 1 {
      GamePropsAt(init, i);
      PrefixesOfInit(games, i);
      SliceOfFront(front, back, TotalPropCount(init[..i]), TotalPropCount(init[..i + 1]));
    } else {
      PrefixesAtLast(games);
      SliceOfBack(front, back);
    }
  }

  /** `parsePlayerProps`: `None` stands for a response that is not an array,
      which gives no props. Otherwise the props come game by game, each game
      contributing its first bookmaker's props market by market, one per
      outcome (`GameProps`, `MarketProps`). */
  function ParsePlayerProps(data: Option<seq<Game>>): (r: seq<Prop>)
    ensures data.None? ==> r == []
    ensures data.Some? ==> |r| == TotalPropCount(data.value)
    ensures data.Some? ==> forall i :: 0 <= i < |data.value| ==>
      var lo, hi := TotalPropCount(data.value[..i]), TotalPropCount(data.value[..i + 1]);
      lo <= hi <= |r| && r[lo..hi] == GameProps(data.value[i])
  {
    match data
    case None => []
    case Some(games) =>
      AllGamePropsInOrder(games);
      AllGameProps(games)
  }

  /** Props come game by game, in input order: appending a game appends
      its props. */
  lemma ParsePlayerPropsAppend(games: seq<Game>, g: Game)
    ensures ParsePlayerProps(Some(games + [g])) == ParsePlayerProps(Some(games)) + GameProps(g)
  {
    assert (games + [g])[..|games|] == games;
  }

  /** A game whose bookmaker list is missing or empty adds nothing. */
  lemma GameWithoutBookmakersAddsNothing(games: seq<Game>, g: Game)
    requires g.bookmakers.None? || g.bookmakers == Some([])
    ensures ParsePlayerProps(Some(games + [g])) == ParsePlayerProps(Some(games))
  {
    ParsePlayerPropsAppend(games, g);
  }

  /** Only the first bookmaker counts: the others may be anything. */
  lemma OnlyFirstBookmakerCounts(g: Game, b: Bookmaker, others1: seq<Bookmaker>, others2: seq<Bookmaker>)
    ensures GameProps(g.(bookmakers := Some([b] + others1)))
         == GameProps(g.(bookmakers := Some([b] + others2)))
  {
    var g1 := g.(bookmakers := Some([b] + others1));
    var g2 := g.(bookmakers := Some([b] + others2));
    assert FirstBookmaker(g1) == Some(b) == FirstBookmaker(g2);
    assert GameTitle(g1) == GameTitle(g2);
    assert GameProps(g1) == MarketsProps(g1, b, b.markets.GetOr([]));
    assert GameProps(g2) == MarketsProps(g2, b, b.markets.GetOr([]));
    MarketsPropsIgnoresBookmakers(g1, g2, b, b.markets.GetOr([]));
  }

  /** A game's props depend on its teams and start time, not on the rest of
      its bookmaker list. */
  lemma {:induction false} MarketsPropsIgnoresBookmakers(g1: Game, g2: Game, b: Bookmaker, ms: seq<Market>)
    requires g1.homeTeam == g2.homeTeam && g1.awayTeam == g2.awayTeam
    requires g1.commenceTime == g2.commenceTime
    ensures MarketsProps(g1, b, ms) == MarketsProps(g2, b, ms)
    decreases |ms|
  {
    if |ms| > 0 {
      MarketsPropsIgnoresBookmakers(g1, g2, b, ms[..|ms| - 1]);
      assert MarketProps(g1, b, ms[|ms| - 1]) == MarketProps(g2, b, ms[|ms| - 1]);
    }
  }

  /** The market key loses its "player_" prefix. */
  lemma PlayerPrefixRemoved()
    ensures ReplaceFirst("player_points", "player_", "") == "points"
  {
    assert HasPrefix("player_points", "player_");
    assert IndexOf("player_points", "player_") == 0;
  }

  /** What `getPlayerProps` hands back, and whether it made a request. */
  datatype FetchResult = FetchResult(props: Option<seq<Prop>>, requested: bool)

  /** The response of the events request: a failure (thrown error) or the
      body's data. */
  datatype Response = RequestFailed | Received(data: Option<seq<Game>>)

  /** `getPlayerProps`: with no API key (missing or empty), `null` without
      a request; otherwise the parsed props, or `null` when the request
      fails. */
  function GetPlayerProps(apiKey: Option<string>, response: Response): (r: FetchResult)
    ensures r.requested <==> apiKey.Some? && apiKey.value != ""
    ensures !r.requested ==> r.props.None?
    ensures r.requested && response.Received? ==> r.props == Some(ParsePlayerProps(response.data))
    ensures response.RequestFailed? ==> r.props.None?
  {
    if apiKey.None? || apiKey.value == "" then FetchResult(None, false)
    else match response
      case RequestFailed => FetchResult(None, true)
      case Received(data) => FetchResult(Some(ParsePlayerProps(data)), true)
  }
}

=== FILE: parlay_command.dfy ===
/** The `/parlay` slash command (`src/commands/parlay.js`): argument
    normalisation, the candidate fetcher with its built-in default list,
    classification and mode selection, the result records, and the
    embed-field renderer `formatPickDisplay`. */
module ParlayCommand {
  import opened Wrappers
  import opened Js
  import opened JsString
  import opened PickClassifier
  import opened ParlaySelection

  /** `Number(legs) || 4`: a missing or zero leg count becomes 4; any other
      integer, negative ones included, is used as the `slice` end. */
  function NormalizeLegs(legs: Option<int>): (r: int)
    ensures r != 0
    ensures legs.Some? && legs.value != 0 ==> r == legs.value
    ensures legs.None? || legs.value == 0 ==> r == 4
  {
    match legs
    case Some(n) => if n != 0 then n else 4
    case None => 4
  }

  /** A window other than 5, 10 or 15 becomes 10. */
  function NormalizeWindow(window: Option<int>): (r: int)
    ensures ValidWindow(r)
    ensures window.Some? && ValidWindow(window.value) ==> r == window.value
    ensures window.None? || !ValidWindow(window.value) ==> r == 10
  {
    match window
    case Some(w) => if ValidWindow(w) then w else 10
    case None => 10
  }

  /** `String(mode || 'normal').toLowerCase()`, then an unknown mode becomes
      `normal`: the command always runs in a mode the classifier knows. */
  function NormalizeMode(mode: Option<string>): (r: string)
    ensures KnownMode(r)
    ensures mode.Some? && KnownMode(ToLower(mode.value)) ==> r == ToLower(mode.value)
    ensures mode.None? || !KnownMode(ToLower(mode.value)) ==> r == "normal"
  {
    var m := match mode case Some(s) => if s == "" then "normal" else ToLower(s) case None => "normal";
    if KnownMode(m) then m else "normal"
  }

  /** `defaultFetchCandidatePicks(win)`: four fixed candidates, each carrying
      the requested window. */
  function DefaultCandidates(win: int): (r: seq<Candidate>)
    ensures |r| == 4
    ensures forall i :: 0 <= i < |r| ==> r[i].window == Some(win)
    ensures forall i :: 0 <= i < |r| ==> r[i].playerName.None? && r[i].teamName.None?
  {
    [ Candidate("p1", "Player A Over 28.5 Points", 9, 10, Some(win), NumberOdds(Finite(-120.0)), None, None),
      Candidate("p2", "Player B 3PT Over 3.5", 3, 5, Some(win), TextOdds("+125"), None, None),
      Candidate("p3", "Team X Over 114.5", 10, 15, Some(win), NumberOdds(Finite(-110.0)), None, None),
      Candidate("p4", "Player C Rebounds Over 6.5", 3, 5, Some(win), NumberOdds(Finite(-105.0)), None, None) ]
  }

  /** The candidates the command works on: the caller's fetcher when one is
      given, the default list otherwise. A fetcher answer that is not an
      array (`None`) counts as no candidates. */
  function Fetched(fetcher: Option<int -> Option<seq<Candidate>>>, win: int): (r: seq<Candidate>)
    ensures fetcher.None? ==> r == DefaultCandidates(win)
    ensures fetcher.Some? && fetcher.value(win).None? ==> r == []
  {
    match fetcher
    case None => DefaultCandidates(win)
    case Some(f) => f(win).GetOr([])
  }

  /** One result record. `summary` is the record's `label` field, the text
      `"{hits}/{games} games hit"`. */
  datatype ParlayLeg = ParlayLeg(
    id: string,
    playerName: Option<string>,
    teamName: Option<string>,
    pick: string,
    hits: int,
    games: int,
    hitRate: string,
    odds: Odds,
    summary: string,
    reason: string,
    confidence: int)

  /** `s || null` on an optional string: the empty string counts as missing. */
  function NonEmptyText(s: Option<string>): (r: Option<string>)
    ensures r.Some? <==> s.Some? && s.value != ""
    ensures r.Some? ==> r == s
  {
    if s.Some? && s.value != "" then s else None
  }

  /** The record built from a candidate and its classification. */
  function ToLeg(c: Candidate, cls: Classification): (l: ParlayLeg)
    ensures l.id == c.id && l.pick == c.desc && l.odds == c.odds
    ensures l.hits == c.hits && l.games == c.games
    ensures l.playerName == NonEmptyText(c.playerName) && l.teamName == NonEmptyText(c.teamName)
    ensures l.reason == cls.reason && l.confidence == cls.confidence
  {
    var hitRate := IntToString(c.hits) + " / " + IntToString(c.games);
    var summary := IntToString(c.hits) + "/" + IntToString(c.games) + " games hit";
    ParlayLeg(c.id, NonEmptyText(c.playerName), NonEmptyText(c.teamName), c.desc, c.hits, c.games,
              hitRate, c.odds, summary, cls.reason, cls.confidence)
  }

  /** Both texts of a record read back, through `parseInt`, the candidate's
      hit count, and after their separator its game count. */
  lemma LegTextsReadBack(c: Candidate, cls: Classification)
    ensures var l, k := ToLeg(c, cls), |IntToString(c.hits)|;
      && ParseIntPrefix(l.hitRate) == Some(c.hits)
      && k + 3 <= |l.hitRate| && l.hitRate[k..k + 3] == " / "
      && ParseIntPrefix(l.hitRate[k + 3..]) == Some(c.games)
      && ParseIntPrefix(l.summary) == Some(c.hits)
      && k < |l.summary| && l.summary[k] == '/'
      && ParseIntPrefix(l.summary[k + 1..]) == Some(c.games)
  {
    SpacedRatioReadsBack(c.hits, c.games);
    RatioReadsBack(c.hits, c.games, " games hit", "");
    var x, y := IntToString(c.hits), IntToString(c.games);
    assert x + "/" + y + " games hit" + "" == x + "/" + y + " games hit";
  }

  function ToLegs(chosen: seq<Classified>): (r: seq<ParlayLeg>)
    ensures |r| == |chosen|
    ensures forall i :: 0 <= i < |r| ==> r[i] == ToLeg(chosen[i].candidate, chosen[i].cls)
    decreases |chosen|
  {
    if |chosen| == 0 then []
    else [ToLeg(chosen[0].candidate, chosen[0].cls)] + ToLegs(chosen[1..])
  }

  /** The record `l` is built from one of `cands` and that candidate's own
      classification under window `w` and mode `m`, which is never REJECT, is
      SAFE in safe mode and is MOONSHOT only in moonshot mode. */
  ghost predicate LegFrom(l: ParlayLeg, cands: seq<Candidate>, w: int, m: string) {
    exists c :: c in cands && (
      var cls := ClassifyPick(InputOf(c, w), m);
      && l == ToLeg(c, cls)
      && cls.tier != REJECT
      && (m == "safe" ==> cls.tier == SAFE)
      && (m != "moonshot" ==> cls.tier != MOONSHOT))
  }

  /** The records of a selection all satisfy `LegFrom`. */
  lemma ChosenLegsFromCandidates(cands: seq<Candidate>, w: int, m: string, n: int)
    ensures var r := ToLegs(Choose(cands, w, m, n));
      forall i :: 0 <= i < |r| ==> LegFrom(r[i], cands, w, m)
  {
    var chosen := Choose(cands, w, m, n);
    var r := ToLegs(chosen);
    forall i | 0 <= i < |r|
      ensures LegFrom(r[i], cands, w, m)
    {
      var c := chosen[i].candidate;
      assert c in cands && r[i] == ToLeg(c, chosen[i].cls);
    }
  }

  /** `handleParlayCommand` without the Discord reply: the records of the
      first `legs` fetched candidates in the mode's preference order (all of
      them when there are fewer), none for an empty fetch, and every record
      built from a fetched candidate as `LegFrom` describes, under the
      normalised window and mode. */
  function HandleParlayCommand(legs: Option<int>, mode: Option<string>, window: Option<int>,
                               fetcher: Option<int -> Option<seq<Candidate>>>): (r: seq<ParlayLeg>)
    ensures var w := NormalizeWindow(window);
      var order := Preference(Fetched(fetcher, w), w, NormalizeMode(mode));
      && |r| <= |order|
      && (0 <= NormalizeLegs(legs) ==> |r| == Min(NormalizeLegs(legs), |order|))
      && forall i :: 0 <= i < |r| ==> r[i] == ToLeg(order[i].candidate, order[i].cls)
    ensures 0 < NormalizeLegs(legs) ==> |r| <= NormalizeLegs(legs)
    ensures Fetched(fetcher, NormalizeWindow(window)) == [] ==> r == []
    ensures forall i :: 0 <= i < |r| ==>
      LegFrom(r[i], Fetched(fetcher, NormalizeWindow(window)), NormalizeWindow(window), NormalizeMode(mode))
  {
    var w, m, n := NormalizeWindow(window), NormalizeMode(mode), NormalizeLegs(legs);
    var cands := Fetched(fetcher, w);
    ChosenLegs(cands, w, m, n);
    ToLegs(Choose(cands, w, m, n))
  }

  /** The records of a selection, for any candidates, window, mode and count:
      the first `n` of the preference order, each built as `LegFrom` says. */
  lemma ChosenLegs(cands: seq<Candidate>, w: int, m: string, n: int)
    ensures var r, order := ToLegs(Choose(cands, w, m, n)), Preference(cands, w, m);
      && |r| <= |order|
      && (0 <= n ==> |r| == Min(n, |order|))
      && (forall i :: 0 <= i < |r| ==> r[i] == ToLeg(order[i].candidate, order[i].cls))
      && (0 < n ==> |r| <= n)
      && (cands == [] ==> r == [])
      && forall i :: 0 <= i < |r| ==> LegFrom(r[i], cands, w, m)
  {
    ChosenLegsFromCandidates(cands, w, m, n);
    if cands == [] {
      assert ClassifyAll(cands, w, m) == [];
    }
  }

  /** A larger leg count only appends records: the shorter answer is a
      prefix of the longer one. */
  lemma MoreLegsAppend(mode: Option<string>, window: Option<int>,
                       fetcher: Option<int -> Option<seq<Candidate>>>, a: int, b: int)
    requires 0 < a <= b
    ensures HandleParlayCommand(Some(a), mode, window, fetcher) <= HandleParlayCommand(Some(b), mode, window, fetcher)
  {
    var w, m := NormalizeWindow(window), NormalizeMode(mode);
    var cands := Fetched(fetcher, w);
    if cands != [] {
      assert NormalizeLegs(Some(a)) == a && NormalizeLegs(Some(b)) == b;
      ChooseMoreLegs(cands, w, m, a, b);
      ToLegsKeepsPrefix(Choose(cands, w, m, a), Choose(cands, w, m, b));
    }
  }

  lemma ToLegsKeepsPrefix(short: seq<Classified>, long: seq<Classified>)
    requires short <= long
    ensures ToLegs(short) <= ToLegs(long)
  {
    var ls, ll := ToLegs(short), ToLegs(long);
    assert forall i :: 0 <= i < |ls| ==> ls[i] == ll[i];
  }

  /** The mode is case-insensitive. */
  lemma ModeIsCaseInsensitive()
    ensures NormalizeMode(Some("SAFE")) == "safe"
    ensures NormalizeMode(Some("Moonshot")) == "moonshot"
  {
    LowerOfSafe();
    LowerOfMoonshot();
  }

  lemma LowerOfSafe() ensures ToLower("SAFE") == "safe" {
    ToLowerCharwise("SAFE", "safe");
  }

  lemma LowerOfMoonshot() ensures ToLower("Moonshot") == "moonshot" {
    ToLowerCharwise("Moonshot", "moonshot");
  }

  /** A known lower-case mode is kept as given. */
  lemma KnownModeIsKept(mode: string)
    requires KnownMode(mode)
    ensures NormalizeMode(Some(mode)) == mode
  {
    assert ToLower(mode) == mode by {
      if mode == "safe" {
        ToLowerWithoutCapitals("safe");
      } else if mode == "normal" {
        ToLowerWithoutCapitals("normal");
      } else {
        ToLowerWithoutCapitals("moonshot");
      }
    }
  }

  /** An empty or unknown mode means `normal`. */
  lemma UnknownModeIsNormal()
    ensures NormalizeMode(Some("yolo")) == "normal"
    ensures NormalizeMode(Some("")) == "normal"
  {
    ToLowerWithoutCapitals("yolo");
  }

  /** A pick as `formatPickDisplay` sees it; every field may be absent. */
  datatype DisplayPick = DisplayPick(
    playerName: Option<string>,
    teamName: Option<string>,
    rawDesc: Option<string>,
    market: Option<string>,
    line: Option<real>,
    confidence: Option<real>,
    hits: Option<int>,
    games: Option<int>,
    explanation: Option<string>)

  datatype EmbedField = EmbedField(name: string, value: string)

  /** `playerName || teamName || _raw.desc || 'Unknown'`: the first non-empty
      name, never the empty string. */
  function TitleEntity(p: DisplayPick): (r: string)
    ensures r != ""
    ensures p.playerName.Some? && p.playerName.value != "" ==> r == p.playerName.value
    ensures NonEmptyText(p.playerName).None? && NonEmptyText(p.teamName).Some? ==> r == p.teamName.value
    ensures NonEmptyText(p.playerName).None? && NonEmptyText(p.teamName).None? && NonEmptyText(p.rawDesc).Some? ==>
      r == p.rawDesc.value
    ensures NonEmptyText(p.playerName).None? && NonEmptyText(p.teamName).None? && NonEmptyText(p.rawDesc).None? ==>
      r == "Unknown"
  {
    if NonEmptyText(p.playerName).Some? then p.playerName.value
    else if NonEmptyText(p.teamName).Some? then p.teamName.value
    else if NonEmptyText(p.rawDesc).Some? then p.rawDesc.value
    else "Unknown"
  }

  /** `Math.round(confidence) + '%'`, or `N/A` when there is no confidence. */
  function ConfidenceText(confidence: Option<real>): (r: string)
    ensures confidence.None? <==> r == "N/A"
    ensures confidence.Some? ==> 0 < |r| && r[|r| - 1] == '%'
  {
    match confidence
    case Some(c) =>
      var t := IntToString(Round(c)) + "%";
      assert t[|t| - 1] == '%' != "N/A"[2];
      t
    case None => "N/A"
  }

  /** A confidence text reads back, through `parseInt`, the rounded confidence. */
  lemma ConfidenceTextReadsBack(c: real)
    ensures ParseIntPrefix(ConfidenceText(Some(c))) == Some(Round(c))
  {
    ParseIntPrefixOfIntToString(Round(c), "%");
  }

  /** The embed field's name: the title entity, then ` — MARKET` for a
      non-empty market and ` {line}` for a present line. `render` is
      JavaScript's number-to-string conversion. */
  function DisplayTitle(p: DisplayPick, render: real -> string): (r: string)
    ensures StartsWith(r, TitleEntity(p))
    ensures NonEmptyText(p.market).None? && p.line.None? ==> r == TitleEntity(p)
    ensures NonEmptyText(p.market).Some? ==>
      var k, m := |TitleEntity(p)|, " \U{2014} " + ToUpper(p.market.value);
      k + |m| <= |r| && r[k..k + |m|] == m
    ensures p.line.Some? ==> var t := " " + render(p.line.value);
      |t| <= |r| && r[|r| - |t|..] == t
    ensures |r| == |TitleEntity(p)|
      + (if NonEmptyText(p.market).Some? then 3 + |p.market.value| else 0)
      + (if p.line.Some? then 1 + |render(p.line.value)| else 0)
  {
    var entity := TitleEntity(p);
    var market := MarketPart(p);
    var line := match p.line case Some(x) => " " + render(x) case None => "";
    var r := entity + market + line;
    assert r[..|entity|] == entity;
    assert r[|entity|..|entity| + |market|] == market;
    assert r[|r| - |line|..] == line;
    r
  }

  /** ` — MARKET` (an em dash, then the market in upper case) for a
      non-empty market, else nothing. */
  function MarketPart(p: DisplayPick): string {
    if NonEmptyText(p.market).Some? then " \U{2014} " + ToUpper(p.market.value) else ""
  }

  /** `hits / games` when both are present, else the confidence text: the
      hits read back through `parseInt`, then ` / `, then the games. */
  function HitRateText(p: DisplayPick): (r: string)
    ensures p.hits.Some? && p.games.Some? ==> ParseIntPrefix(r) == Some(p.hits.value)
    ensures p.hits.Some? && p.games.Some? ==> var k := |IntToString(p.hits.value)|;
      && k + 3 <= |r| && r[k..k + 3] == " / "
      && ParseIntPrefix(r[k + 3..]) == Some(p.games.value)
    ensures (p.hits.None? || p.games.None?) ==> r == ConfidenceText(p.confidence)
  {
    if p.hits.Some? && p.games.Some? then
      SpacedRatioReadsBack(p.hits.value, p.games.value);
      IntToString(p.hits.value) + " / " + IntToString(p.games.value)
    else ConfidenceText(p.confidence)
  }

  /** The embed field's value: the confidence line, the hit-rate line, and the
      explanation after a blank line when there is one. */
  function DisplayBody(p: DisplayPick): (r: string)
    ensures StartsWith(r, "Confidence: " + ConfidenceText(p.confidence) + "\nHit Rate: " + HitRateText(p))
    ensures NonEmptyText(p.explanation).None? ==>
      r == "Confidence: " + ConfidenceText(p.confidence) + "\nHit Rate: " + HitRateText(p)
    ensures NonEmptyText(p.explanation).Some? ==>
      |p.explanation.value| <= |r| && r[|r| - |p.explanation.value|..] == p.explanation.value
  {
    var head := "Confidence: " + ConfidenceText(p.confidence) + "\nHit Rate: " + HitRateText(p);
    var explanation := if NonEmptyText(p.explanation).Some? then "\n\n" + p.explanation.value else "";
    assert (head + explanation)[..|head|] == head;
    head + explanation
  }

  /** `formatPickDisplay`: the title as the field's name and the body as its
      value. */
  function FormatPickDisplay(p: DisplayPick, render: real -> string): (r: EmbedField)
    ensures r.name == DisplayTitle(p, render) && r.value == DisplayBody(p)
    ensures StartsWith(r.name, TitleEntity(p))
    ensures StartsWith(r.value, "Confidence: " + ConfidenceText(p.confidence))
  {
    var body := DisplayBody(p);
    var head := "Confidence: " + ConfidenceText(p.confidence);
    StartsWithShorter(body, head + "\nHit Rate: ", HitRateText(p));
    StartsWithShorter(body, head, "\nHit Rate: ");
    EmbedField(DisplayTitle(p, render), body)
  }
}

=== FILE: parlay_integration.dfy ===
/** `buildParlayFromCandidates` (`src/commands/parlay-integration-example.js`):
    the same classify-and-select rule as the slash command, with the window
    taken from the first candidate, the mode passed to the classifier as
    given, and an explanation attached to every selected pick. */
module ParlayIntegration {
  import opened Wrappers
  import opened Js
  import opened JsString
  import opened PickClassifier
  import opened ParlaySelection
  import ParlayCommand

  /** One selected pick; `tier` is the record's `label` field, which here is
      the classification label itself. */
  datatype IntegrationLeg = IntegrationLeg(
    pick: string,
    hits: int,
    games: int,
    hitRate: string,
    odds: Odds,
    tier: Label,
    reason: string,
    confidence: int,
    aiExplanation: string)

  /** `candidates[0].window || 10`, and 10 for no candidates. */
  function BuilderWindow(cands: seq<Candidate>): (w: int)
    ensures w != 0
    ensures |cands| > 0 ==> w == EffectiveWindow(cands[0], 10)
  {
    if |cands| > 0 then EffectiveWindow(cands[0], 10) else 10
  }

  /** The explainer is an outside service: `explain(desc, input, cls)` is
      whatever text it (or its failure handler) returns for the pick. */
  function ToIntegrationLeg(x: Classified, w: int, explain: (string, PickInput, Classification) -> string): (l: IntegrationLeg)
    ensures l.pick == x.candidate.desc && l.hits == x.candidate.hits && l.games == x.candidate.games
    ensures l.odds == x.candidate.odds
    ensures l.tier == x.cls.tier && l.reason == x.cls.reason && l.confidence == x.cls.confidence
    ensures l.aiExplanation == explain(x.candidate.desc, InputOf(x.candidate, w), x.cls)
  {
    var c := x.candidate;
    IntegrationLeg(c.desc, c.hits, c.games, IntToString(c.hits) + " / " + IntToString(c.games), c.odds,
                   x.cls.tier, x.cls.reason, x.cls.confidence, explain(c.desc, InputOf(c, w), x.cls))
  }

  /** The leg's hit rate `{hits} / {games}` reads back: the hits through
      `parseInt`, then ` / `, then the games. */
  lemma IntegrationHitRateReadsBack(x: Classified, w: int, explain: (string, PickInput, Classification) -> string)
    ensures var l, k := ToIntegrationLeg(x, w, explain), |IntToString(x.candidate.hits)|;
      && ParseIntPrefix(l.hitRate) == Some(x.candidate.hits)
      && k + 3 <= |l.hitRate| && l.hitRate[k..k + 3] == " / "
      && ParseIntPrefix(l.hitRate[k + 3..]) == Some(x.candidate.games)
  {
    SpacedRatioReadsBack(x.candidate.hits, x.candidate.games);
  }

  function ToIntegrationLegs(chosen: seq<Classified>, w: int, explain: (string, PickInput, Classification) -> string): (r: seq<IntegrationLeg>)
    ensures |r| == |chosen|
    ensures forall i :: 0 <= i < |r| ==> r[i] == ToIntegrationLeg(chosen[i], w, explain)
    decreases |chosen|
  {
    if |chosen| == 0 then []
    else [ToIntegrationLeg(chosen[0], w, explain)] + ToIntegrationLegs(chosen[1..], w, explain)
  }

  /** `buildParlayFromCandidates`, with `legs` and `mode` defaulting to 4 and
      `normal`: the picks built from the first `legs` candidates of the
      mode's preference order (all of them when there are fewer); each label is never REJECT, is SAFE in
      safe mode, and is MOONSHOT only in moonshot mode; a mode the classifier
      does not know (upper case included) selects nothing. */
  function BuildParlayFromCandidates(cands: seq<Candidate>, legs: Option<int>, mode: Option<string>,
                                     explain: (string, PickInput, Classification) -> string): (r: seq<IntegrationLeg>)
    ensures var w, order := BuilderWindow(cands), Preference(cands, BuilderWindow(cands), mode.GetOr("normal"));
      && |r| <= |order|
      && (0 <= legs.GetOr(4) ==> |r| == Min(legs.GetOr(4), |order|))
      && forall i :: 0 <= i < |r| ==> r[i] == ToIntegrationLeg(order[i], w, explain)
    ensures 0 <= legs.GetOr(4) ==> |r| <= legs.GetOr(4)
    ensures forall i :: 0 <= i < |r| ==> r[i].tier != REJECT
    ensures mode.GetOr("normal") == "safe" ==> forall i :: 0 <= i < |r| ==> r[i].tier == SAFE
    ensures mode.GetOr("normal") != "moonshot" ==> forall i :: 0 <= i < |r| ==> r[i].tier != MOONSHOT
    ensures !KnownMode(mode.GetOr("normal")) ==> r == []
  {
    var w := BuilderWindow(cands);
    ToIntegrationLegs(Choose(cands, w, mode.GetOr("normal"), legs.GetOr(4)), w, explain)
  }

  /** The slash command and the builder pick the same candidates, in the same
      order, with the same reasons and confidences, when every candidate
      carries its own window and the mode is already lower case and known. */
  lemma CommandAgreesWithBuilder(cands: seq<Candidate>, legs: int, mode: string, window: Option<int>,
                                 explain: (string, PickInput, Classification) -> string)
    requires legs != 0 && KnownMode(mode) && cands != []
    requires forall i :: 0 <= i < |cands| ==> cands[i].window.Some? && cands[i].window.value != 0
    ensures var cmd := ParlayCommand.HandleParlayCommand(Some(legs), Some(mode), window, Some((w: int) => Some(cands)));
      var built := BuildParlayFromCandidates(cands, Some(legs), Some(mode), explain);
      && |cmd| == |built|
      && forall i :: 0 <= i < |cmd| ==>
        && cmd[i].pick == built[i].pick
        && cmd[i].hits == built[i].hits && cmd[i].games == built[i].games
        && cmd[i].reason == built[i].reason && cmd[i].confidence == built[i].confidence
  {
    var w1 := ParlayCommand.NormalizeWindow(window);
    var w2 := BuilderWindow(cands);
    ParlayCommand.KnownModeIsKept(mode);
    OwnWindowsIgnoreFallback(cands, w1, w2, mode, legs);
  }
}

=== FILE: parlay_selection.dfy ===
/** The selection rule shared by `handleParlayCommand` (`src/commands/parlay.js`)
    and `buildParlayFromCandidates` (`src/commands/parlay-integration-example.js`):
    filter the classified candidates by label in a mode-specific order, then
    keep the first `legs`. */
module ParlaySelection {
  import opened Wrappers
  import opened Js
  import opened SeqUtil
  import opened PickClassifier

  /** The candidates in selection order before truncation: SAFE only in safe
      mode; MOONSHOT then SAFE/NORMAL in moonshot mode; SAFE then NORMAL in
      normal and any other mode. Each group keeps the input order. */
  function ModeOrder<T>(items: seq<T>, tierOf: T -> Label, mode: string): seq<T> {
    if mode == "safe" then Filter(items, x => tierOf(x) == SAFE)
    else if mode == "moonshot" then
      Filter(items, x => tierOf(x) == MOONSHOT) + Filter(items, x => tierOf(x) == NORMAL || tierOf(x) == SAFE)
    else Filter(items, x => tierOf(x) == SAFE) + Filter(items, x => tierOf(x) == NORMAL)
  }

  /** The labels a mode selects: SAFE in safe mode, every label but REJECT
      in moonshot mode, SAFE and NORMAL otherwise. */
  predicate Admits(mode: string, tier: Label) {
    if mode == "safe" then tier == SAFE
    else if mode == "moonshot" then tier != REJECT
    else tier == SAFE || tier == NORMAL
  }

  /** `.slice(0, legs)` of the mode order: its first `legs` candidates, or
      all of them when there are fewer. */
  function SelectByMode<T>(items: seq<T>, tierOf: T -> Label, mode: string, legs: int): (r: seq<T>)
    ensures |r| <= |ModeOrder(items, tierOf, mode)|
    ensures 0 <= legs ==> |r| == Min(legs, |ModeOrder(items, tierOf, mode)|)
    ensures r == ModeOrder(items, tierOf, mode)[..|r|]
    ensures forall i :: 0 <= i < |r| ==> r[i] in items
    ensures forall i :: 0 <= i < |r| ==> tierOf(r[i]) != REJECT
    ensures mode == "safe" ==> forall i :: 0 <= i < |r| ==> tierOf(r[i]) == SAFE
    ensures mode != "moonshot" ==> forall i :: 0 <= i < |r| ==> tierOf(r[i]) != MOONSHOT
  {
    var order := ModeOrder(items, tierOf, mode);
    ModeOrderLabels(items, tierOf, mode);
    var r := SlicePrefix(order, legs);
    assert forall i :: 0 <= i < |r| ==> r[i] == order[i];
    r
  }

  /** The mode order holds exactly the input's candidates whose label the
      mode admits: each of its members comes from the input, is never REJECT,
      is SAFE in safe mode and is MOONSHOT only in moonshot mode; and every
      admitted candidate is in it. */
  lemma ModeOrderLabels<T>(items: seq<T>, tierOf: T -> Label, mode: string)
    ensures var order := ModeOrder(items, tierOf, mode);
      forall i :: 0 <= i < |order| ==> order[i] in items && Admits(mode, tierOf(order[i]))
    ensures var order := ModeOrder(items, tierOf, mode);
      forall j :: 0 <= j < |items| && Admits(mode, tierOf(items[j])) ==> items[j] in order
    ensures var order := ModeOrder(items, tierOf, mode);
      forall i :: 0 <= i < |order| ==> order[i] in items && tierOf(order[i]) != REJECT
    ensures var order := ModeOrder(items, tierOf, mode);
      mode == "safe" ==> forall i :: 0 <= i < |order| ==> tierOf(order[i]) == SAFE
    ensures var order := ModeOrder(items, tierOf, mode);
      mode != "moonshot" ==> forall i :: 0 <= i < |order| ==> tierOf(order[i]) != MOONSHOT
  {
    ModeOrderAdmits(items, tierOf, mode);
  }

  /** The first two facts above, one mode at a time. */
  lemma ModeOrderAdmits<T>(items: seq<T>, tierOf: T -> Label, mode: string)
    ensures var order := ModeOrder(items, tierOf, mode);
      && (forall i :: 0 <= i < |order| ==> order[i] in items && Admits(mode, tierOf(order[i])))
      && (forall j :: 0 <= j < |items| && Admits(mode, tierOf(items[j])) ==> items[j] in order)
  {
    if mode == "safe" {
      FilterMembers(items, x => tierOf(x) == SAFE);
    } else if mode == "moonshot" {
      MoonshotOrderAdmits(items, tierOf);
    } else {
      OtherOrderAdmits(items, tierOf, mode);
    }
  }

  /** Moonshot mode: MOONSHOT first, then NORMAL or SAFE; only REJECT is left out. */
  lemma MoonshotOrderAdmits<T>(items: seq<T>, tierOf: T -> Label)
    ensures var order := ModeOrder(items, tierOf, "moonshot");
      && (forall i :: 0 <= i < |order| ==> order[i] in items && tierOf(order[i]) != REJECT)
      && (forall j :: 0 <= j < |items| && tierOf(items[j]) != REJECT ==> items[j] in order)
  {
    var p, q := x => tierOf(x) == MOONSHOT, x => tierOf(x) == NORMAL || tierOf(x) == SAFE;
    ConcatFilters(items, p, q);
    var order := Filter(items, p) + Filter(items, q);
    assert ModeOrder(items, tierOf, "moonshot") == order;
    forall j | 0 <= j < |items| && tierOf(items[j]) != REJECT
      ensures p(items[j]) || q(items[j])
    {
      var t := tierOf(items[j]);
      assert t == MOONSHOT || t == NORMAL || t == SAFE;
    }
  }

  /** Any other mode: SAFE first, then NORMAL. */
  lemma OtherOrderAdmits<T>(items: seq<T>, tierOf: T -> Label, mode: string)
    requires mode != "safe" && mode != "moonshot"
    ensures var order := ModeOrder(items, tierOf, mode);
      && (forall i :: 0 <= i < |order| ==> order[i] in items && (tierOf(order[i]) == SAFE || tierOf(order[i]) == NORMAL))
      && (forall j :: 0 <= j < |items| && (tierOf(items[j]) == SAFE || tierOf(items[j]) == NORMAL) ==> items[j] in order)
  {
    var p, q := x => tierOf(x) == SAFE, x => tierOf(x) == NORMAL;
    ConcatFilters(items, p, q);
    assert ModeOrder(items, tierOf, mode) == Filter(items, p) + Filter(items, q);
  }

  /** Two filter groups one after the other hold exactly the input's
      elements that pass either test. */
  lemma ConcatFilters<T>(items: seq<T>, p: T -> bool, q: T -> bool)
    ensures var o := Filter(items, p) + Filter(items, q);
      && (forall i :: 0 <= i < |o| ==> o[i] in items && (p(o[i]) || q(o[i])))
      && (forall j :: 0 <= j < |items| && (p(items[j]) || q(items[j])) ==> items[j] in o)
  {
    FilterMembers(items, p);
    FilterMembers(items, q);
    ConcatIndex(Filter(items, p), Filter(items, q));
  }

  lemma ConcatIndex<T>(a: seq<T>, b: seq<T>)
    ensures forall i :: 0 <= i < |a| + |b| ==> (a + b)[i] == if i < |a| then a[i] else b[i - |a|]
  {
  }

  /** The selection is the first `legs` candidates of the mode order (all
      of them when there are fewer), so it keeps the input order within each
      group; a negative count drops that many from the end, as `slice` does. */
  lemma SelectionIsPrefixOfOrder<T>(items: seq<T>, tierOf: T -> Label, mode: string, legs: int)
    ensures var order := ModeOrder(items, tierOf, mode);
      0 <= legs ==> SelectByMode(items, tierOf, mode, legs) == order[..Min(legs, |order|)]
    ensures var order := ModeOrder(items, tierOf, mode);
      legs < 0 ==> SelectByMode(items, tierOf, mode, legs) == order[..if |order| + legs < 0 then 0 else |order| + legs]
  {
  }

  /** In safe mode the SAFE candidates are taken in input order. */
  lemma SafeModeKeepsInputOrder<T>(items: seq<T>, tierOf: T -> Label, legs: int)
    ensures var r := SelectByMode(items, tierOf, "safe", legs);
      IsSubsequence(r, items)
  {
    var safe := Filter(items, x => tierOf(x) == SAFE);
    FilterIsSubsequence(items, x => tierOf(x) == SAFE);
    var r := SelectByMode(items, tierOf, "safe", legs);
    assert r == safe[..|r|];
    PrefixOfSubsequence(safe, items, |r|);
  }

  /** A prefix of a subsequence is a subsequence. */
  lemma {:induction false} PrefixOfSubsequence<T>(a: seq<T>, b: seq<T>, n: nat)
    requires IsSubsequence(a, b) && n <= |a|
    ensures IsSubsequence(a[..n], b)
    decreases |b|
  {
    if n > 0 {
      if a[0] == b[0] && IsSubsequence(a[1..], b[1..]) {
        PrefixOfSubsequence(a[1..], b[1..], n - 1);
        assert a[..n][1..] == a[1..][..n - 1];
      } else {
        PrefixOfSubsequence(a, b[1..], n);
      }
    }
  }

  /** Outside safe and moonshot mode every SAFE pick precedes every NORMAL one. */
  lemma SafeBeforeNormal<T>(items: seq<T>, tierOf: T -> Label, mode: string, legs: int)
    requires mode != "safe" && mode != "moonshot"
    ensures var r := SelectByMode(items, tierOf, mode, legs);
      forall i, j :: 0 <= i < j < |r| && tierOf(r[j]) == SAFE ==> tierOf(r[i]) == SAFE
  {
    var safe := Filter(items, x => tierOf(x) == SAFE);
    var normal := Filter(items, x => tierOf(x) == NORMAL);
    var order := safe + normal;
    assert forall k :: |safe| <= k < |order| ==> tierOf(order[k]) == NORMAL;
    assert forall k :: 0 <= k < |safe| ==> tierOf(order[k]) == SAFE;
  }

  /** In moonshot mode every MOONSHOT pick precedes every SAFE or NORMAL one. */
  lemma MoonshotFirst<T>(items: seq<T>, tierOf: T -> Label, legs: int)
    ensures var r := SelectByMode(items, tierOf, "moonshot", legs);
      forall i, j :: 0 <= i < j < |r| && tierOf(r[j]) == MOONSHOT ==> tierOf(r[i]) == MOONSHOT
  {
    var moon := Filter(items, x => tierOf(x) == MOONSHOT);
    var rest := Filter(items, x => tierOf(x) == NORMAL || tierOf(x) == SAFE);
    var order := moon + rest;
    assert forall k :: |moon| <= k < |order| ==> tierOf(order[k]) != MOONSHOT;
  }

  /** With at least `legs` SAFE candidates, normal mode picks only SAFE ones. */
  lemma EnoughSafeFillsNormal<T>(items: seq<T>, tierOf: T -> Label, mode: string, legs: int)
    requires mode != "safe" && mode != "moonshot" && 0 <= legs
    requires legs <= |Filter(items, x => tierOf(x) == SAFE)|
    ensures forall i :: 0 <= i < |SelectByMode(items, tierOf, mode, legs)| ==>
      tierOf(SelectByMode(items, tierOf, mode, legs)[i]) == SAFE
  {
    var safe := Filter(items, x => tierOf(x) == SAFE);
    var order := ModeOrder(items, tierOf, mode);
    assert forall k :: 0 <= k < |safe| ==> tierOf(order[k]) == SAFE;
  }

  /** Candidates all labelled REJECT give an empty selection. */
  lemma AllRejectedSelectsNothing<T>(items: seq<T>, tierOf: T -> Label, mode: string, legs: int)
    requires forall i :: 0 <= i < |items| ==> tierOf(items[i]) == REJECT
    ensures SelectByMode(items, tierOf, mode, legs) == []
  {
    FilterNone(items, x => tierOf(x) == SAFE);
    FilterNone(items, x => tierOf(x) == NORMAL);
    FilterNone(items, x => tierOf(x) == MOONSHOT);
    FilterNone(items, x => tierOf(x) == NORMAL || tierOf(x) == SAFE);
  }

  /** A `slice(0, legs)` with more legs only extends the selection. */
  lemma MoreLegsExtend<T>(items: seq<T>, tierOf: T -> Label, mode: string, a: int, b: int)
    requires 0 <= a <= b
    ensures SelectByMode(items, tierOf, mode, a) <= SelectByMode(items, tierOf, mode, b)
  {
  }

  /** A candidate pick as handed to the parlay builders; a missing or zero
      `window` defers to the builder's window. */
  datatype Candidate = Candidate(
    id: string,
    desc: string,
    hits: int,
    games: int,
    window: Option<int>,
    odds: Odds,
    playerName: Option<string>,
    teamName: Option<string>)

  /** `p.window || fallback`. */
  function EffectiveWindow(c: Candidate, fallback: int): (w: int)
    ensures w != 0 || fallback == 0
    ensures c.window.Some? && c.window.value != 0 ==> w == c.window.value
    ensures c.window.None? || c.window.value == 0 ==> w == fallback
  {
    match c.window
    case Some(v) => if v != 0 then v else fallback
    case None => fallback
  }

  function InputOf(c: Candidate, fallback: int): PickInput {
    PickInput(c.hits, c.games, EffectiveWindow(c, fallback), c.odds)
  }

  /** A candidate together with its classification (`{ ...p, classification }`). */
  datatype Classified = Classified(candidate: Candidate, cls: Classification)

  function TierOf(x: Classified): Label {
    x.cls.tier
  }

  /** `candidates.map(...)` attaching each candidate's classification. */
  function ClassifyAll(cands: seq<Candidate>, fallback: int, mode: string): (r: seq<Classified>)
    ensures |r| == |cands|
    ensures forall i :: 0 <= i < |r| ==>
      r[i].candidate == cands[i] && r[i].cls == ClassifyPick(InputOf(cands[i], fallback), mode)
    decreases |cands|
  {
    if |cands| == 0 then []
    else
      var head := Classified(cands[0], ClassifyPick(InputOf(cands[0], fallback), mode));
      [head] + ClassifyAll(cands[1..], fallback, mode)
  }

  /** The classified candidates in the order the mode prefers them, before
      the cut to `legs`. */
  function Preference(cands: seq<Candidate>, fallback: int, mode: string): seq<Classified> {
    ModeOrder(ClassifyAll(cands, fallback, mode), TierOf, mode)
  }

  /** Classify, then select by mode: the first `legs` entries of the
      preference order; every chosen entry is one of the candidates with its
      own classification, and none is rejected. */
  function Choose(cands: seq<Candidate>, fallback: int, mode: string, legs: int): (r: seq<Classified>)
    ensures |r| <= |Preference(cands, fallback, mode)|
    ensures 0 <= legs ==> |r| == Min(legs, |Preference(cands, fallback, mode)|)
    ensures r == Preference(cands, fallback, mode)[..|r|]
    ensures forall i :: 0 <= i < |r| ==>
      r[i].candidate in cands && r[i].cls == ClassifyPick(InputOf(r[i].candidate, fallback), mode)
    ensures forall i :: 0 <= i < |r| ==> r[i].cls.tier != REJECT
    ensures mode == "safe" ==> forall i :: 0 <= i < |r| ==> r[i].cls.tier == SAFE
    ensures mode != "moonshot" ==> forall i :: 0 <= i < |r| ==> r[i].cls.tier != MOONSHOT
    ensures !KnownMode(mode) ==> r == []
  {
    ChosenLabels(cands, fallback, mode, legs);
    ChosenUnderUnknownMode(cands, fallback, mode, legs);
    SelectByMode(ClassifyAll(cands, fallback, mode), TierOf, mode, legs)
  }

  /** The labels of a selection from the classified candidates. */
  lemma ChosenLabels(cands: seq<Candidate>, fallback: int, mode: string, legs: int)
    ensures var r := SelectByMode(ClassifyAll(cands, fallback, mode), TierOf, mode, legs);
      && (forall i :: 0 <= i < |r| ==>
            r[i].candidate in cands && r[i].cls == ClassifyPick(InputOf(r[i].candidate, fallback), mode))
      && (forall i :: 0 <= i < |r| ==> r[i].cls.tier != REJECT)
      && (mode == "safe" ==> forall i :: 0 <= i < |r| ==> r[i].cls.tier == SAFE)
      && (mode != "moonshot" ==> forall i :: 0 <= i < |r| ==> r[i].cls.tier != MOONSHOT)
  {
    var r := SelectByMode(ClassifyAll(cands, fallback, mode), TierOf, mode, legs);
    assert forall i :: 0 <= i < |r| ==> TierOf(r[i]) != REJECT;
    ClassifiedMembers(cands, fallback, mode, r);
  }

  /** A mode the classifier does not know selects nothing. */
  lemma ChosenUnderUnknownMode(cands: seq<Candidate>, fallback: int, mode: string, legs: int)
    ensures !KnownMode(mode) ==> SelectByMode(ClassifyAll(cands, fallback, mode), TierOf, mode, legs) == []
  {
    if !KnownMode(mode) {
      UnknownModeRejectsAll(cands, fallback, mode);
      AllRejectedSelectsNothing(ClassifyAll(cands, fallback, mode), TierOf, mode, legs);
    }
  }

  /** Every member of the classified list is a candidate with its own
      classification. */
  lemma ClassifiedMembers(cands: seq<Candidate>, fallback: int, mode: string, r: seq<Classified>)
    requires forall i :: 0 <= i < |r| ==> r[i] in ClassifyAll(cands, fallback, mode)
    ensures forall i :: 0 <= i < |r| ==>
      r[i].candidate in cands && r[i].cls == ClassifyPick(InputOf(r[i].candidate, fallback), mode)
  {
    var classified := ClassifyAll(cands, fallback, mode);
    forall i | 0 <= i < |r|
      ensures r[i].candidate in cands && r[i].cls == ClassifyPick(InputOf(r[i].candidate, fallback), mode)
    {
      var k :| 0 <= k < |classified| && classified[k] == r[i];
      assert r[i].candidate == cands[k];
    }
  }

  /** Asking for more legs only appends candidates to the choice. */
  lemma ChooseMoreLegs(cands: seq<Candidate>, fallback: int, mode: string, a: int, b: int)
    requires 0 <= a <= b
    ensures Choose(cands, fallback, mode, a) <= Choose(cands, fallback, mode, b)
  {
    MoreLegsExtend(ClassifyAll(cands, fallback, mode), TierOf, mode, a, b);
  }

  /** Under a mode the classifier does not know, every candidate is REJECT. */
  lemma UnknownModeRejectsAll(cands: seq<Candidate>, fallback: int, mode: string)
    requires !KnownMode(mode)
    ensures forall i :: 0 <= i < |cands| ==> TierOf(ClassifyAll(cands, fallback, mode)[i]) == REJECT
  {
    forall i | 0 <= i < |cands|
      ensures TierOf(ClassifyAll(cands, fallback, mode)[i]) == REJECT
    {
      UnknownModeRejectsEverything(InputOf(cands[i], fallback), mode);
    }
  }

  /** When every candidate carries its own non-zero window, the builder's
      window does not matter. */
  lemma OwnWindowsIgnoreFallback(cands: seq<Candidate>, w1: int, w2: int, mode: string, legs: int)
    requires forall i :: 0 <= i < |cands| ==> cands[i].window.Some? && cands[i].window.value != 0
    ensures Choose(cands, w1, mode, legs) == Choose(cands, w2, mode, legs)
  {
    assert ClassifyAll(cands, w1, mode) == ClassifyAll(cands, w2, mode);
  }
}

=== FILE: pick_classifier.dfy ===
/** The rule-table pick classifier of `src/lib/pickClassifier.js`: a hit
    count over a 5, 10 or 15 game window is classified as REJECT, SAFE,
    NORMAL or MOONSHOT according to the requested mode. */
module PickClassifier {
  import opened Wrappers
  import opened Js
  import opened JsString

  datatype Label = REJECT | SAFE | NORMAL | MOONSHOT

  /** The classifier's result; `tier` is the source's `label` field and
      `confidence` an integer percentage. */
  datatype Classification = Classification(tier: Label, reason: string, confidence: int)

  /** The `odds` of a pick: absent (`null`/`undefined`), a number, or a
      string such as "+125". */
  datatype Odds = NoOdds | NumberOdds(n: Number) | TextOdds(text: string)

  /** The `{ hits, games, window, odds }` argument, after its defaults. */
  datatype PickInput = PickInput(hits: int, games: int, window: int, odds: Odds)

  /** An inclusive hit-count range `[lo, hi]`. */
  datatype Range = Range(lo: int, hi: int) {
    predicate Holds(hits: int) {
      lo <= hits <= hi
    }
  }

  /** `GLOBAL_BAD`: hit counts rejected in every mode. */
  function GlobalBad(window: int): Option<Range> {
    if window == 5 then Some(Range(1, 2))
    else if window == 10 then Some(Range(1, 5))
    else if window == 15 then Some(Range(1, 6))
    else None
  }

  /** `SAFE_THRESH`. */
  function SafeThresh(window: int): Option<Range> {
    if window == 5 then Some(Range(4, 5))
    else if window == 10 then Some(Range(8, 10))
    else if window == 15 then Some(Range(13, 15))
    else None
  }

  /** `NORMAL_THRESH`. */
  function NormalThresh(window: int): Option<Range> {
    if window == 5 then Some(Range(3, 5))
    else if window == 10 then Some(Range(6, 10))
    else if window == 15 then Some(Range(8, 15))
    else None
  }

  /** `MOONSHOT_MIN`. */
  function MoonshotMin(window: int): Option<int> {
    if window == 5 then Some(3)
    else if window == 10 then Some(6)
    else if window == 15 then Some(8)
    else None
  }

  predicate ValidWindow(window: int) {
    window == 5 || window == 10 || window == 15
  }

  predicate KnownMode(mode: string) {
    mode == "safe" || mode == "normal" || mode == "moonshot"
  }

  /** The string with one leading `+` removed. */
  function StripPlus(s: string): string {
    if StartsWith(s, "+") then s[1..] else s
  }

  /** `toNumberOdds`: numbers are taken as they are; strings are trimmed,
      lose one leading `+` and are read as decimal numbers; anything that is
      not a finite number gives `None` (the source's `null`). */
  function ToNumberOdds(odds: Odds): (r: Option<Number>)
    ensures odds.NoOdds? ==> r.None?
    ensures odds.NumberOdds? ==> r == Some(odds.n)
    ensures odds.TextOdds? && r.Some? ==> r.value.Finite?
  {
    match odds
    case NoOdds => None
    case NumberOdds(n) => Some(n)
    case TextOdds(text) =>
      match ParseDecimal(StripPlus(Trim(text)))
      case Some(v) => Some(Finite(v as real))
      case None => None
  }

  lemma PlusDigitsHasNoWhitespace(n: nat)
    ensures NoWhitespace("+" + IntToString(n))
  {
    var s := "+" + IntToString(n);
    forall i | 0 <= i < |s| ensures !IsWhitespace(s[i]) {
      if i > 0 {
        assert s[i] == IntToString(n)[i - 1];
      }
    }
  }

  lemma StripPlusOfIntToString(n: int)
    ensures StripPlus(IntToString(n)) == IntToString(n)
  {
    var s := IntToString(n);
    if n >= 0 {
      assert s == NatToString(n);
      assert IsDigit(s[0]);
    }
  }

  /** Odds written as "+N" or "N" read back as the number N. */
  lemma {:induction false} TextOddsRoundTrip(n: int)
    ensures 0 <= n ==> ToNumberOdds(TextOdds("+" + IntToString(n))) == Some(Finite(n as real))
    ensures ToNumberOdds(TextOdds(IntToString(n))) == Some(Finite(n as real))
  {
    var digits := IntToString(n);
    TrimOfNoWhitespace(digits);
    StripPlusOfIntToString(n);
    ParseDecimalOfIntToString(n);
    if 0 <= n {
      var s := "+" + digits;
      PlusDigitsHasNoWhitespace(n);
      TrimOfNoWhitespace(s);
      assert StripPlus(s) == digits;
    }
  }

  /** `isGlobalBad`: the hit count lies in the window's global-bad range
      (`games` does not matter). */
  predicate IsGlobalBad(hits: int, games: int, window: int) {
    GlobalBad(window).Some? && GlobalBad(window).value.Holds(hits)
  }

  /** `inRange`: the hit count lies in the window's range of `table`. */
  predicate InRange(hits: int, window: int, table: int -> Option<Range>) {
    table(window).Some? && table(window).value.Holds(hits)
  }

  /** `moonshotEligible`. */
  predicate MoonshotEligible(hits: int, games: int, window: int, odds: Odds) {
    && !IsGlobalBad(hits, games, window)
    && hits >= MoonshotMin(window).GetOr(0)
    && ToNumberOdds(odds).Some?
    && ToNumberOdds(odds).value.AtLeast(100.0)
  }

  /** In a valid window the moonshot minimum lies above the global-bad
      range, so the global-bad test never decides eligibility: a pick is
      eligible exactly when it has the minimum of hits and odds that read as
      a number of at least +100. */
  lemma MoonshotMinClearsGlobalBad(hits: int, games: int, window: int, odds: Odds)
    requires ValidWindow(window)
    ensures hits >= MoonshotMin(window).value ==> !IsGlobalBad(hits, games, window)
    ensures MoonshotEligible(hits, games, window, odds) <==>
      hits >= MoonshotMin(window).value && ToNumberOdds(odds).Some? && ToNumberOdds(odds).value.AtLeast(100.0)
  {
  }

  /** Eligibility survives more hits and longer numeric odds, in any window. */
  lemma MoonshotEligibleMonotone(h1: int, h2: int, games: int, window: int, v1: real, v2: real)
    requires h1 <= h2 && v1 <= v2
    ensures MoonshotEligible(h1, games, window, NumberOdds(Finite(v1))) ==>
      MoonshotEligible(h2, games, window, NumberOdds(Finite(v2)))
  {
    if MoonshotEligible(h1, games, window, NumberOdds(Finite(v1))) && ValidWindow(window) {
      MoonshotMinClearsGlobalBad(h2, games, window, NumberOdds(Finite(v2)));
    }
  }

  /** The score before clamping: hit rate in percent, 5 points more for a
      sample of 15 or more games, 5 points less for 5 or fewer. */
  function RawConfidence(hits: int, games: int): real
    requires games > 0
  {
    var base := (hits as real / games as real) * 100.0;
    if games >= 15 then base + 5.0
    else if games <= 5 then base - 5.0
    else base
  }

  /** `computeConfidence`: 0 without games, otherwise the raw score clamped
      to [0, 100] and rounded to the nearest integer. */
  function ComputeConfidence(hits: int, games: int): (r: int)
    ensures 0 <= r <= 100
    ensures games <= 0 ==> r == 0
    ensures games > 0 ==>
      r as real - 0.5 <= Clamp(RawConfidence(hits, games), 0.0, 100.0) < r as real + 0.5
  {
    if games <= 0 then 0
    else Round(Clamp(RawConfidence(hits, games), 0.0, 100.0))
  }

  lemma RoundMonotone(x: real, y: real)
    requires x <= y
    ensures Round(x) <= Round(y)
  {
  }

  /** More hits over the same games never lower the confidence. */
  lemma ComputeConfidenceMonotone(h1: int, h2: int, games: int)
    requires h1 <= h2
    ensures ComputeConfidence(h1, games) <= ComputeConfidence(h2, games)
  {
    if games > 0 {
      assert h1 as real / games as real <= h2 as real / games as real;
      RoundMonotone(Clamp(RawConfidence(h1, games), 0.0, 100.0), Clamp(RawConfidence(h2, games), 0.0, 100.0));
    }
  }

  const GLOBAL_BAD_REASON: string := "Global bad pick (blocked in all modes)"
  const MOONSHOT_REASON: string := "Eligible for moonshot: recent capability + odds \U{2265} +100"
  const SAFE_REASON: string := "Meets SAFE thresholds for this window"
  const SAFE_MODE_NORMAL_REASON: string := "Below SAFE threshold; within NORMAL range"
  const SAFE_MODE_REJECT_REASON: string := "Below NORMAL threshold \U{2014} rejected in SAFE mode"
  const NORMAL_REASON: string := "Within NORMAL thresholds for this window"
  const NORMAL_REJECT_REASON: string := "Below NORMAL threshold \U{2014} rejected"

  function InvalidWindowReason(window: int): string {
    "Invalid sample window " + IntToString(window) + ". Allowed: 5,10,15."
  }

  function UnknownModeReason(mode: string): string {
    "Unknown mode \"" + mode + "\""
  }

  /** The safe/normal rules, and the verdict for any other mode. */
  function ClassifyInMode(p: PickInput, mode: string, confidence: int): Classification {
    if mode == "safe" then
      if InRange(p.hits, p.window, SafeThresh) then Classification(SAFE, SAFE_REASON, confidence)
      else if InRange(p.hits, p.window, NormalThresh) then Classification(NORMAL, SAFE_MODE_NORMAL_REASON, confidence)
      else Classification(REJECT, SAFE_MODE_REJECT_REASON, confidence)
    else if mode == "normal" then
      if InRange(p.hits, p.window, SafeThresh) then Classification(SAFE, SAFE_REASON, confidence)
      else if InRange(p.hits, p.window, NormalThresh) then Classification(NORMAL, NORMAL_REASON, confidence)
      else Classification(REJECT, NORMAL_REJECT_REASON, confidence)
    else
      Classification(REJECT, UnknownModeReason(mode), confidence)
  }

  /** The mode the safe/normal rules are applied with: an ineligible moonshot
      request is handled once as a normal one. */
  predicate RulesMode(p: PickInput, mode: string, rulesMode: string) {
    || (mode == "safe" && rulesMode == "safe")
    || (mode == "normal" && rulesMode == "normal")
    || (mode == "moonshot" && !MoonshotEligible(p.hits, p.games, p.window, p.odds) && rulesMode == "normal")
  }

  /** `classifyPick`. */
  function ClassifyPick(p: PickInput, mode: string): (r: Classification)
    ensures r.confidence == ComputeConfidence(p.hits, p.games)
    ensures !ValidWindow(p.window) ==>
      r.tier == REJECT && StartsWith(r.reason, "Invalid sample window")
    ensures ValidWindow(p.window) && IsGlobalBad(p.hits, p.games, p.window) ==>
      r.tier == REJECT && r.reason == GLOBAL_BAD_REASON
    ensures r.tier == MOONSHOT <==>
      ValidWindow(p.window) && mode == "moonshot" && MoonshotEligible(p.hits, p.games, p.window, p.odds)
    ensures r.tier == SAFE <==>
      && ValidWindow(p.window) && !IsGlobalBad(p.hits, p.games, p.window)
      && (exists m :: RulesMode(p, mode, m))
      && InRange(p.hits, p.window, SafeThresh)
    ensures r.tier == NORMAL <==>
      && ValidWindow(p.window) && !IsGlobalBad(p.hits, p.games, p.window)
      && (exists m :: RulesMode(p, mode, m))
      && !InRange(p.hits, p.window, SafeThresh) && InRange(p.hits, p.window, NormalThresh)
    ensures ValidWindow(p.window) && !IsGlobalBad(p.hits, p.games, p.window) && !KnownMode(mode) ==>
      r == Classification(REJECT, UnknownModeReason(mode), r.confidence)
  {
    var confidence := ComputeConfidence(p.hits, p.games);
    if !ValidWindow(p.window) then
      assert StartsWith(InvalidWindowReason(p.window), "Invalid sample window");
      Classification(REJECT, InvalidWindowReason(p.window), confidence)
    else if IsGlobalBad(p.hits, p.games, p.window) then
      Classification(REJECT, GLOBAL_BAD_REASON, confidence)
    else if mode == "moonshot" then
      if MoonshotEligible(p.hits, p.games, p.window, p.odds) then
        Classification(MOONSHOT, MOONSHOT_REASON, confidence)
      else
        assert RulesMode(p, mode, "normal");
        ClassifyInMode(p, "normal", confidence)
    else
      assert KnownMode(mode) ==> RulesMode(p, mode, mode);
      ClassifyInMode(p, mode, confidence)
  }

  /** The confidence depends only on hits and games, never on the window,
      the odds or the mode. */
  lemma ConfidenceIgnoresModeWindowOdds(p: PickInput, q: PickInput, m1: string, m2: string)
    requires p.hits == q.hits && p.games == q.games
    ensures ClassifyPick(p, m1).confidence == ClassifyPick(q, m2).confidence
  {
  }

  /** A globally bad hit count is rejected whatever the mode, moonshot included. */
  lemma GlobalBadRejectedInEveryMode(p: PickInput, mode: string)
    requires ValidWindow(p.window) && IsGlobalBad(p.hits, p.games, p.window)
    ensures ClassifyPick(p, mode).tier == REJECT
    ensures StartsWith(ClassifyPick(p, mode).reason, "Global bad")
  {
  }

  /** An ineligible moonshot request is classified exactly as a normal one:
      same label, same reason (the fallback note is never reported), same
      confidence. */
  lemma MoonshotFallsBackToNormal(p: PickInput)
    requires !MoonshotEligible(p.hits, p.games, p.window, p.odds)
    ensures ClassifyPick(p, "moonshot") == ClassifyPick(p, "normal")
  {
  }

  /** An eligible moonshot request is MOONSHOT for every valid window. */
  lemma EligibleMoonshotIsMoonshot(p: PickInput)
    requires ValidWindow(p.window) && MoonshotEligible(p.hits, p.games, p.window, p.odds)
    ensures ClassifyPick(p, "moonshot").tier == MOONSHOT
  {
  }

  /** Safe and normal mode agree on the label; only the wording of the
      NORMAL and REJECT reasons differs. */
  lemma SafeAndNormalAgreeOnLabel(p: PickInput)
    ensures ClassifyPick(p, "safe").tier == ClassifyPick(p, "normal").tier
  {
    assert RulesMode(p, "safe", "safe") && RulesMode(p, "normal", "normal");
  }

  /** Every mode other than safe, normal and moonshot rejects every pick. */
  lemma UnknownModeRejectsEverything(p: PickInput, mode: string)
    requires !KnownMode(mode)
    ensures ClassifyPick(p, mode).tier == REJECT
  {
  }

  lemma PlusOddsText(n: nat, text: string)
    requires text == "+" + NatToString(n)
    ensures ToNumberOdds(TextOdds(text)) == Some(Finite(n as real))
  {
    TextOddsRoundTrip(n);
  }

  lemma Digits12() ensures NatToString(12) == "12" {
    assert NatToString(1) == "1";
  }

  lemma Digits125() ensures NatToString(125) == "125" {
    Digits12();
  }

  lemma PlusOneTwentyFive() ensures ToNumberOdds(TextOdds("+125")) == Some(Finite(125.0)) {
    Digits125();
    PlusOddsText(125, "+125");
  }

  lemma Digits80() ensures NatToString(80) == "80" {
    assert NatToString(8) == "8";
  }

  lemma PlusEighty() ensures ToNumberOdds(TextOdds("+80")) == Some(Finite(80.0)) {
    Digits80();
    PlusOddsText(80, "+80");
  }

  /** Test "global bad pick is rejected (2/5)". */
  lemma GlobalBadScenario()
    ensures var r := ClassifyPick(PickInput(2, 5, 5, NumberOdds(Finite(120.0))), "normal");
      r.tier == REJECT && StartsWith(r.reason, "Global bad")
  {
  }

  /** Test "safe pick at 9/10 is SAFE (safe mode)". */
  lemma SafeScenario()
    ensures ClassifyPick(PickInput(9, 10, 10, NumberOdds(Finite(-110.0))), "safe").tier == SAFE
  {
  }

  /** Test "normal mode produces NORMAL for 7/10". */
  lemma NormalScenario()
    ensures ClassifyPick(PickInput(7, 10, 10, NumberOdds(Finite(-110.0))), "normal").tier == NORMAL
  {
  }

  /** Test "moonshot eligible when 3/5 and odds >= +100". */
  lemma MoonshotScenario()
    ensures ClassifyPick(PickInput(3, 5, 5, TextOdds("+125")), "moonshot").tier == MOONSHOT
  {
    PlusOneTwentyFive();
    ThreeOfFiveInMoonshot(PickInput(3, 5, 5, TextOdds("+125")), 125.0);
  }

  /** Test "moonshot rejected when hits below threshold": 2 of 5 at "+180". */
  lemma MoonshotBelowMinimumScenario()
    ensures ClassifyPick(PickInput(2, 5, 5, TextOdds("+180")), "moonshot").tier != MOONSHOT
  {
  }

  /** An ineligible moonshot with hits inside the NORMAL range falls back to
      NORMAL: 3 of 5 at "+80". */
  lemma MoonshotFallbackScenario()
    ensures ClassifyPick(PickInput(3, 5, 5, TextOdds("+80")), "moonshot").tier == NORMAL
  {
    PlusEighty();
    ThreeOfFiveInMoonshot(PickInput(3, 5, 5, TextOdds("+80")), 80.0);
  }

  /** 3 of 5 in moonshot mode: MOONSHOT at odds of +100 or more, NORMAL below. */
  lemma ThreeOfFiveInMoonshot(p: PickInput, v: real)
    requires p.hits == 3 && p.games == 5 && p.window == 5
    requires ToNumberOdds(p.odds) == Some(Finite(v))
    ensures v >= 100.0 ==> ClassifyPick(p, "moonshot").tier == MOONSHOT
    ensures v < 100.0 ==> ClassifyPick(p, "moonshot").tier == NORMAL
  {
    assert ValidWindow(p.window) && !IsGlobalBad(p.hits, p.games, p.window);
    if v >= 100.0 {
      assert MoonshotEligible(p.hits, p.games, p.window, p.odds);
      EligibleMoonshotIsMoonshot(p);
    } else {
      assert !MoonshotEligible(p.hits, p.games, p.window, p.odds);
      MoonshotFallsBackToNormal(p);
      ThreeOfFiveIsNormal(p);
    }
  }

  lemma ThreeOfFiveIsNormal(p: PickInput)
    requires p.hits == 3 && p.games == 5 && p.window == 5
    ensures ClassifyPick(p, "normal").tier == NORMAL
  {
    assert !InRange(p.hits, p.window, SafeThresh) && InRange(p.hits, p.window, NormalThresh);
    assert RulesMode(p, "normal", "normal");
  }
}

=== FILE: player.dfy ===
/** The `Player` model of `src/data/models/Player.js`: a player's recent
    games, most recent first, and the statistics taken over the first
    `window` of them. */
module PlayerModel {
  import opened Wrappers
  import opened Js

  /** One game's stat line: stat name to value. */
  type GameRecord = map<string, real>

  /** `game[stat] || 0`: a missing stat reads as 0. */
  function StatValue(game: GameRecord, stat: string): real {
    if stat in game then game[stat] else 0.0
  }

  /** The constructor argument; `recentGames` may be absent. */
  datatype PlayerData = PlayerData(
    id: string, name: string, team: Option<string>, position: Option<string>,
    recentGames: Option<seq<GameRecord>>)

  datatype Player = Player(
    id: string, name: string, team: Option<string>, position: Option<string>,
    recentGames: seq<GameRecord>)

  /** `new Player(data)`: absent recent games become the empty list. */
  function NewPlayer(data: PlayerData): (p: Player)
    ensures data.recentGames.None? ==> p.recentGames == []
    ensures data.recentGames.Some? ==> p.recentGames == data.recentGames.value
    ensures p.name == data.name && p.team == data.team
  {
    Player(data.id, data.name, data.team, data.position, data.recentGames.GetOr([]))
  }

  /** `recentGames.slice(0, window)`. */
  function Sample(p: Player, window: int): seq<GameRecord> {
    SlicePrefix(p.recentGames, window)
  }

  /** The stat's value in each game, in order. */
  function Values(games: seq<GameRecord>, stat: string): (vs: seq<real>)
    ensures |vs| == |games|
    ensures forall i :: 0 <= i < |games| ==> vs[i] == StatValue(games[i], stat)
  {
    seq(|games|, i requires 0 <= i < |games| => StatValue(games[i], stat))
  }

  /** How many values reach the threshold; a value equal to it counts. */
  function CountAtLeast(vs: seq<real>, threshold: real): (n: nat)
    ensures n <= |vs|
    decreases |vs|
  {
    if |vs| == 0 then 0
    else (if vs[0] >= threshold then 1 else 0) + CountAtLeast(vs[1..], threshold)
  }

  /** The positions whose value reaches the threshold. */
  function HitIndices(vs: seq<real>, threshold: real): set<int> {
    set i | 0 <= i < |vs| && vs[i] >= threshold
  }

  /** One more value adds one hit exactly when it reaches the threshold. */
  lemma {:induction false} CountAtLeastAppend(vs: seq<real>, x: real, threshold: real)
    ensures CountAtLeast(vs + [x], threshold) == CountAtLeast(vs, threshold) + (if x >= threshold then 1 else 0)
    decreases |vs|
  {
    if |vs| > 0 {
      assert (vs + [x])[1..] == vs[1..] + [x];
      CountAtLeastAppend(vs[1..], x, threshold);
    } else {
      assert vs + [x] == [x];
    }
  }

  /** The count is the number of positions that reach the threshold. */
  lemma {:induction false} CountAtLeastIsHitIndices(vs: seq<real>, threshold: real)
    ensures CountAtLeast(vs, threshold) == |HitIndices(vs, threshold)|
    decreases |vs|
  {
    if |vs| == 0 {
      assert HitIndices(vs, threshold) == {};
    } else {
      var a, x := vs[..|vs| - 1], vs[|vs| - 1];
      assert vs == a + [x];
      CountAtLeastIsHitIndices(a, threshold);
      CountAtLeastAppend(a, x, threshold);
      assert |a| !in HitIndices(a, threshold);
      if x >= threshold {
        assert HitIndices(vs, threshold) == HitIndices(a, threshold) + {|a|};
      } else {
        assert HitIndices(vs, threshold) == HitIndices(a, threshold);
      }
    }
  }

  function Sum(vs: seq<real>): real
    decreases |vs|
  {
    if |vs| == 0 then 0.0 else vs[0] + Sum(vs[1..])
  }

  /** `getTrendCount`: the number of games among the first `window` whose
      stat reaches the threshold. */
  function TrendCount(p: Player, stat: string, threshold: real, window: int): (n: nat)
    ensures n == |set i | 0 <= i < |Sample(p, window)| && StatValue(Sample(p, window)[i], stat) >= threshold|
    ensures n <= |Sample(p, window)| <= |p.recentGames|
    ensures 0 <= window ==> n <= window
  {
    var games := Sample(p, window);
    var vs := Values(games, stat);
    CountAtLeastIsHitIndices(vs, threshold);
    assert HitIndices(vs, threshold) == set i | 0 <= i < |games| && StatValue(games[i], stat) >= threshold;
    CountAtLeast(vs, threshold)
  }

  /** `getAverageStat`: 0 for an empty sample, else the mean of the sample,
      the value that times the sample size gives the sum. */
  function AverageStat(p: Player, stat: string, window: int): (avg: real)
    ensures |Sample(p, window)| == 0 ==> avg == 0.0
    ensures |Sample(p, window)| > 0 ==> avg * |Sample(p, window)| as real == Sum(Values(Sample(p, window), stat))
  {
    var vs := Values(Sample(p, window), stat);
    if |vs| == 0 then 0.0 else Sum(vs) / |vs| as real
  }

  lemma SquareNonNegative(d: real)
    ensures d * d >= 0.0
  {
    if d < 0.0 {
      assert d * d == (-d) * (-d);
    }
  }

  function SumSquaredDeviation(vs: seq<real>, mean: real): (r: real)
    ensures r >= 0.0
    decreases |vs|
  {
    if |vs| == 0 then 0.0
    else
      SquareNonNegative(vs[0] - mean);
      (vs[0] - mean) * (vs[0] - mean) + SumSquaredDeviation(vs[1..], mean)
  }

  /** The population variance of a non-empty sample: the mean of the squared
      deviations from the mean. */
  function PopulationVariance(vs: seq<real>): (v: real)
    requires |vs| > 0
    ensures v >= 0.0
  {
    var mean := Sum(vs) / |vs| as real;
    SumSquaredDeviation(vs, mean) / |vs| as real
  }

  /** `getVariance`: 0 for fewer than two sampled games, otherwise the square
      root (the oracle `sqrt`, standing for `Math.sqrt`) of the population
      variance, i.e. a standard deviation. */
  function GetVariance(p: Player, stat: string, window: int, sqrt: real -> real): real {
    var vs := Values(Sample(p, window), stat);
    if |vs| < 2 then 0.0 else sqrt(PopulationVariance(vs))
  }

  /** `sqrt` returns the non-negative square root of every non-negative number. */
  ghost predicate IsSquareRoot(sqrt: real -> real) {
    forall x: real :: x >= 0.0 ==> sqrt(x) >= 0.0 && sqrt(x) * sqrt(x) == x
  }

  /** With a genuine square root, `getVariance` is a standard deviation:
      non-negative, zero below two games, and squaring to the population
      variance otherwise. */
  lemma GetVarianceIsDeviation(p: Player, stat: string, window: int, sqrt: real -> real)
    requires IsSquareRoot(sqrt)
    ensures GetVariance(p, stat, window, sqrt) >= 0.0
    ensures |Sample(p, window)| < 2 ==> GetVariance(p, stat, window, sqrt) == 0.0
    ensures |Sample(p, window)| >= 2 ==>
      var d := GetVariance(p, stat, window, sqrt);
      d * d == PopulationVariance(Values(Sample(p, window), stat))
  {
  }

  /** Lowering the threshold never loses a hit. */
  lemma {:induction false} CountAtLeastAntitone(vs: seq<real>, t1: real, t2: real)
    requires t1 <= t2
    ensures CountAtLeast(vs, t2) <= CountAtLeast(vs, t1)
    decreases |vs|
  {
    if |vs| > 0 {
      CountAtLeastAntitone(vs[1..], t1, t2);
    }
  }

  /** Every value is a hit exactly when the count is the sample size; none
      is exactly when the count is zero. */
  lemma {:induction false} CountAtLeastExtremes(vs: seq<real>, t: real)
    ensures CountAtLeast(vs, t) == |vs| <==> forall i :: 0 <= i < |vs| ==> vs[i] >= t
    ensures CountAtLeast(vs, t) == 0 <==> forall i :: 0 <= i < |vs| ==> vs[i] < t
    decreases |vs|
  {
    if |vs| > 0 {
      CountAtLeastExtremes(vs[1..], t);
      assert forall i :: 1 <= i < |vs| ==> vs[i] == vs[1..][i - 1];
    }
  }

  lemma {:induction false} SumBounds(vs: seq<real>, lo: real, hi: real)
    requires forall i :: 0 <= i < |vs| ==> lo <= vs[i] <= hi
    ensures |vs| as real * lo <= Sum(vs) <= |vs| as real * hi
    decreases |vs|
  {
    if |vs| > 0 {
      SumBounds(vs[1..], lo, hi);
    }
  }

  /** The average lies between any bounds of the sampled values, so between
      their minimum and maximum. */
  lemma AverageWithinBounds(p: Player, stat: string, window: int, lo: real, hi: real)
    requires |Sample(p, window)| > 0
    requires forall i :: 0 <= i < |Sample(p, window)| ==> lo <= StatValue(Sample(p, window)[i], stat) <= hi
    ensures lo <= AverageStat(p, stat, window) <= hi
  {
    var vs := Values(Sample(p, window), stat);
    SumBounds(vs, lo, hi);
    QuotientBounds(Sum(vs), |vs| as real, lo, hi);
  }

  lemma QuotientBounds(s: real, n: real, lo: real, hi: real)
    requires n > 0.0
    requires n * lo <= s <= n * hi
    ensures lo <= s / n <= hi
  {
    var q := s / n;
    assert q * n == s;
    if q < lo {
      assert false;
    }
    if q > hi {
      assert false;
    }
  }

  /** A game without the stat reads as 0, so it is a hit exactly when the
      threshold is at most 0. */
  lemma MissingStatCountsAsZero(game: GameRecord, stat: string, threshold: real)
    requires stat !in game
    ensures CountAtLeast([StatValue(game, stat)], threshold) == (if threshold <= 0.0 then 1 else 0)
  {
  }
}

=== FILE: sequtil.dfy ===
/** `Array.prototype.filter` and the order facts the selection code relies on. */
module SeqUtil {
  import opened Wrappers

  /** The elements of `s` that satisfy `p`, in their original order. */
  function Filter<T>(s: seq<T>, p: T -> bool): (r: seq<T>)
    ensures |r| <= |s|
    ensures forall i :: 0 <= i < |r| ==> p(r[i])
    ensures multiset(r) <= multiset(s)
    ensures forall i :: 0 <= i < |s| && p(s[i]) ==> s[i] in r
    decreases |s|
  {
    if |s| == 0 then []
    else
      assert s == [s[0]] + s[1..];
      (if p(s[0]) then [s[0]] else []) + Filter(s[1..], p)
  }

  /** Every element the filter keeps comes from the input. */
  lemma FilterMembers<T>(s: seq<T>, p: T -> bool)
    ensures forall i :: 0 <= i < |Filter(s, p)| ==> Filter(s, p)[i] in s
  {
    var r := Filter(s, p);
    forall i | 0 <= i < |r|
      ensures r[i] in s
    {
      assert r[i] in multiset(r);
    }
  }

  /** The values `f` gives for the elements of `s`, skipping `None`, in
      input order: a loop that pushes each successful result. */
  function FilterMap<A, B>(s: seq<A>, f: A -> Option<B>): (r: seq<B>)
    ensures |r| <= |s|
    ensures forall i :: 0 <= i < |r| ==> exists j :: 0 <= j < |s| && f(s[j]) == Some(r[i])
    ensures forall j :: 0 <= j < |s| && f(s[j]).Some? ==> f(s[j]).value in r
    ensures |r| == 0 <==> forall j :: 0 <= j < |s| ==> f(s[j]).None?
    decreases |s|
  {
    if |s| == 0 then []
    else
      var rest := FilterMap(s[1..], f);
      assert forall j :: 1 <= j < |s| ==> s[j] == s[1..][j - 1];
      match f(s[0])
      case Some(b) => [b] + rest
      case None => rest
  }

  /** One more element appends its value, if any: the values come in input order. */
  lemma {:induction false} FilterMapAppend<A, B>(s: seq<A>, x: A, f: A -> Option<B>)
    ensures FilterMap(s + [x], f) == FilterMap(s, f) + (if f(x).Some? then [f(x).value] else [])
    decreases |s|
  {
    if |s| > 0 {
      assert (s + [x])[1..] == s[1..] + [x];
      FilterMapAppend(s[1..], x, f);
    } else {
      assert s + [x] == [x];
    }
  }

  /** The lists `f` gives for the elements of `s`, joined in order: each
      value comes from one element's list, and every element's list is in. */
  function FlatMap<A, B>(s: seq<A>, f: A -> seq<B>): (r: seq<B>)
    ensures forall i :: 0 <= i < |r| ==> exists j :: 0 <= j < |s| && r[i] in f(s[j])
    ensures forall j, x :: 0 <= j < |s| && x in f(s[j]) ==> x in r
    ensures |s| > 0 ==> f(s[0]) <= r
    decreases |s|
  {
    if |s| == 0 then []
    else
      var head, rest := f(s[0]), FlatMap(s[1..], f);
      var r := head + rest;
      assert forall j :: 1 <= j < |s| ==> s[j] == s[1..][j - 1];
      assert forall i :: |head| <= i < |r| ==> r[i] == rest[i - |head|];
      r
  }

  /** One more element appends its list. */
  lemma {:induction false} FlatMapAppend<A, B>(s: seq<A>, x: A, f: A -> seq<B>)
    ensures FlatMap(s + [x], f) == FlatMap(s, f) + f(x)
    decreases |s|
  {
    if |s| > 0 {
      assert (s + [x])[1..] == s[1..] + [x];
      FlatMapAppend(s[1..], x, f);
    } else {
      assert s + [x] == [x];
    }
  }

  /** `a` can be obtained from `b` by deleting elements: it keeps `b`'s order. */
  predicate IsSubsequence<T(==)>(a: seq<T>, b: seq<T>)
    decreases |b|
  {
    if |a| == 0 then true
    else if |b| == 0 then false
    else (a[0] == b[0] && IsSubsequence(a[1..], b[1..])) || IsSubsequence(a, b[1..])
  }

  /** Filtering keeps the input order. */
  lemma {:induction false} FilterIsSubsequence<T>(s: seq<T>, p: T -> bool)
    ensures IsSubsequence(Filter(s, p), s)
    decreases |s|
  {
    if |s| > 0 {
      FilterIsSubsequence(s[1..], p);
      var rest := Filter(s[1..], p);
      if p(s[0]) {
        assert Filter(s, p) == [s[0]] + rest;
        assert ([s[0]] + rest)[1..] == rest;
      } else {
        assert Filter(s, p) == rest;
      }
    }
  }

  /** Filtering distributes over concatenation. */
  lemma {:induction false} FilterAppend<T>(a: seq<T>, b: seq<T>, p: T -> bool)
    ensures Filter(a + b, p) == Filter(a, p) + Filter(b, p)
    decreases |a|
  {
    if |a| > 0 {
      assert (a + b)[1..] == a[1..] + b;
      FilterAppend(a[1..], b, p);
    } else {
      assert a + b == b;
    }
  }

  /** An input all of whose elements pass the filter comes back unchanged. */
  lemma {:induction false} FilterAll<T>(s: seq<T>, p: T -> bool)
    requires forall i :: 0 <= i < |s| ==> p(s[i])
    ensures Filter(s, p) == s
    decreases |s|
  {
    if |s| > 0 {
      FilterAll(s[1..], p);
    }
  }

  /** An input none of whose elements passes the filter gives nothing. */
  lemma {:induction false} FilterNone<T>(s: seq<T>, p: T -> bool)
    requires forall i :: 0 <= i < |s| ==> !p(s[i])
    ensures Filter(s, p) == []
    decreases |s|
  {
    if |s| > 0 {
      FilterNone(s[1..], p);
    }
  }
}

=== FILE: sofascore_api.dfy ===
/** The pure parts of `SofaScoreAPI` (`src/data/ingestion/SofaScoreAPI.js`):
    the NBA event filter, the recent-form tally and the player search pick,
    over responses that have already been fetched. */
module SofaScoreApi {
  import opened Wrappers
  import opened Js
  import opened JsString
  import opened SeqUtil

  /** A scheduled event; `tournament?.uniqueTournament?.name` may be absent. */
  datatype Event = Event(id: int, homeTeam: string, awayTeam: string, uniqueTournamentName: Option<string>)

  predicate IsNba(e: Event) {
    e.uniqueTournamentName == Some("NBA")
  }

  /** The NBA events of a schedule, in schedule order. */
  function NbaEvents(events: seq<Event>): (r: seq<Event>)
    ensures forall i :: 0 <= i < |r| ==> IsNba(r[i]) && r[i] in events
    ensures forall i :: 0 <= i < |events| && IsNba(events[i]) ==> events[i] in r
  {
    FilterMembers(events, IsNba);
    Filter(events, IsNba)
  }

  /** The filter keeps the schedule's order and drops only non-NBA events. */
  lemma NbaEventsInOrder(events: seq<Event>)
    ensures IsSubsequence(NbaEvents(events), events)
    ensures (forall i :: 0 <= i < |events| ==> IsNba(events[i])) ==> NbaEvents(events) == events
  {
    FilterIsSubsequence(events, IsNba);
    if forall i :: 0 <= i < |events| ==> IsNba(events[i]) {
      FilterAll(events, IsNba);
    }
  }

  /** `getTodaysNBAGames`: `None` when the request fails. */
  function GetTodaysNbaGames(schedule: Option<seq<Event>>): (r: Option<seq<Event>>)
    ensures r.Some? <==> schedule.Some?
    ensures r.Some? ==> r.value == NbaEvents(schedule.value)
  {
    match schedule
    case None => None
    case Some(events) => Some(NbaEvents(events))
  }

  /** A finished team event: the home team's id and the current scores. */
  datatype TeamEvent = TeamEvent(homeTeamId: int, homeScore: int, awayScore: int)

  /** The team won: as home team by outscoring the away side, otherwise by
      the away score being higher. */
  predicate Won(e: TeamEvent, teamId: int) {
    if e.homeTeamId == teamId then e.homeScore > e.awayScore else e.awayScore > e.homeScore
  }

  function CountWins(games: seq<TeamEvent>, teamId: int): (n: nat)
    ensures n <= |games|
    decreases |games|
  {
    if |games| == 0 then 0
    else CountWins(games[..|games| - 1], teamId) + (if Won(games[|games| - 1], teamId) then 1 else 0)
  }

  datatype TeamForm = TeamForm(recentGames: nat, wins: nat, losses: int, form: string)

  /** `getTeamForm`: the tally over at most the five most recent events;
      `None` when the request fails. */
  function GetTeamForm(teamId: int, events: Option<seq<TeamEvent>>): (r: Option<TeamForm>)
    ensures r.Some? <==> events.Some?
    ensures r.Some? ==> r.value.recentGames == Min(5, |events.value|)
    ensures r.Some? ==> r.value.wins + r.value.losses == r.value.recentGames
    ensures r.Some? ==> 0 <= r.value.losses && r.value.wins <= r.value.recentGames <= 5
    ensures r.Some? ==> r.value.wins == CountWins(SlicePrefix(events.value, 5), teamId)
    ensures r.Some? ==> ParseIntPrefix(r.value.form) == Some(r.value.wins)
    ensures r.Some? ==> var form, k := r.value.form, |IntToString(r.value.wins)|;
      && k + 2 < |form| && form[k..k + 2] == "W-"
      && ParseIntPrefix(form[k + 2..]) == Some(r.value.losses)
      && form[|form| - 1] == 'L'
  {
    match events
    case None => None
    case Some(es) => Some(Tally(teamId, SlicePrefix(es, 5)))
  }

  /** The tally of the considered games, with its `"{wins}W-{losses}L"`
      line: the wins read back with `parseInt`, then "W-", then the losses,
      then a final 'L'. */
  function Tally(teamId: int, recent: seq<TeamEvent>): (f: TeamForm)
    ensures f.recentGames == |recent| && f.wins == CountWins(recent, teamId)
    ensures f.wins + f.losses == |recent| && 0 <= f.losses
    ensures ParseIntPrefix(f.form) == Some(f.wins)
    ensures var k := |IntToString(f.wins)|;
      && k + 2 < |f.form| && f.form[k..k + 2] == "W-"
      && ParseIntPrefix(f.form[k + 2..]) == Some(f.losses)
      && f.form[|f.form| - 1] == 'L'
  {
    var wins := CountWins(recent, teamId);
    var losses := |recent| - wins;
    FormReadsBack(wins, losses);
    TeamForm(|recent|, wins, losses, FormText(wins, losses))
  }

  /** `"{wins}W-{losses}L"`. */
  function FormText(wins: int, losses: int): string {
    IntToString(wins) + ("W-" + IntToString(losses) + "L")
  }

  /** Both counts of a form line read back with `parseInt`. */
  lemma FormReadsBack(wins: int, losses: int)
    ensures var form, k := FormText(wins, losses), |IntToString(wins)|;
      && ParseIntPrefix(form) == Some(wins)
      && k + 2 < |form| && form[k..k + 2] == "W-"
      && ParseIntPrefix(form[k + 2..]) == Some(losses)
      && form[|form| - 1] == 'L'
  {
    var x, y := IntToString(wins), IntToString(losses);
    FormShape(x, y);
    ParseIntPrefixOfIntToString(wins, "W-" + y + "L");
    ParseIntPrefixOfIntToString(losses, "L");
  }

  /** Where the pieces of a form line sit. */
  lemma FormShape(x: string, y: string)
    ensures var form := x + ("W-" + y + "L");
      && form[|x|..|x| + 2] == "W-" && form[|x| + 2..] == y + "L" && form[|form| - 1] == 'L'
  {
  }

  /** Winning every game is exactly a form with no losses. */
  lemma {:induction false} AllWinsIffNoLosses(games: seq<TeamEvent>, teamId: int)
    ensures CountWins(games, teamId) == |games| <==> forall i :: 0 <= i < |games| ==> Won(games[i], teamId)
    decreases |games|
  {
    if |games| > 0 {
      var init := games[..|games| - 1];
      AllWinsIffNoLosses(init, teamId);
      assert forall i :: 0 <= i < |init| ==> init[i] == games[i];
    }
  }

  /** Events beyond the fifth never affect the form. */
  lemma OlderEventsIgnored(teamId: int, recent: seq<TeamEvent>, older: seq<TeamEvent>)
    requires |recent| == 5
    ensures GetTeamForm(teamId, Some(recent + older)) == GetTeamForm(teamId, Some(recent))
  {
    var all := recent + older;
    assert all[..5] == recent;
    assert SlicePrefix(all, 5) == SlicePrefix(recent, 5);
    assert GetTeamForm(teamId, Some(all)) == Some(Tally(teamId, SlicePrefix(all, 5)));
  }

  /** The `team` of a player entity: absent, an object with or without a
      `name`, or plain text. */
  datatype EntityTeam = NoEntityTeam | TeamObject(teamName: Option<string>) | TeamText(text: string)

  /** A search hit's entity. Missing text fields are empty and a missing
      `id` is 0, which is what makes them falsy in the source. */
  datatype Entity = Entity(
    id: int, name: string, firstName: string, lastName: string,
    team: EntityTeam, position: string, sportName: Option<string>)

  /** A search hit: its type and, possibly, its entity. */
  datatype SearchResult = SearchResult(resultType: string, entity: Option<Entity>)

  predicate IsBasketballPlayer(r: SearchResult) {
    r.resultType == "player" && r.entity.Some? && r.entity.value.sportName == Some("Basketball")
  }

  /** `getPlayerByName`: the entity of the first basketball player hit. */
  function GetPlayerByName(results: seq<SearchResult>): (r: Option<Entity>)
    ensures r.None? <==> forall i :: 0 <= i < |results| ==> !IsBasketballPlayer(results[i])
    ensures r.Some? ==>
      exists i :: 0 <= i < |results| && IsBasketballPlayer(results[i]) && r.value == results[i].entity.value
        && (forall j :: 0 <= j < i ==> !IsBasketballPlayer(results[j]))
    decreases |results|
  {
    if |results| == 0 then None
    else if IsBasketballPlayer(results[0]) then Some(results[0].entity.value)
    else
      var r := GetPlayerByName(results[1..]);
      assert forall i :: 1 <= i < |results| ==> results[i] == results[1..][i - 1];
      r
  }
}

=== FILE: stable_sort.dfy ===
/** `Array.prototype.sort` with a numeric "descending by key" comparator
    (`(a, b) => key(b) - key(a)`). ECMAScript requires this sort to be stable,
    so the model is a stable insertion sort: elements with equal keys keep
    their input order. */
module StableSort {
  import opened Js

  predicate SortedDesc<T>(s: seq<T>, key: T -> real) {
    forall i, j :: 0 <= i < j < |s| ==> key(s[i]) >= key(s[j])
  }

  /** Inserts `x` after every leading element whose key is at least `key(x)`. */
  function Insert<T>(s: seq<T>, x: T, key: T -> real): (r: seq<T>)
    ensures |r| == |s| + 1
    decreases |s|
  {
    if |s| == 0 then [x]
    else if key(s[0]) >= key(x) then [s[0]] + Insert(s[1..], x, key)
    else [x] + s
  }

  /** Insertion adds exactly `x`. */
  lemma {:induction false} InsertMultiset<T>(s: seq<T>, x: T, key: T -> real)
    ensures multiset(Insert(s, x, key)) == multiset(s) + multiset{x}
    decreases |s|
  {
    if |s| > 0 && key(s[0]) >= key(x) {
      InsertMultiset(s[1..], x, key);
      assert s == [s[0]] + s[1..];
    }
  }

  /** Every key of the insertion result is bounded by a common bound of the
      inputs' keys. */
  lemma {:induction false} InsertBounded<T>(s: seq<T>, x: T, key: T -> real, b: real)
    requires forall i :: 0 <= i < |s| ==> key(s[i]) <= b
    requires key(x) <= b
    ensures forall i :: 0 <= i < |Insert(s, x, key)| ==> key(Insert(s, x, key)[i]) <= b
    decreases |s|
  {
    if |s| > 0 && key(s[0]) >= key(x) {
      InsertBounded(s[1..], x, key, b);
    }
  }

  /** Inserting into a sorted sequence keeps it sorted. */
  lemma {:induction false} InsertSorted<T>(s: seq<T>, x: T, key: T -> real)
    requires SortedDesc(s, key)
    ensures SortedDesc(Insert(s, x, key), key)
    decreases |s|
  {
    if |s| > 0 && key(s[0]) >= key(x) {
      InsertSorted(s[1..], x, key);
      InsertBounded(s[1..], x, key, key(s[0]));
    }
  }

  /** The stable descending sort. */
  function Sort<T(==)>(s: seq<T>, key: T -> real): (r: seq<T>)
    ensures |r| == |s|
    ensures multiset(r) == multiset(s)
    ensures SortedDesc(r, key)
    decreases |s|
  {
    if |s| == 0 then []
    else
      assert s == s[..|s| - 1] + [s[|s| - 1]];
      InsertSorted(Sort(s[..|s| - 1], key), s[|s| - 1], key);
      InsertMultiset(Sort(s[..|s| - 1], key), s[|s| - 1], key);
      Insert(Sort(s[..|s| - 1], key), s[|s| - 1], key)
  }

  /** The elements whose key is exactly `k`, in order. */
  function WithKey<T>(s: seq<T>, key: T -> real, k: real): seq<T>
    decreases |s|
  {
    if |s| == 0 then []
    else (if key(s[0]) == k then [s[0]] else []) + WithKey(s[1..], key, k)
  }

  lemma {:induction false} WithKeyAppend<T>(a: seq<T>, x: T, key: T -> real, k: real)
    ensures WithKey(a + [x], key, k) == WithKey(a, key, k) + (if key(x) == k then [x] else [])
    decreases |a|
  {
    if |a| > 0 {
      assert (a + [x])[1..] == a[1..] + [x];
      WithKeyAppend(a[1..], x, key, k);
    }
  }

  lemma {:induction false} WithKeyNone<T>(s: seq<T>, key: T -> real, k: real)
    requires forall i :: 0 <= i < |s| ==> key(s[i]) < k
    ensures WithKey(s, key, k) == []
    decreases |s|
  {
    if |s| > 0 {
      WithKeyNone(s[1..], key, k);
    }
  }

  /** `x` goes in front when it beats the head: every element of the sorted
      input then has a smaller key. */
  lemma InsertInFront<T>(s: seq<T>, x: T, key: T -> real, k: real)
    requires SortedDesc(s, key)
    requires |s| > 0 && key(s[0]) < key(x)
    ensures WithKey([x] + s, key, k) == WithKey(s, key, k) + (if key(x) == k then [x] else [])
  {
    assert ([x] + s)[1..] == s;
    if key(x) == k {
      forall i | 0 <= i < |s| ensures key(s[i]) < k {
        assert i == 0 || key(s[0]) >= key(s[i]);
      }
      WithKeyNone(s, key, k);
    }
  }

  lemma WithKeyCons<T>(y: T, s: seq<T>, key: T -> real, k: real)
    ensures WithKey([y] + s, key, k) == (if key(y) == k then [y] else []) + WithKey(s, key, k)
  {
    assert ([y] + s)[1..] == s;
  }

  lemma {:induction false} InsertWithKey<T>(s: seq<T>, x: T, key: T -> real, k: real)
    requires SortedDesc(s, key)
    ensures WithKey(Insert(s, x, key), key, k) == WithKey(s, key, k) + (if key(x) == k then [x] else [])
    decreases |s|
  {
    if |s| == 0 {
      WithKeyCons(x, [], key, k);
    } else if key(s[0]) >= key(x) {
      var rest := Insert(s[1..], x, key);
      assert Insert(s, x, key) == [s[0]] + rest;
      WithKeyCons(s[0], rest, key, k);
      InsertWithKey(s[1..], x, key, k);
      assert s == [s[0]] + s[1..];
      WithKeyCons(s[0], s[1..], key, k);
    } else {
      assert Insert(s, x, key) == [x] + s;
      InsertInFront(s, x, key, k);
    }
  }

  /** Stability: for every key value, the elements carrying it appear in the
      sorted output in exactly their input order. */
  lemma {:induction false} SortIsStable<T>(s: seq<T>, key: T -> real, k: real)
    ensures WithKey(Sort(s, key), key, k) == WithKey(s, key, k)
    decreases |s|
  {
    if |s| > 0 {
      var init := s[..|s| - 1];
      var last := s[|s| - 1];
      assert s == init + [last];
      SortIsStable(init, key, k);
      InsertWithKey(Sort(init, key), last, key, k);
      WithKeyAppend(init, last, key, k);
    }
  }

  /** Sorting then `slice(0, n)`: the best `n` elements by key, best first;
      a negative `n` drops that many from the end, as `slice` does. */
  function TopByKey<T(==)>(s: seq<T>, key: T -> real, n: int): (r: seq<T>)
    ensures |r| <= |s|
    ensures 0 <= n ==> |r| == Min(n, |s|)
    ensures n < 0 ==> |r| == if |s| + n < 0 then 0 else |s| + n
    ensures r == Sort(s, key)[..|r|]
    ensures SortedDesc(r, key)
    ensures multiset(r) <= multiset(s)
    ensures forall i :: 0 <= i < |r| ==> r[i] in s
    ensures forall i, j :: 0 <= i < |r| && 0 <= j < |s| && s[j] !in multiset(r) ==> key(r[i]) >= key(s[j])
  {
    var sorted := Sort(s, key);
    PrefixOfSorted(sorted, key, n);
    LeftOutRankLower(s, sorted, key, SlicePrefix(sorted, n));
    SlicePrefix(sorted, n)
  }

  /** The cut keeps the sort's stability: the kept elements with any one key
      are the first of the input's elements with that key, in input order. */
  lemma TopByKeyIsStable<T>(s: seq<T>, key: T -> real, n: int, k: real)
    ensures WithKey(TopByKey(s, key, n), key, k) <= WithKey(s, key, k)
  {
    var r := TopByKey(s, key, n);
    WithKeyOfPrefix(Sort(s, key), |r|, key, k);
    SortIsStable(s, key, k);
  }

  /** The elements with key `k` in a prefix are a prefix of those in the whole. */
  lemma {:induction false} WithKeyOfPrefix<T>(s: seq<T>, m: nat, key: T -> real, k: real)
    requires m <= |s|
    ensures WithKey(s[..m], key, k) <= WithKey(s, key, k)
    decreases m
  {
    if m > 0 {
      WithKeyOfPrefix(s[1..], m - 1, key, k);
      assert s[..m][1..] == s[1..][..m - 1];
      var head := if key(s[0]) == k then [s[0]] else [];
      assert WithKey(s[..m], key, k) == head + WithKey(s[1..][..m - 1], key, k);
      assert WithKey(s, key, k) == head + WithKey(s[1..], key, k);
    }
  }

  /** A prefix of a sorted sequence is sorted, and holds part of it. */
  lemma PrefixOfSorted<T>(sorted: seq<T>, key: T -> real, n: int)
    requires SortedDesc(sorted, key)
    ensures SortedDesc(SlicePrefix(sorted, n), key)
    ensures multiset(SlicePrefix(sorted, n)) <= multiset(sorted)
    ensures sorted == SlicePrefix(sorted, n) + sorted[|SlicePrefix(sorted, n)|..]
  {
    var r := SlicePrefix(sorted, n);
    assert sorted == r + sorted[|r|..];
    assert multiset(sorted) == multiset(r) + multiset(sorted[|r|..]);
  }

  /** What the prefix `r` of the sorted `sorted` leaves out ranks no higher
      than anything it keeps. */
  lemma LeftOutRankLower<T>(s: seq<T>, sorted: seq<T>, key: T -> real, r: seq<T>)
    requires SortedDesc(sorted, key) && multiset(sorted) == multiset(s)
    requires |r| <= |sorted| && sorted == r + sorted[|r|..]
    ensures forall i :: 0 <= i < |r| ==> r[i] in s
    ensures forall i, j :: 0 <= i < |r| && 0 <= j < |s| && s[j] !in multiset(r) ==> key(r[i]) >= key(s[j])
  {
    assert multiset(sorted) == multiset(r) + multiset(sorted[|r|..]);
    forall j | 0 <= j < |s| && s[j] !in multiset(r)
      ensures s[j] in sorted[|r|..]
    {
      assert s[j] in multiset(sorted);
    }
    forall i | 0 <= i < |r|
      ensures r[i] in s
    {
      assert r[i] in multiset(sorted);
    }
  }
}

=== FILE: statmuse_api.dfy ===
/** The URL builders of `StatMuseAPI` (`src/data/ingestion/StatMuseAPI.js`):
    a question becomes a lower-case, hyphenated slug under the `/ask/` path. */
module StatMuseApi {
  import opened Wrappers
  import opened JsString

  const BASE_URL: string := "https://www.statmuse.com/nba"

  /** Every character is already in lower case. */
  predicate IsLowerCase(s: string) {
    forall i :: 0 <= i < |s| ==> LowerChar(s[i]) == s[i]
  }

  /** `text.toLowerCase().replace(/\s+/g, '-')`: no whitespace is left,
      everything is lower case, and text without whitespace only changes
      case. `SlugOfSpacedWords` shows a run becoming one hyphen. */
  function Slug(text: string): (r: string)
    ensures NoWhitespace(r)
    ensures IsLowerCase(r)
    ensures NoWhitespace(text) ==> r == ToLower(text)
  {
    WhitespaceRunsReplaced(ToLower(text), "-");
    assert NoWhitespace(text) ==> ReplaceWhitespaceRuns(ToLower(text), "-") == ToLower(text) by {
      if NoWhitespace(text) {
        LowerKeepsWhitespace(text);
        NoWhitespaceRunsToReplace(ToLower(text), "-");
      }
    }
    ReplaceWhitespaceRuns(ToLower(text), "-")
  }

  /** Replacing whitespace runs by whitespace-free text leaves no whitespace,
      and keeps a lower-case text lower-case. */
  lemma {:induction false} WhitespaceRunsReplaced(s: string, rep: string)
    ensures NoWhitespace(rep) ==> NoWhitespace(ReplaceWhitespaceRuns(s, rep))
    ensures IsLowerCase(s) && IsLowerCase(rep) ==> IsLowerCase(ReplaceWhitespaceRuns(s, rep))
    decreases |s|
  {
    if |s| > 0 {
      if IsWhitespace(s[0]) {
        var t := TrimStart(s);
        assert IsLowerCase(s) ==> IsLowerCase(t) by {
          assert forall i :: 0 <= i < |t| ==> t[i] == s[|s| - |t| + i];
        }
        WhitespaceRunsReplaced(t, rep);
      } else {
        assert IsLowerCase(s) ==> IsLowerCase(s[1..]) by {
          assert forall i :: 0 <= i < |s| - 1 ==> s[1..][i] == s[i + 1];
        }
        WhitespaceRunsReplaced(s[1..], rep);
      }
    }
  }

  /** Text without whitespace is left as it is. */
  lemma {:induction false} NoWhitespaceRunsToReplace(s: string, rep: string)
    requires NoWhitespace(s)
    ensures ReplaceWhitespaceRuns(s, rep) == s
    decreases |s|
  {
    if |s| > 0 {
      assert NoWhitespace(s[1..]) by {
        assert forall i :: 0 <= i < |s| - 1 ==> s[1..][i] == s[i + 1];
      }
      NoWhitespaceRunsToReplace(s[1..], rep);
    }
  }

  lemma ToLowerOfLowerCase(s: string)
    requires IsLowerCase(s)
    ensures ToLower(s) == s
  {
  }

  /** Text that is already lower case and free of whitespace is its own slug. */
  lemma SlugOfSlugForm(s: string)
    requires NoWhitespace(s) && IsLowerCase(s)
    ensures Slug(s) == s
  {
    ToLowerOfLowerCase(s);
    NoWhitespaceRunsToReplace(s, "-");
  }

  /** Joining two texts in slug form gives a text in slug form. */
  lemma SlugFormJoin(a: string, b: string)
    requires NoWhitespace(a) && IsLowerCase(a)
    requires NoWhitespace(b) && IsLowerCase(b)
    ensures NoWhitespace(a + b) && IsLowerCase(a + b)
  {
  }

  /** A slug is its own slug. */
  lemma SlugIdempotent(text: string)
    ensures Slug(Slug(text)) == Slug(text)
  {
    SlugOfSlugForm(Slug(text));
  }

  /** The `/ask/` URL of a slugged question. */
  function AskUrl(text: string): (url: string)
    ensures StartsWith(url, BASE_URL + "/ask/")
    ensures NoWhitespace(url[|BASE_URL + "/ask/"|..])
  {
    var url := BASE_URL + "/ask/" + Slug(text);
    assert url[..|BASE_URL + "/ask/"|] == BASE_URL + "/ask/";
    assert url[|BASE_URL + "/ask/"|..] == Slug(text);
    url
  }

  /** `query`: the URL when the page request succeeds (`fetched`), `None`
      when it throws. */
  function Query(question: string, fetched: bool): (r: Option<string>)
    ensures r.Some? <==> fetched
    ensures r.Some? ==> r.value == AskUrl(question)
  {
    if fetched then Some(AskUrl(question)) else None
  }

  const POINTS_LEADERS: string := "who-leads-the-nba-in-points-per-game-this-season"

  /** The fixed question of `getPlayerLeaders`; any other stat asks for points. */
  function LeadersQuestion(stat: string): (q: string)
    ensures stat !in {"points", "rebounds", "assists", "threes"} ==> q == POINTS_LEADERS
    ensures stat == "points" ==> q == POINTS_LEADERS
    ensures stat == "rebounds" ==> q == "who-leads-the-nba-in-rebounds-per-game-this-season"
    ensures stat == "assists" ==> q == "who-leads-the-nba-in-assists-per-game-this-season"
    ensures stat == "threes" ==> q == "who-leads-the-nba-in-3-pointers-made-per-game-this-season"
  {
    if stat == "rebounds" then "who-leads-the-nba-in-rebounds-per-game-this-season"
    else if stat == "assists" then "who-leads-the-nba-in-assists-per-game-this-season"
    else if stat == "threes" then "who-leads-the-nba-in-3-pointers-made-per-game-this-season"
    else POINTS_LEADERS
  }

  /** `getPlayerLeaders`: the fixed question's URL, used as written (it is
      not slugged); an unknown stat gets the points URL. */
  function GetPlayerLeaders(stat: string): (url: string)
    ensures StartsWith(url, BASE_URL + "/ask/")
    ensures stat !in {"points", "rebounds", "assists", "threes"} ==> url == BASE_URL + "/ask/" + POINTS_LEADERS
    ensures url == BASE_URL + "/ask/" + LeadersQuestion(stat)
  {
    var url := BASE_URL + "/ask/" + LeadersQuestion(stat);
    assert url[..|BASE_URL + "/ask/"|] == BASE_URL + "/ask/";
    url
  }

  /** `getPlayerComparison`. */
  function GetPlayerComparison(player1: string, player2: string): (url: string)
    ensures url == AskUrl(player1 + "-vs-" + player2 + "-stats")
  {
    BASE_URL + "/ask/" + Slug(player1 + "-vs-" + player2 + "-stats")
  }

  /** `getPlayerCareerStats`. */
  function GetPlayerCareerStats(playerName: string): (url: string)
    ensures url == AskUrl(playerName + "-career-stats")
  {
    BASE_URL + "/ask/" + Slug(playerName + "-career-stats")
  }

  /** Names already in slug form pass through unchanged. */
  lemma SluggedNamesPassThrough(player1: string, player2: string)
    requires NoWhitespace(player1) && IsLowerCase(player1)
    requires NoWhitespace(player2) && IsLowerCase(player2)
    ensures GetPlayerComparison(player1, player2) == BASE_URL + "/ask/" + player1 + "-vs-" + player2 + "-stats"
  {
    var q := player1 + "-vs-" + player2 + "-stats";
    ComparisonInSlugForm(player1, player2);
    SlugOfSlugForm(q);
  }

  lemma ComparisonInSlugForm(player1: string, player2: string)
    requires NoWhitespace(player1) && IsLowerCase(player1)
    requires NoWhitespace(player2) && IsLowerCase(player2)
    ensures var q := player1 + "-vs-" + player2 + "-stats"; NoWhitespace(q) && IsLowerCase(q)
  {
    SlugFormJoin(player1, "-vs-");
    SlugFormJoin(player1 + "-vs-", player2);
    SlugFormJoin(player1 + "-vs-" + player2, "-stats");
  }

  predicate AllWhitespace(s: string) {
    forall i :: 0 <= i < |s| ==> IsWhitespace(s[i])
  }

  /** Lower-casing changes no character's whitespace-ness. */
  lemma LowerKeepsWhitespace(s: string)
    ensures forall i :: 0 <= i < |s| ==> (IsWhitespace(ToLower(s)[i]) <==> IsWhitespace(s[i]))
    ensures NoWhitespace(s) <==> NoWhitespace(ToLower(s))
    ensures AllWhitespace(s) <==> AllWhitespace(ToLower(s))
  {
  }

  /** Trimming the start drops exactly a leading whitespace run. */
  lemma {:induction false} TrimStartOfRun(ws: string, b: string)
    requires AllWhitespace(ws)
    requires |b| == 0 || !IsWhitespace(b[0])
    ensures TrimStart(ws + b) == b
    decreases |ws|
  {
    if |ws| == 0 {
      assert ws + b == b;
    } else {
      assert (ws + b)[1..] == ws[1..] + b;
      TrimStartOfRun(ws[1..], b);
    }
  }

  /** A whitespace run after whitespace-free text, and before text that does
      not start with whitespace, becomes one copy of the replacement. */
  lemma {:induction false} WhitespaceRunBecomesOne(a: string, ws: string, b: string, rep: string)
    requires NoWhitespace(a) && |ws| > 0 && AllWhitespace(ws)
    requires |b| == 0 || !IsWhitespace(b[0])
    ensures ReplaceWhitespaceRuns(a + ws + b, rep) == a + rep + ReplaceWhitespaceRuns(b, rep)
    decreases |a|
  {
    if |a| == 0 {
      assert a + ws + b == ws + b;
      assert (ws + b)[0] == ws[0];
      TrimStartOfRun(ws, b);
      assert a + rep == rep;
    } else {
      TailHasNoWhitespace(a);
      WhitespaceRunBecomesOne(a[1..], ws, b, rep);
      assert a + ws + b == [a[0]] + (a[1..] + ws + b);
      WordCharKept(a[0], a[1..] + ws + b, rep);
      assert a + rep + ReplaceWhitespaceRuns(b, rep) == [a[0]] + (a[1..] + rep + ReplaceWhitespaceRuns(b, rep));
    }
  }

  /** Two words with any run of whitespace between them slug to the two
      lower-cased words joined by one hyphen. */
  lemma SlugOfSpacedWords(a: string, ws: string, b: string)
    requires NoWhitespace(a) && NoWhitespace(b) && |ws| > 0 && AllWhitespace(ws)
    ensures Slug(a + ws + b) == ToLower(a) + "-" + ToLower(b)
  {
    var la, lw, lb := ToLower(a), ToLower(ws), ToLower(b);
    LowerKeepsWhitespace(a);
    LowerKeepsWhitespace(ws);
    LowerKeepsWhitespace(b);
    LowerOfJoin(a, ws, b);
    WhitespaceRunBecomesOne(la, lw, lb, "-");
    NoWhitespaceRunsToReplace(lb, "-");
  }

  /** Lower-casing works piece by piece. */
  lemma LowerOfJoin(a: string, ws: string, b: string)
    ensures ToLower(a + ws + b) == ToLower(a) + ToLower(ws) + ToLower(b)
  {
    ToLowerCharwise(a + ws + b, ToLower(a) + ToLower(ws) + ToLower(b));
  }

  lemma TailHasNoWhitespace(a: string)
    requires NoWhitespace(a) && |a| > 0
    ensures NoWhitespace(a[1..])
  {
    assert forall i :: 0 <= i < |a| - 1 ==> a[1..][i] == a[i + 1];
  }

  /** A character that is not whitespace is copied as it is. */
  lemma WordCharKept(c: char, t: string, rep: string)
    requires !IsWhitespace(c)
    ensures ReplaceWhitespaceRuns([c] + t, rep) == [c] + ReplaceWhitespaceRuns(t, rep)
  {
    assert ([c] + t)[1..] == t;
  }
}

=== FILE: trend_analyzer.dfy ===
/** `TrendAnalyzer` of `src/core/signals/TrendAnalyzer.js`: the hit count,
    colour and confidence of a player's recent form against a line. */
module TrendAnalyzer {
  import opened Wrappers
  import opened Js
  import opened JsString
  import opened Constants
  import opened PlayerModel

  datatype TrendColor = Green | Orange | Red {
    /** The colour name the analyzer returns. */
    function Name(): string {
      match this
      case Green => "green"
      case Orange => "orange"
      case Red => "red"
    }

    /** Red < Orange < Green. */
    function Rank(): nat {
      match this
      case Red => 0
      case Orange => 1
      case Green => 2
    }
  }

  /** `getWindowSize`: the three lower-case window names, anything else 10. */
  function WindowSize(window: string): (n: int)
    ensures n == 5 <==> window == "last_5"
    ensures n == 15 <==> window == "last_15"
    ensures n == 10 <==> window != "last_5" && window != "last_15"
    ensures n > 0
  {
    if window == "last_5" then 5
    else if window == "last_10" then 10
    else if window == "last_15" then 15
    else 10
  }

  /** `CONFIDENCE[window.toUpperCase()] || CONFIDENCE.LAST_10`. */
  function ThresholdsFor(window: string): ColorThresholds {
    ConfidenceEntry(ToUpper(window)).GetOr(LAST_10)
  }

  /** `determineColor`: green from the green minimum up, orange from the
      orange minimum up, red below. */
  function DetermineColor(hitCount: int, window: string): (c: TrendColor)
    ensures c == Green <==> hitCount >= ThresholdsFor(window).greenMin
    ensures c == Orange <==> ThresholdsFor(window).orangeMin <= hitCount < ThresholdsFor(window).greenMin
    ensures c == Red <==> hitCount < ThresholdsFor(window).greenMin && hitCount < ThresholdsFor(window).orangeMin
  {
    var t := ThresholdsFor(window);
    if hitCount >= t.greenMin then Green
    else if hitCount >= t.orangeMin then Orange
    else Red
  }

  /** Every window, recognised or not, gets one of the three tables, and
      the orange minimum is always below the green one. */
  lemma ThresholdsForIsATableEntry(window: string)
    ensures ThresholdsFor(window) in {LAST_5, LAST_10, LAST_15}
    ensures ThresholdsFor(window).orangeMin < ThresholdsFor(window).greenMin
  {
  }

  /** More hits never give a worse colour. */
  lemma DetermineColorMonotone(h1: int, h2: int, window: string)
    requires h1 <= h2
    ensures DetermineColor(h1, window).Rank() <= DetermineColor(h2, window).Rank()
  {
    ThresholdsForIsATableEntry(window);
  }

  /** The three lower-case window names select their own thresholds. */
  lemma RecognisedWindowThresholds()
    ensures ThresholdsFor("last_5") == LAST_5
    ensures ThresholdsFor("last_10") == LAST_10
    ensures ThresholdsFor("last_15") == LAST_15
  {
    UpperOfLast5();
    UpperOfLast10();
    UpperOfLast15();
  }

  lemma UpperOfLast5() ensures ToUpper("last_5") == "LAST_5" {
    ToUpperCharwise("last_5", "LAST_5");
  }

  lemma UpperOfLast10() ensures ToUpper("last_10") == "LAST_10" {
    ToUpperCharwise("last_10", "LAST_10");
  }

  lemma UpperOfLast15() ensures ToUpper("last_15") == "LAST_15" {
    ToUpperCharwise("last_15", "LAST_15");
  }

  /** The colour lookup upper-cases the window name but the size lookup does
      not: "LAST_5" is coloured against the five-game thresholds while its
      hits are counted over ten games. */
  lemma UpperCaseWindowMismatch()
    ensures WindowSize("LAST_5") == 10
    ensures ThresholdsFor("LAST_5") == LAST_5
  {
    ToUpperCharwise("LAST_5", "LAST_5");
  }

  /** A number that may also be infinite, for the intermediate values of
      `calculateConfidence`. */
  datatype Extended = Real(x: real) | PlusInfinity | MinusInfinity | NotANumber

  /** `Math.min(variance / average, 1)` with JavaScript division by zero. */
  function NormalizedVariance(variance: real, average: real): (r: Extended)
    ensures r.NotANumber? <==> average == 0.0 && variance == 0.0
    ensures r.MinusInfinity? <==> average == 0.0 && variance < 0.0
    ensures !r.PlusInfinity?
    ensures r.Real? ==> r.x <= 1.0
    ensures 0.0 <= variance && 0.0 < average ==> r.Real? && 0.0 <= r.x <= 1.0
    ensures variance == 0.0 && average != 0.0 ==> r == Real(0.0)
  {
    if average != 0.0 then
      var q := variance / average;
      Real(if q < 1.0 then q else 1.0)
    else if variance > 0.0 then Real(1.0)
    else if variance < 0.0 then MinusInfinity
    else NotANumber
  }

  /** The cushion adjustment: +5 when the average clears the line by more
      than 15%, -10 when it falls short by more than 5%, else 0 (also when
      the cushion is NaN). */
  function CushionAdjustment(average: real, threshold: real): (adj: int)
    ensures adj == 5 || adj == 0 || adj == -10
    ensures threshold > 0.0 ==> (adj == 5 <==> average > threshold * 1.15)
    ensures threshold > 0.0 ==> (adj == -10 <==> average < threshold * 0.95)
    ensures threshold == 0.0 ==> (adj == 5 <==> average > 0.0) && (adj == -10 <==> average < 0.0)
  {
    var cushion :=
      if threshold != 0.0 then Real((average - threshold) / threshold * 100.0)
      else if average > 0.0 then PlusInfinity
      else if average < 0.0 then MinusInfinity
      else NotANumber;
    CushionScaling(average, threshold);
    match cushion
    case Real(c) => if c > 15.0 then 5 else if c < -5.0 then -10 else 0
    case PlusInfinity => 5
    case MinusInfinity => -10
    case NotANumber => 0
  }

  lemma CushionScaling(average: real, threshold: real)
    ensures threshold > 0.0 ==>
      ((average - threshold) / threshold * 100.0 > 15.0 <==> average > threshold * 1.15)
    ensures threshold > 0.0 ==>
      ((average - threshold) / threshold * 100.0 < -5.0 <==> average < threshold * 0.95)
  {
    if threshold > 0.0 {
      var q := (average - threshold) / threshold;
      assert q * threshold == average - threshold;
    }
  }

  /** The hit rate as a percentage. */
  function HitPercentage(hitCount: int, windowSize: int): real
    requires windowSize > 0
  {
    hitCount as real / windowSize as real * 100.0
  }

  /** `calculateConfidence`: the hit percentage, less up to 20 points of
      volatility, plus the cushion adjustment, clamped to [0, 100]. */
  function CalculateConfidence(hitCount: int, windowSize: int, variance: real, average: real, threshold: real): (r: Number)
    requires windowSize > 0
    ensures r.NaN? <==> average == 0.0 && variance == 0.0
    ensures r.Finite? ==> 0.0 <= r.value <= 100.0
    ensures average == 0.0 && variance < 0.0 ==> r == Finite(100.0)
    ensures 0.0 < average && 0.0 <= variance ==>
      var base := HitPercentage(hitCount, windowSize) + CushionAdjustment(average, threshold) as real;
      r.Finite? && Clamp(base - 20.0, 0.0, 100.0) <= r.value <= Clamp(base, 0.0, 100.0)
    ensures variance == 0.0 && average != 0.0 ==>
      r == Finite(Clamp(HitPercentage(hitCount, windowSize) + CushionAdjustment(average, threshold) as real, 0.0, 100.0))
  {
    var adj := CushionAdjustment(average, threshold) as real;
    match NormalizedVariance(variance, average)
    case Real(nv) => Finite(Clamp(HitPercentage(hitCount, windowSize) - nv * 20.0 + adj, 0.0, 100.0))
    case MinusInfinity => Finite(100.0)
    case PlusInfinity => Finite(0.0)
    case NotANumber => NaN
  }

  /** More hits never lower the confidence; whether it is NaN does not
      depend on the hits. */
  lemma CalculateConfidenceMonotone(h1: int, h2: int, windowSize: int, variance: real, average: real, threshold: real)
    requires windowSize > 0 && h1 <= h2
    ensures CalculateConfidence(h1, windowSize, variance, average, threshold).NaN?
        == CalculateConfidence(h2, windowSize, variance, average, threshold).NaN?
    ensures CalculateConfidence(h1, windowSize, variance, average, threshold).Finite? ==>
      CalculateConfidence(h1, windowSize, variance, average, threshold).value
        <= CalculateConfidence(h2, windowSize, variance, average, threshold).value
  {
    assert HitPercentage(h1, windowSize) <= HitPercentage(h2, windowSize) by {
      DivideMonotone(h1 as real, h2 as real, windowSize as real);
    }
  }

  lemma DivideMonotone(a: real, b: real, d: real)
    requires a <= b && d > 0.0
    ensures a / d * 100.0 <= b / d * 100.0
  {
    assert (b - a) / d >= 0.0;
    assert b / d - a / d == (b - a) / d;
  }

  datatype TrendResult = TrendResult(
    hitCount: nat, windowSize: int, average: real, variance: real,
    color: TrendColor, confidence: Number, hitRate: real)

  /** `analyzePlayerTrend`: the hit count, average and deviation over the
      window's size, the colour of the hit count, and the confidence computed
      from those same figures. `sqrt` stands for `Math.sqrt`. */
  function AnalyzePlayerTrend(player: Player, market: string, threshold: real, window: string, sqrt: real -> real): (r: TrendResult)
    ensures r.windowSize == WindowSize(window)
    ensures r.hitCount == TrendCount(player, market, threshold, r.windowSize)
    ensures r.average == AverageStat(player, market, r.windowSize)
    ensures r.variance == GetVariance(player, market, r.windowSize, sqrt)
    ensures r.confidence == CalculateConfidence(r.hitCount, r.windowSize, r.variance, r.average, threshold)
    ensures r.hitCount <= r.windowSize && r.hitCount <= |player.recentGames|
    ensures r.hitRate == r.hitCount as real / r.windowSize as real
    ensures 0.0 <= r.hitRate <= 1.0
    ensures r.color == DetermineColor(r.hitCount, window)
    ensures r.confidence.Finite? ==> 0.0 <= r.confidence.value <= 100.0
    ensures r.confidence.NaN? <==> r.average == 0.0 && r.variance == 0.0
  {
    var size := WindowSize(window);
    var hits := TrendCount(player, market, threshold, size);
    var average := AverageStat(player, market, size);
    var variance := GetVariance(player, market, size, sqrt);
    RateWithinUnit(hits, size);
    TrendResult(hits, size, average, variance, DetermineColor(hits, window),
                CalculateConfidence(hits, size, variance, average, threshold),
                hits as real / size as real)
  }

  lemma RateWithinUnit(hits: int, size: int)
    requires 0 <= hits <= size && size > 0
    ensures 0.0 <= hits as real / size as real <= 1.0
  {
  }

  /** The hit rate divides by the window's size, not by the games played:
      a player with fewer games than the window can never reach a rate of 1. */
  lemma ShortHistoryCapsHitRate(player: Player, market: string, threshold: real, window: string, sqrt: real -> real)
    requires |player.recentGames| < WindowSize(window)
    ensures AnalyzePlayerTrend(player, market, threshold, window, sqrt).hitRate < 1.0
  {
  }

  /** A player with no recent games has average and deviation 0, so the
      confidence is NaN. */
  lemma EmptyHistoryGivesNaN(player: Player, market: string, threshold: real, window: string, sqrt: real -> real)
    requires |player.recentGames| == 0
    ensures AnalyzePlayerTrend(player, market, threshold, window, sqrt).confidence == NaN
    ensures AnalyzePlayerTrend(player, market, threshold, window, sqrt).color == Red
  {
    ThresholdsForIsATableEntry(window);
  }
}

=== FILE: wrappers.dfy ===
/** Optional values: `None` stands for the source's `null`/`undefined`
    (a missing field, a failed lookup, an unavailable source). */
module Wrappers {

  datatype Option<+T> = None | Some(value: T) {

    /** The wrapped value, or `default` when there is none. */
    function GetOr(default: T): T {
      match this
      case Some(v) => v
      case None => default
    }
  }
}
